=== FILE: README.md ===
# A Dafny model of the ZoKrates compiler core

This project models the core of the ZoKrates compiler. ZoKrates compiles a small typed language into
arithmetic circuits over a prime field. The project proves properties of these parts:

- **Semantic checker rules** (`semantics.rs`):
  - the symbol unifier;
  - function queries;
  - lexical scopes and the "Duplicate declaration" rule;
  - identifier lookup;
  - the single-`main` check;
  - struct-declaration checking;
  - array-slice bounds;
  - inline-struct literals.
- **Typed AST helpers** (`typed_absy/mod.rs`):
  - `get_type` and the assignee type;
  - the `TryFrom` downcasts;
  - the `IfElse`, `Select` and `Member` smart constructors;
  - the ABI of `main`;
  - symbol signatures.
- **The generic folder** (`typed_absy/folder.rs`) and **the variable-read remover**
  (`static_analysis/variable_read_remover.rs`), which overrides it.
- **Linear and quadratic combinations** (`ir/expression.rs`):
  - term-list arithmetic;
  - canonical form, reduction and equality;
  - `try_summand` and `try_linear`.
- **ABI signatures** (`typed_absy/abi.rs`) and **identifiers** (`typed_absy/identifier.rs`).

The field type `T` is the integers modulo an abstract modulus `P >= 2` (`field.dfy`). Nothing about
the concrete BN128 prime is assumed.

The files follow the program's structure:

| file | contents |
|---|---|
| `wrappers.dfy` | `Option` and `Result` |
| `field.dfy` | the field and its laws |
| `identifier.dfy` | identifiers and their printing |
| `types.dfy` | types, signatures, function keys, variables |
| `abi.dfy` | the ABI |
| `typed_absy.dfy` | the typed AST and its helpers |
| `variable_read_remover.dfy` | the select rewrite, with a small evaluator that gives it meaning |
| `folder.dfy` | the folder, the default folds and the remover's overrides |
| `lin_comb.dfy` | linear and quadratic combinations |
| `semantics.dfy` | the checker rules |

The repository is named after an HMAC-over-Streebog circuit, and its description is about that
circuit. No source file contains the circuit. The code is the compiler, so this model follows the code.

## Model

| member | source | states |
|---|---|---|
| Abi.SignatureOf | zokrates_core/src/typed_absy/abi.rs:20-26 | The signature has one input per ABI input, in order: the input's type. Its outputs are the ABI outputs. |
| Abi.SignatureIgnoresNamesAndVisibility | zokrates_core/src/typed_absy/abi.rs:20-26 | Two ABIs have the same signature exactly when their input types (position by position) and their outputs agree. Names and public flags do not matter. |
| Identifiers.FromCore | zokrates_core/src/typed_absy/identifier.rs:64-72 | A core identifier becomes an identifier with version 0 and an empty call stack. |
| Identifiers.FromStr | zokrates_core/src/typed_absy/identifier.rs:58-72 | A source name becomes `Source(s)` with version 0 and an empty stack, and it prints back as `s`. |
| Identifiers.DisplayCore | zokrates_core/src/typed_absy/identifier.rs:12-20 | Prints a core identifier: the source name, `#INTERNAL#_s_i`, or the hex hash then `_i`. Injectivity of the internal form is `InternalDisplayInjective`. |
| Identifiers.Display | zokrates_core/src/typed_absy/identifier.rs:33-56 | Prints an identifier. The plain case is `DisplayPlain`. The versioned case is `DisplayVersionedStartsWithUnderscore`, and `DisplayRecoversVersion` shows the version can be read back. |
| Identifiers.NatToBase | zokrates_core/src/typed_absy/identifier.rs:16-17 | A number is printed as a non-empty string of digits in the base, with no leading zero. |
| Identifiers.ParseNatToBase | zokrates_core/src/typed_absy/identifier.rs:16-17 | Reading the printed digits back gives the number. |
| Identifiers.DecimalInjective | zokrates_core/src/typed_absy/identifier.rs:16 | Two numbers print the same in decimal exactly when they are equal. |
| Identifiers.HexInjective | zokrates_core/src/typed_absy/identifier.rs:17 | Two function-key hashes print the same in lowercase hex exactly when they are equal. |
| Identifiers.DecimalHasNoUnderscore | zokrates_core/src/typed_absy/identifier.rs:37-54 | A printed version number holds no `_`, so the separator before it can be found. |
| Identifiers.AfterLastUnderscoreOfSuffix | zokrates_core/src/typed_absy/identifier.rs:37-54 | After `prefix_d` with an underscore-free `d`, the text after the last underscore is `d`. |
| Identifiers.DisplayPlain | zokrates_core/src/typed_absy/identifier.rs:35-36 | With an empty stack and version 0, only the core identifier is printed. |
| Identifiers.DisplayVersionedStartsWithUnderscore | zokrates_core/src/typed_absy/identifier.rs:37-54 | With an empty stack and a nonzero version, the text is `_id_version` and starts with `_`. |
| Identifiers.DisplayRecoversVersion | zokrates_core/src/typed_absy/identifier.rs:37-54 | In every versioned or stacked identifier, the last `_`-separated part is the version in decimal. |
| Identifiers.InternalDisplayInjective | zokrates_core/src/typed_absy/identifier.rs:16 | `#INTERNAL#_s_i` determines both `s` and `i`, for any tag `s`, even one containing `_`. |
| Types.FindMember | zokrates_core/src/typed_absy/mod.rs:1301-1356 | A member lookup succeeds exactly when some member has the id. It returns the first such member. |
| TypedAbsy.GetTypeDeterminesKind | zokrates_core/src/typed_absy/mod.rs:540-580 | Each expression kind has its own type shape, both ways: field, boolean, uint of its bitwidth, array of its element type and size, struct of its member list. |
| TypedAbsy.GetType | zokrates_core/src/typed_absy/mod.rs:540-580 | The type of a typed expression. `GetTypeDeterminesKind` gives its shape for each kind, both ways. |
| TypedAbsy.AssigneeType | zokrates_core/src/typed_absy/mod.rs:268-293 | An identifier has its variable's type. A select has the element type of its base array. A member access has the declared type of that member. |
| TypedAbsy.TryIntoField | zokrates_core/src/typed_absy/mod.rs:812-823 | The downcast succeeds exactly on field expressions and returns the payload unchanged. |
| TypedAbsy.TryIntoBoolean | zokrates_core/src/typed_absy/mod.rs:825-834 | The downcast succeeds exactly on boolean expressions and returns the payload unchanged. |
| TypedAbsy.TryIntoUint | zokrates_core/src/typed_absy/mod.rs:836-845 | The downcast succeeds exactly on uint expressions and returns the payload unchanged. |
| TypedAbsy.TryIntoArray | zokrates_core/src/typed_absy/mod.rs:847-856 | The downcast succeeds exactly on array expressions and returns the payload unchanged. |
| TypedAbsy.TryIntoStruct | zokrates_core/src/typed_absy/mod.rs:858-867 | The downcast succeeds exactly on struct expressions and returns the payload unchanged. |
| TypedAbsy.DowncastRoundTrip | zokrates_core/src/typed_absy/mod.rs:812-867 | Wrapping a payload and downcasting it to its own kind gives it back. Downcasting it to another kind fails. |
| TypedAbsy.DowncastAgreesWithType | zokrates_core/src/typed_absy/mod.rs:812-867 | A downcast succeeds exactly when the expression's type has the matching shape. |
| TypedAbsy.FieldIfElseOf | zokrates_core/src/typed_absy/mod.rs:1180-1188 | The field conditional. `IfElseKeepsConsequenceType` shows it has the consequence's type, field. |
| TypedAbsy.BoolIfElseOf | zokrates_core/src/typed_absy/mod.rs:1190-1198 | The boolean conditional. `IfElseKeepsConsequenceType` shows it has the consequence's type, boolean. |
| TypedAbsy.UIfElseOf | zokrates_core/src/typed_absy/mod.rs:1200-1210 | The uint conditional takes its bitwidth from the consequence. |
| TypedAbsy.ArrayIfElseOf | zokrates_core/src/typed_absy/mod.rs:1212-1223 | The array conditional takes its element type and size from the consequence. |
| TypedAbsy.StructIfElseOf | zokrates_core/src/typed_absy/mod.rs:1225-1234 | The struct conditional takes its struct type from the consequence. |
| TypedAbsy.IfElseKeepsConsequenceType | zokrates_core/src/typed_absy/mod.rs:1180-1234 | A conditional of any kind (field, boolean, uint, array or struct) has the consequence's type, whatever the alternative. |
| TypedAbsy.FieldSelectOf | zokrates_core/src/typed_absy/mod.rs:1240-1244 | Selecting a field element. `SelectElementHasElementType` shows it has the array's element type. |
| TypedAbsy.BoolSelectOf | zokrates_core/src/typed_absy/mod.rs:1246-1250 | Selecting a boolean. `SelectElementHasElementType` shows it has the array's element type. |
| TypedAbsy.USelectOf | zokrates_core/src/typed_absy/mod.rs:1252-1261 | The uint select's bitwidth is that of the array's element type. |
| TypedAbsy.ArraySelectOf | zokrates_core/src/typed_absy/mod.rs:1263-1272 | The array select's element type and size are those of the array's element type. |
| TypedAbsy.StructSelectOf | zokrates_core/src/typed_absy/mod.rs:1274-1283 | The struct select's struct type is the array's element type. |
| TypedAbsy.SelectElementHasElementType | zokrates_core/src/typed_absy/mod.rs:1236-1283 | Selecting from an array gives an expression of the array's element type, whatever that type is. |
| TypedAbsy.FieldMemberOf | zokrates_core/src/typed_absy/mod.rs:1289-1293 | A field member access. `MemberElementHasDeclaredType` shows it has the member's declared type. |
| TypedAbsy.BoolMemberOf | zokrates_core/src/typed_absy/mod.rs:1295-1299 | A boolean member access. `MemberElementHasDeclaredType` shows it has the member's declared type. |
| TypedAbsy.UMemberOf | zokrates_core/src/typed_absy/mod.rs:1301-1318 | The uint member access takes its bitwidth from the member's declared type. |
| TypedAbsy.ArrayMemberOf | zokrates_core/src/typed_absy/mod.rs:1320-1337 | The array member access takes its element type and size from the member's declared type. |
| TypedAbsy.StructMemberOf | zokrates_core/src/typed_absy/mod.rs:1339-1356 | The struct member access takes its struct type from the member's declared type. |
| TypedAbsy.MemberElementHasDeclaredType | zokrates_core/src/typed_absy/mod.rs:1285-1356 | Accessing a member gives an expression of the member's declared type. |
| TypedAbsy.AbiOfMain | zokrates_core/src/typed_absy/mod.rs:68-79 | There is one ABI input per argument of `main`, in order, named by the printed identifier, with the argument's type. An input is public exactly when the argument is not private. The outputs are `main`'s outputs. |
| TypedAbsy.AbiSignatureIsMainSignature | zokrates_core/src/typed_absy/abi.rs:40-88 | When the argument types are the signature's inputs, the ABI's signature is `main`'s signature. |
| TypedAbsy.ProgramAbi | zokrates_core/src/typed_absy/mod.rs:55-80 | The program's ABI is the ABI of some function named `main` in the main module. |
| TypedAbsy.SymbolSignature | zokrates_core/src/typed_absy/mod.rs:130-145 | A local function has its own signature, and an embedded function has the embed's signature. |
| TypedAbsy.ThereResolvesToTarget | zokrates_core/src/typed_absy/mod.rs:134-141 | An imported symbol has the signature of the symbol it names in the named module. |
| TypedAbsy.SymbolSignatureFuelMonotone | zokrates_core/src/typed_absy/mod.rs:130-145 | Once a signature is found, following imports further does not change it. |
| VariableReadRemoval.SelectAs | zokrates_core/src/static_analysis/variable_read_remover.rs:80-138 | Every element kind is selected by the same rule. The result has the requested kind, and when the kind matches the array it is the typed select of the element type. |
| VariableReadRemoval.IfElseAs | zokrates_core/src/static_analysis/variable_read_remover.rs:58-73 | A conditional between two expressions of the same kind keeps that kind and its type. |
| VariableReadRemoval.Guard | zokrates_core/src/static_analysis/variable_read_remover.rs:42-56 | The guard is `i == 0` for one element. Otherwise it is a disjunction whose last disjunct is `i == n-1`. |
| VariableReadRemoval.Chain | zokrates_core/src/static_analysis/variable_read_remover.rs:58-73 | The if-else chain has the requested kind. |
| VariableReadRemoval.Select | zokrates_core/src/static_analysis/variable_read_remover.rs:29-76 | A constant index gives back the select unchanged and queues nothing. Otherwise one guard assertion is queued after the pending ones, and the result is the chain from element 0. |
| VariableReadRemoval.IndexIsMeaning | zokrates_core/src/static_analysis/variable_read_remover.rs:42-56 | `i == k` holds exactly when the index evaluates to `k`. |
| VariableReadRemoval.GuardMeaning | zokrates_core/src/static_analysis/variable_read_remover.rs:42-56 | The queued guard holds exactly when the index is below the array size, for every size. |
| VariableReadRemoval.ResolveIfElse | zokrates_core/src/static_analysis/variable_read_remover.rs:58-73 | A conditional resolves to the branch its condition picks. |
| VariableReadRemoval.ResolveSelect | zokrates_core/src/static_analysis/variable_read_remover.rs:34-35 | A select is already resolved. |
| VariableReadRemoval.ChainResolvesFrom | zokrates_core/src/static_analysis/variable_read_remover.rs:58-73 | For an index `v` from the chain's start up to the last element, the chain resolves to the constant select of element `v`. |
| VariableReadRemoval.SelectPreservesMeaning | zokrates_core/src/static_analysis/variable_read_remover.rs:29-76 | For a non-constant index with value `v`, the queued assertion holds exactly when `v` is in bounds. When it holds, the rewritten expression resolves to `a[v]`. |
| Folders.EmitsTrans | zokrates_core/src/static_analysis/variable_read_remover.rs:140-143 | Queued assertions accumulate: two folds that each append assertions append all of them, in order. |
| Folders.FoldName | zokrates_core/src/typed_absy/folder.rs:33-35 | Neither folder renames: the default `fold_name` returns the identifier, and the variable-read remover does not override it. `FoldVariable` and the identifier cases of the expression folds show names are kept. |
| Folders.FoldVariable | zokrates_core/src/typed_absy/folder.rs:37-42 | Folding a variable keeps its identifier and its type. |
| Folders.FoldParameter | zokrates_core/src/typed_absy/folder.rs:26-31 | Folding a parameter keeps its private flag and its variable. |
| Folders.FoldExpression | zokrates_core/src/typed_absy/folder.rs:52-60 | A fold keeps the expression's kind and type. The remover appends one assertion per non-constant read, and an expression without such reads is left unchanged. |
| Folders.FoldExpressions | zokrates_core/src/typed_absy/folder.rs:73-89 | Folding a list keeps its length and every element's type. The list's assertions are queued in order. |
| Folders.FoldField | zokrates_core/src/typed_absy/folder.rs:246-300 | Field folding queues one assertion per non-constant read, and a read-free expression is unchanged. |
| Folders.FoldBool | zokrates_core/src/typed_absy/folder.rs:302-388 | Boolean folding queues one assertion per non-constant read, and a read-free expression is unchanged. |
| Folders.FoldComparison | zokrates_core/src/typed_absy/folder.rs:302-388 | The same holds for field comparisons. |
| Folders.FoldEquality | zokrates_core/src/typed_absy/folder.rs:302-388 | The same holds for uint, array and struct equalities. |
| Folders.FoldConnective | zokrates_core/src/typed_absy/folder.rs:302-388 | The same holds for `==`, `\|\|` and `&&` on booleans. |
| Folders.FoldNegationOrConditional | zokrates_core/src/typed_absy/folder.rs:302-388 | The same holds for negation and boolean conditionals. |
| Folders.FoldBoolLeaf | zokrates_core/src/typed_absy/folder.rs:302-388 | The same holds for boolean identifiers, values, member accesses, calls and selects. |
| Folders.FoldUint | zokrates_core/src/typed_absy/folder.rs:390-398 | Folding a uint expression keeps its bitwidth and queues its reads' assertions. |
| Folders.FoldUintInner | zokrates_core/src/typed_absy/folder.rs:400-493 | The inner uint fold queues one assertion per non-constant read, and a read-free expression is unchanged. |
| Folders.FoldUintOperation | zokrates_core/src/typed_absy/folder.rs:400-493 | The same holds for binary, shift and negation operators on uints. |
| Folders.FoldUintLeaf | zokrates_core/src/typed_absy/folder.rs:400-493 | The same holds for the other uint forms. |
| Folders.FoldArray | zokrates_core/src/typed_absy/folder.rs:514-523 | Folding an array expression keeps its element type and size. |
| Folders.FoldArrayInner | zokrates_core/src/typed_absy/folder.rs:179-211 | The inner array fold queues one assertion per non-constant read, and a read-free expression is unchanged. |
| Folders.FoldStruct | zokrates_core/src/typed_absy/folder.rs:525-532 | Folding a struct expression keeps its struct type. |
| Folders.FoldStructInner | zokrates_core/src/typed_absy/folder.rs:213-244 | The inner struct fold queues one assertion per non-constant read, and a read-free expression is unchanged. |
| Folders.FoldAssignee | zokrates_core/src/typed_absy/folder.rs:544-555 | Folding an assignee keeps its type. |
| Folders.FoldAssignees | zokrates_core/src/typed_absy/folder.rs:544-555 | Folding a list of assignees keeps its length and every assignee's type. |
| Folders.FoldExpressionList | zokrates_core/src/typed_absy/folder.rs:73-89 | Folding a call keeps its function key, its result types and its argument count. |
| Folders.FoldStatementDefault | zokrates_core/src/typed_absy/folder.rs:146-177 | The default statement fold keeps the constructor. A `for` loop keeps its variable and its two bounds. Other statements queue their reads' assertions. The default folder changes nothing. |
| Folders.FoldDefinition | zokrates_core/src/typed_absy/folder.rs:157-174 | The same holds for single and multiple definitions. |
| Folders.FoldOtherStatement | zokrates_core/src/typed_absy/folder.rs:151-170 | The same holds for returns, declarations, assertions and `for` loops. `from` and `to` are not folded. |
| Folders.FoldStatement | zokrates_core/src/static_analysis/variable_read_remover.rs:140-143 | The default folder returns exactly the one statement. The remover emits the pending assertions, then the new assertions, then the rewritten statement with the same constructor, and leaves the queue empty. |
| Folders.FoldStatements | zokrates_core/src/typed_absy/folder.rs:495-512 | The default folder keeps a statement list unchanged. The remover empties the queue and keeps a list without non-constant reads unchanged. |
| Folders.FoldFunction | zokrates_core/src/typed_absy/folder.rs:495-512 | Folding a function keeps its arguments and signature. |
| Folders.FoldFunctionSymbol | zokrates_core/src/typed_absy/folder.rs:534-542 | Folding leaves imported and embedded symbols unchanged. A local function keeps its signature. |
| Folders.FoldModule | zokrates_core/src/typed_absy/folder.rs:132-144 | Folding a module keeps its function keys, and each symbol is folded as above. |
| Folders.FoldProgram | zokrates_core/src/typed_absy/folder.rs:557-569 | Folding a program keeps `main`, the module ids and each module's function keys. |
| Folders.RemoveVariableReads | zokrates_core/src/static_analysis/variable_read_remover.rs:25-27 | Removing variable reads keeps the program's `main` and module ids. |
| Folders.FoldProgramKeepsSignatures | zokrates_core/src/typed_absy/folder.rs:557-569 | Every symbol's signature, with imports followed, is the same before and after folding. |
| Folders.RemoverExample | zokrates_core/src/static_analysis/variable_read_remover.rs:151-207 | `b = a[i]` over a two-element array becomes `assert(i == 0 \|\| i == 1)` followed by `b = if i == 0 then a[0] else a[1]`. |
| LinearCombinations.Summand | zokrates_core/src/ir/expression.rs:105-109 | `summand(k, v)` has coefficient `k` on `v` and 0 elsewhere. |
| LinearCombinations.Zero | zokrates_core/src/ir/expression.rs:111-113 | `zero()` has every coefficient 0. |
| LinearCombinations.OneComb | zokrates_core/src/ir/expression.rs:150-152 | `one()` has coefficient 1 on `ONE` and 0 elsewhere. |
| LinearCombinations.FromVariable | zokrates_core/src/ir/expression.rs:222-227 | A variable becomes a combination with coefficient 1 on it and 0 elsewhere. |
| LinearCombinations.FromConstant | zokrates_core/src/ir/expression.rs:51-55 | A constant becomes the single term on `ONE` with that coefficient. |
| LinearCombinations.Add | zokrates_core/src/ir/expression.rs:229-237 | The sum is the left operand's terms followed by the right operand's terms, unmerged. |
| LinearCombinations.NegateTerms | zokrates_core/src/ir/expression.rs:239-248 | Negating terms keeps their variables, and each new coefficient adds to the old one to give 0. |
| LinearCombinations.Sub | zokrates_core/src/ir/expression.rs:239-248 | The difference is the left operand's terms followed by the right operand's terms with negated coefficients. |
| LinearCombinations.Mul | zokrates_core/src/ir/expression.rs:250-261 | Scaling by `k` keeps the variables and their order, and multiplies each coefficient by `k`. |
| LinearCombinations.CoeffSumAppend | zokrates_core/src/ir/expression.rs:229-237 | The coefficient of a variable in two concatenated lists is the sum of its coefficients in each. |
| LinearCombinations.AddCoefficients | zokrates_core/src/ir/expression.rs:229-237 | Adding combinations adds every variable's coefficient. |
| LinearCombinations.NegateCoefficients | zokrates_core/src/ir/expression.rs:239-248 | Negating terms negates every variable's coefficient. |
| LinearCombinations.SubCoefficients | zokrates_core/src/ir/expression.rs:239-248 | Subtracting combinations subtracts every variable's coefficient. |
| LinearCombinations.MulCoefficients | zokrates_core/src/ir/expression.rs:250-261 | Scaling by `k` multiplies every variable's coefficient by `k`. |
| LinearCombinations.Step | zokrates_core/src/ir/expression.rs:158-180 | Adding one term to a zero-free map adds its coefficient to its variable's entry and keeps the map zero-free, with zero sums removed. |
| LinearCombinations.CanonTerms | zokrates_core/src/ir/expression.rs:156-183 | The accumulated map never holds a zero coefficient. |
| LinearCombinations.IntoCanonical | zokrates_core/src/ir/expression.rs:156-183 | The canonical form never holds a zero coefficient. |
| LinearCombinations.CanonTermsMeaning | zokrates_core/src/ir/expression.rs:156-183 | In the accumulated map each variable has the sum of its coefficients, with 0 for an absent one. |
| LinearCombinations.CanonicalMeaning | zokrates_core/src/ir/expression.rs:156-183 | A variable is in the canonical form exactly when its coefficient sum is nonzero, and it is mapped to that sum. |
| LinearCombinations.CanonicalMeaningAll | zokrates_core/src/ir/expression.rs:156-183 | The same, for all variables at once. |
| LinearCombinations.LinEqMeaning | zokrates_core/src/ir/expression.rs:72-76 | Two combinations are equal exactly when every variable has the same coefficient sum in both. |
| LinearCombinations.LinEq | zokrates_core/src/ir/expression.rs:72-76 | Equality of linear combinations as equality of canonical forms. By `LinEqMeaning`, it holds exactly when every variable has the same coefficient sum. |
| LinearCombinations.AddZero | zokrates_core/src/ir/expression.rs:280-285 | `zero() + b` and `b + zero()` equal `b`. |
| LinearCombinations.AddCommutes | zokrates_core/src/ir/expression.rs:229-237 | `a + b` equals `b + a`, though their term lists differ. |
| LinearCombinations.SelfDifferenceIsZero | zokrates_core/src/ir/expression.rs:239-248 | `a - a` equals zero, yet it is syntactically empty only when `a` is. |
| LinearCombinations.IsZeroMeansZero | zokrates_core/src/ir/expression.rs:115-117 | A combination with no terms equals zero. |
| LinearCombinations.IsZero | zokrates_core/src/ir/expression.rs:115-117 | `is_zero` is syntactic emptiness. By `IsZeroMeansZero` it implies equality with zero. `SelfDifferenceIsZero` shows the converse fails. |
| LinearCombinations.MaxKeyExists | zokrates_core/src/ir/expression.rs:185-187 | A non-empty canonical map has a largest variable. |
| LinearCombinations.MaxKey | zokrates_core/src/ir/expression.rs:185-187 | The chosen variable is in the map and is at least every other. |
| LinearCombinations.Entries | zokrates_core/src/ir/expression.rs:185-187 | A map's entries are listed with strictly increasing variables, each with its coefficient in the map. |
| LinearCombinations.CanonOfEntries | zokrates_core/src/ir/expression.rs:185-187 | Canonicalising a zero-free map's entry list gives back the map. |
| LinearCombinations.Reduce | zokrates_core/src/ir/expression.rs:185-187 | A reduced combination lists strictly increasing variables, none with a zero coefficient. |
| LinearCombinations.ReduceKeepsCanonical | zokrates_core/src/ir/expression.rs:185-187 | Reducing keeps the canonical form and equality, and reducing twice is the same as once. |
| LinearCombinations.SumCoefficientsOn | zokrates_core/src/ir/expression.rs:121-148 | When every term is on `v`, the plain coefficient sum is `v`'s coefficient and every other variable has 0. |
| LinearCombinations.TrySummand | zokrates_core/src/ir/expression.rs:121-148 | `try_summand` fails exactly when the list is empty or names two different variables. Otherwise it gives the first variable and its coefficient sum. |
| LinearCombinations.TrySummandIsSummand | zokrates_core/src/ir/expression.rs:121-148 | When it succeeds, the combination equals `summand` of the result. |
| LinearCombinations.QuadFrom | zokrates_core/src/ir/expression.rs:57-61 | `QuadComb::from(x)` is `one() * x`. |
| LinearCombinations.QuadFromValue | zokrates_core/src/ir/expression.rs:57-61 | `QuadComb::from(x)` has the value of `x` under every assignment with `ONE` = 1. |
| LinearCombinations.QuadIntoCanonical | zokrates_core/src/ir/expression.rs:190-196 | In each factor's canonical form, a variable is present exactly when its coefficients in that factor sum to a nonzero value, and it maps to that sum. |
| LinearCombinations.QuadReduce | zokrates_core/src/ir/expression.rs:197-201 | Reducing a product keeps it equal. |
| LinearCombinations.QuadEqMeaning | zokrates_core/src/ir/expression.rs:14-18 | Two products are equal exactly when both left factors and both right factors have the same coefficient sums. |
| LinearCombinations.QuadEq | zokrates_core/src/ir/expression.rs:14-18 | Equality of products, factor by factor. Its meaning is `QuadEqMeaning`. |
| LinearCombinations.TryLinear | zokrates_core/src/ir/expression.rs:27-48 | `try_linear` fails exactly when neither factor is a summand on `ONE` and neither is syntactically empty. |
| LinearCombinations.EvalMul | zokrates_core/src/ir/expression.rs:250-261 | Scaling by `k` multiplies the value under every assignment by `k`. |
| LinearCombinations.EvalAllOn | zokrates_core/src/ir/expression.rs:121-148 | A list of terms on one variable has value (sum of coefficients) × (the variable's value). |
| LinearCombinations.TryLinearSound | zokrates_core/src/ir/expression.rs:27-48 | When `try_linear` succeeds, its result has the product's value under every assignment with `ONE` = 1. |
| LinearCombinations.ArithmeticExamples | zokrates_core/src/ir/expression.rs:280-311 | The `add_zero`, `add` and `sub` examples: their term lists and equalities. |
| LinearCombinations.QuadFromExamples | zokrates_core/src/ir/expression.rs:325-334 | The `from_linear` example `3 * x42 + 4 * x33`: with the constant wire at one, `1 * x` has the value of `x`. |
| LinearCombinations.TrySummandExamples | zokrates_core/src/ir/expression.rs:366-386 | The `try_summand` examples: a repeated variable is summed, mixed variables and the empty list fail. |
| Semantics.InsertType | zokrates_core/src/semantics.rs:72-83 | A type is accepted exactly when the name is unused, and then it is recorded. Otherwise the unifier is unchanged. |
| Semantics.InsertFunction | zokrates_core/src/semantics.rs:85-103 | A function is accepted exactly when the name is unused, or names functions that do not yet include this signature. When accepted, it is added and nothing else changes. |
| Semantics.InsertionsKeepUnified | zokrates_core/src/semantics.rs:58-104 | No name ever holds an empty set of overloads. |
| Semantics.TypeNameIsTaken | zokrates_core/src/semantics.rs:72-103 | After a type is declared under a name, no type and no function can use that name. |
| Semantics.FunctionNameOverloads | zokrates_core/src/semantics.rs:85-103 | After a function is declared, the same signature is refused, a different signature is accepted, and a type of that name is refused. |
| Semantics.UnifierExample | zokrates_core/src/semantics.rs:2553-2567 | The `unifier` test's sequence of accepted and refused insertions. |
| Semantics.QueryOf | zokrates_core/src/semantics.rs:127-133 | A query built from a function key asks for that key's inputs and outputs. |
| Semantics.MatchFunc | zokrates_core/src/semantics.rs:188-196 | Query matching: same id, same inputs, same output count, and every known output equal. Its meaning is in `FullQueryMatchesOnlyItsKey` and `UnknownOutputsMatchAnything`. |
| Semantics.FullQueryMatchesOnlyItsKey | zokrates_core/src/semantics.rs:188-196 | A query with every output known matches exactly its own key. |
| Semantics.UnknownOutputsMatchAnything | zokrates_core/src/semantics.rs:188-196 | With every output unknown, a query matches exactly the keys with its id, its inputs and its number of outputs. |
| Semantics.MatchFuncs | zokrates_core/src/semantics.rs:198-200 | A found key is one of the functions and matches the query. Nothing is found exactly when no function matches. |
| Semantics.NewChecker | zokrates_core/src/semantics.rs:231-238 | A new checker is at level 0 with an empty scope. |
| Semantics.InsertIntoScope | zokrates_core/src/semantics.rs:2365-2370 | A variable is added at the current level exactly when no variable of that name is in scope, whatever the types, because scope entries are equal and hashed by name alone (semantics.rs:205-215). Otherwise nothing changes. |
| Semantics.GetScope | zokrates_core/src/semantics.rs:2355-2363 | A lookup by name succeeds exactly when the name is in scope, and it returns that entry. |
| Semantics.DeclaredIsVisible | zokrates_core/src/semantics.rs:2355-2370 | After a declaration, a lookup of its name succeeds. |
| Semantics.EnterScope | zokrates_core/src/semantics.rs:2376-2378 | Entering a scope raises the level by one and keeps every variable. |
| Semantics.ExitScope | zokrates_core/src/semantics.rs:2380-2385 | Leaving a scope lowers the level by one. It removes exactly the variables declared at the current level or deeper, and keeps the rest unchanged. |
| Semantics.DeclareAll | zokrates_core/src/semantics.rs:874-884 | Declaring variables keeps every existing entry. Each new entry is at the current level. |
| Semantics.BlockRestoresScope | zokrates_core/src/semantics.rs:2376-2385 | Entering a scope, declaring anything, and leaving gives back the checker exactly. |
| Semantics.CheckDeclaration | zokrates_core/src/semantics.rs:874-884 | A declaration is accepted exactly when its name is not in scope. Otherwise the error is "duplicate declaration" of that name. |
| Semantics.RedeclarationRejected | zokrates_core/src/semantics.rs:4039-4110 | Declaring a name twice in the same scope fails, with the same or another type. |
| Semantics.CheckIdentifier | zokrates_core/src/semantics.rs:1214-1238 | An identifier is accepted exactly when it is in scope, and it has its declared type. Otherwise it is undefined. |
| Semantics.Mains | zokrates_core/src/semantics.rs:617-634 | The keys named `main` in the module. |
| Semantics.CheckSingleMain | zokrates_core/src/semantics.rs:617-634 | The check succeeds exactly when there is one `main` key. It reports "no main" exactly when there is none. "Multiple mains" carries their count, which is at least 2. |
| Semantics.SingleMainAccepted | zokrates_core/src/semantics.rs:617-634 | The check succeeds exactly when some key is named `main` and every such key is that one. |
| Semantics.NoMainReported | zokrates_core/src/semantics.rs:617-634 | "No main" is reported exactly when no key is named `main`. |
| Semantics.MultipleMainsReported | zokrates_core/src/semantics.rs:617-634 | "Multiple mains" means two different keys are both named `main`. |
| Semantics.DeclFold | zokrates_core/src/semantics.rs:285-330 | Scanning fields records every well-typed id. There is no error exactly when every field is typed and the ids are distinct, and then one member is produced per field. |
| Semantics.CheckStructDeclaration | zokrates_core/src/semantics.rs:285-330 | A struct declaration is accepted exactly when every field type resolves and no id repeats. Its members are the fields in order. Otherwise the errors name the culprits: a `MemberTypeError` with the resolution error of every field whose type does not resolve, a `DuplicateKey` for every resolved field whose id an earlier resolved field took, and no error that no field accounts for. |
| Semantics.DeclFoldReportsTypeErrors | zokrates_core/src/semantics.rs:299-316 | Every field whose type does not resolve contributes its resolution error. |
| Semantics.DeclFoldReportsDuplicates | zokrates_core/src/semantics.rs:299-316 | Every resolved field whose id an earlier resolved field took is reported as a duplicate key with that id. |
| Semantics.DeclFoldErrorsExplained | zokrates_core/src/semantics.rs:299-316 | Every reported error is a field's resolution error or a duplicate key between two resolved fields. |
| Semantics.DuplicateMemberReported | zokrates_core/src/semantics.rs:4259-4292 | The `duplicate_member_def` test: `foo: field` followed by `foo: bool` gives exactly one error, a duplicate key `foo`. The name alone decides, whatever the types. |
| Semantics.DeclaredMembersAreFound | zokrates_core/src/semantics.rs:285-330 | Every declared field can be looked up by id in the accepted struct type. |
| Semantics.DeclarationOrderMatters | zokrates_core/src/semantics.rs:4205-4256 | The `preserve_order` test: the same fields in another order give a different struct type. |
| Semantics.ConstantBound | zokrates_core/src/semantics.rs:1755-1775 | A bound is accepted exactly when it is a field constant. It reads as a number below the modulus. |
| Semantics.LowerBound | zokrates_core/src/semantics.rs:1732-1737 | A missing lower bound is 0. |
| Semantics.UpperBound | zokrates_core/src/semantics.rs:1739-1746 | A missing upper bound is the array size. |
| Semantics.SliceElements | zokrates_core/src/semantics.rs:1798-1835 | A slice has `to - from` elements, and element `k` selects index `from + k`. |
| Semantics.CheckSlice | zokrates_core/src/semantics.rs:1726-1846 | The errors are tried in order: not an array, non-constant lower bound, non-constant upper bound, lower bound above the size, upper bound above the size, lower above upper. A valid slice has size `to - from`, and element `k` selects index `from + k`. |
| Semantics.SliceElementsAreTyped | zokrates_core/src/semantics.rs:1798-1835 | Every element of a valid slice has the array's element type. |
| Semantics.FullSliceKeepsType | zokrates_core/src/semantics.rs:1726-1846 | `a[..]` is accepted and has the array's own type. |
| Semantics.ValueMap | zokrates_core/src/semantics.rs:2135-2139 | The literal's map holds exactly the ids the literal names. |
| Semantics.PickMembers | zokrates_core/src/semantics.rs:2140-2176 | Members are picked in declaration order. Picking succeeds exactly when declared ids are distinct and each is present with the declared type. Each value is the map's value for its id. Which error a failure gives is `PickMembersFirstMisfit`. |
| Semantics.PickMembersFirstMisfit | zokrates_core/src/semantics.rs:2140-2176 | Picking fails exactly when some declared member finds no unused value of its type, and then with the error of the first such member: `MissingMember` when no value is left under its id, otherwise `WrongMemberType` with the declared and the found type. |
| Semantics.CheckInlineStruct | zokrates_core/src/semantics.rs:2108-2181 | The member-count error comes back exactly when the numbers of members differ. With equal numbers, a failure is the error of the first declared member that finds no value of its type: `MissingMember` or `WrongMemberType` with both types. A valid literal has the struct's type. Its values follow declaration order, have the declared types, and each comes from the literal under that member's id. |
| Semantics.InlineStructErrorExamples | zokrates_core/src/semantics.rs:4922-4991 | The `invalid` tests: a literal naming `baz` instead of `bar` misses member `bar`, and one giving `bar` a field element is a wrong type, bool expected and field found. |
| Semantics.ValueMapSource | zokrates_core/src/semantics.rs:2135-2139 | Every value in the map is paired with its id in the literal. |
| Semantics.ValueMapOfDistinct | zokrates_core/src/semantics.rs:2135-2139 | With distinct ids, each member's id maps to its own value. |
| Semantics.InlineStructOrderIrrelevant | zokrates_core/src/semantics.rs:2108-2181 | Two literals holding the same distinct members in any order give the same result. |

## Left out

- The HMAC-over-Streebog circuit the repository is named for: no source file contains it.
- Field internals: the concrete prime, `inverse_mul` and `Div` on linear combinations (`ir/expression.rs:263-269`) are not modelled. The field is an abstract modulus.
- Module import resolution and recursive module checking (`semantics.rs:332-615`). They depend on files that are not part of this model, and they mutate nested maps.
- `check_type` and most of `check_expression`: sub-expressions are taken as already checked typed expressions.
- All `Display`/`Debug` printers of the typed AST, the linear-combination printer and its test, serde (de)serialisation in the ABI tests, and `absy/node.rs`. They are printing and library behaviour.
- Error message strings and source positions: only error kinds and the numbers they carry are modelled.
- Hash-map and hash-set iteration order: `match_funcs` and the search for `main` in `abi()` choose any matching element (`MatchFuncs` and `ProgramAbi` are ghost). The canonical linear-combination map is a Dafny `map`, and `reduce` lists it in increasing variable order, as a `BTreeMap` does.
- Machine-width integers: `usize` sizes and levels are unbounded naturals. The 64-bit function-key hash is a natural below 2^64. The `parse::<usize>().unwrap()` of a bound cannot fail here.
- Struct types carry only their ordered member list. The module and name passed to `StructType::new` at `semantics.rs:320-327` are not modelled, because the struct type and its equality are defined in `types.rs`, which is not part of this model. Two structs with equal member lists are therefore the same type here, also in `CheckInlineStruct`'s member type test.
- The checker's scope is a `HashSet` whose entries are equal by name. Here it is a map keyed by identifier, which gives the same membership and replacement behaviour.
- Folders.FoldStatementDefault: identity under the remover is stated only with an empty queue.
- Folders.FoldStatements: under the remover only `|result| >= |input|` is stated, not the exact count of emitted assertions.
- Folders.FoldFunction: only `|statements| >= |input statements|` is stated.
- Folders.RemoveVariableReads: only `main` and the module ids are stated. The per-symbol facts are in `FoldProgram`.
- Folders.FoldStatement: for a `for` loop under the remover, only the constructor and the empty queue are stated. The body's own assertions stay inside the body.
- TypedAbsy.SymbolSignature: imports are followed at most `fuel` times, and a missing module or key gives `None` where the source panics. Cyclic imports are not modelled.
- Semantics.CheckSingleMain: its own contract counts `main` keys. What those counts mean is in `SingleMainAccepted`, `NoMainReported` and `MultipleMainsReported`.
- Semantics.FullSliceKeepsType: requires the array size to be below the modulus. A larger default upper bound would wrap around in the field.
- Semantics.UpperBound: states the missing bound only for sizes below the modulus.
- VariableReadRemoval.Select: with a non-constant index into an empty array the source panics. Here this is a precondition (size at least 1).
- The evaluator behind `Resolve`/`EvalBool` covers only indices, constants, equality and disjunction: enough to give the remover's output a meaning, not a full interpreter.
- VariableReadRemoval.SelectPreservesMeaning: the meaning is stated only for arrays of at most `P` elements, so that every position is a distinct field constant.
- VariableReadRemoval.ChainResolvesFrom: likewise stated only for arrays of at most `P` elements.

=== FILE: abi.dfy ===
/** The program's external interface: named, typed inputs with a visibility flag, and output types. */
module Abi {
  import opened Types

  datatype AbiInput = AbiInput(name: string, public: bool, ty: Type)

  datatype Abi = Abi(inputs: seq<AbiInput>, outputs: seq<Type>)

  /** `Abi::signature`: the input types in order, and the outputs as they are. */
  function SignatureOf(abi: Abi): (r: Signature)
    ensures |r.inputs| == |abi.inputs|
    ensures forall i :: 0 <= i < |abi.inputs| ==> r.inputs[i] == abi.inputs[i].ty
    ensures r.outputs == abi.outputs
  {
    Signature(seq(|abi.inputs|, i requires 0 <= i < |abi.inputs| => abi.inputs[i].ty), abi.outputs)
  }

  /** Two interfaces have the same signature exactly when they agree on input types and outputs:
      names and public flags play no part. */
  lemma SignatureIgnoresNamesAndVisibility(a: Abi, b: Abi)
    ensures SignatureOf(a) == SignatureOf(b) <==>
      && |a.inputs| == |b.inputs|
      && (forall i :: 0 <= i < |a.inputs| ==> a.inputs[i].ty == b.inputs[i].ty)
      && a.outputs == b.outputs
  {
    var sa, sb := SignatureOf(a), SignatureOf(b);
    if |a.inputs| == |b.inputs| && (forall i :: 0 <= i < |a.inputs| ==> a.inputs[i].ty == b.inputs[i].ty) {
      assert sa.inputs == sb.inputs;
    }
    if sa == sb {
      assert |sa.inputs| == |sb.inputs|;
      forall i | 0 <= i < |a.inputs| ensures a.inputs[i].ty == b.inputs[i].ty {
        assert sa.inputs[i] == sb.inputs[i];
      }
    }
  }
}

=== FILE: field.dfy ===
/** The prime field the compiler works over, kept abstract: only its modulus' lower bound is known. */
module Field {

  type Modulus = m: nat | m >= 2 witness 2

  /** The field's characteristic. Its value is deliberately left open. */
  const P: Modulus

  /** A field element in its reduced representation. */
  type Fe = x: nat | x < P witness 0

  /** The field element a natural number denotes (`T::from(n)`). */
  function FromNat(n: nat): (r: Fe)
    ensures n < P ==> r == n
  {
    n % P
  }

  function FAdd(a: Fe, b: Fe): (r: Fe)
    ensures a + b < P ==> r == a + b
    ensures a + b >= P ==> r == a + b - P
  {
    (a + b) % P
  }

  /** `T::zero() - a` */
  function FNeg(a: Fe): (r: Fe)
    ensures FAdd(a, r) == 0
  {
    if a == 0 then 0 else P - a
  }

  function FSub(a: Fe, b: Fe): (r: Fe)
    ensures FAdd(r, b) == a
  {
    FAdd(a, FNeg(b))
  }

  function FMul(a: Fe, b: Fe): (r: Fe)
    ensures a == 0 || b == 0 ==> r == 0
    ensures a == 1 ==> r == b
    ensures b == 1 ==> r == a
  {
    (a * b) % P
  }

  lemma FAddZero(a: Fe)
    ensures FAdd(a, 0) == a && FAdd(0, a) == a
  {
  }

  lemma FAddComm(a: Fe, b: Fe)
    ensures FAdd(a, b) == FAdd(b, a)
  {
  }

  lemma FAddAssoc(a: Fe, b: Fe, c: Fe)
    ensures FAdd(FAdd(a, b), c) == FAdd(a, FAdd(b, c))
  {
  }

  lemma FNegAdd(a: Fe, b: Fe)
    ensures FNeg(FAdd(a, b)) == FAdd(FNeg(a), FNeg(b))
  {
  }

  lemma FMulComm(a: Fe, b: Fe)
    ensures FMul(a, b) == FMul(b, a)
  {
  }

  lemma MulAtLeast(d: int, p: int)
    requires d >= 1 && p >= 0
    ensures d * p >= p
  {
  }

  /** Euclidean division by P has exactly one quotient and remainder. */
  lemma ModUnique(a: int, q: int, r: int)
    requires 0 <= r < P && a == q * P + r
    ensures a % P == r && a / P == q
  {
    var q0, r0 := a / P, a % P;
    var d := q - q0;
    assert d * P == r0 - r by {
      assert q * P - q0 * P == d * P;
    }
    if d >= 1 {
      MulAtLeast(d, P);
    } else if d <= -1 {
      MulAtLeast(-d, P);
    }
  }

  lemma ModAddMultiple(a: int, m: int)
    ensures (a + m * P) % P == a % P
  {
    ModUnique(a + m * P, a / P + m, a % P);
  }

  lemma ModMulLeft(x: nat, y: nat)
    ensures (x % P * y) % P == (x * y) % P
  {
    var q := x / P;
    assert x * y == x % P * y + (q * y) * P;
    ModAddMultiple(x % P * y, q * y);
  }

  lemma ModAddLeft(x: nat, y: nat)
    ensures (x % P + y) % P == (x + y) % P
  {
    ModAddMultiple(x % P + y, x / P);
  }

  lemma Distribute(a: int, b: int, k: int)
    ensures (a + b) * k == a * k + b * k
  {
  }

  lemma AddMod(x: nat, y: nat)
    ensures (x % P + y % P) % P == (x + y) % P
  {
    ModAddLeft(x, y % P);
    ModAddLeft(y, x);
  }

  lemma FMulDistrib(a: Fe, b: Fe, k: Fe)
    ensures FMul(FAdd(a, b), k) == FAdd(FMul(a, k), FMul(b, k))
  {
    var s, x, y := a + b, a * k, b * k;
    assert FMul(FAdd(a, b), k) == (s % P * k) % P;
    ModMulLeft(s, k);
    assert s * k == x + y by {
      Distribute(a, b, k);
    }
    AddMod(x, y);
  }

  lemma FMulAssoc(a: Fe, b: Fe, c: Fe)
    ensures FMul(FMul(a, b), c) == FMul(a, FMul(b, c))
  {
    ModMulLeft(a * b, c);
    ModMulLeft(b * c, a);
    assert (a * b) * c == (b * c) * a;
  }

  /** Reducing before or after an addition gives the same element. */
  lemma FromNatAdd(m: nat, n: nat)
    ensures FAdd(FromNat(m), FromNat(n)) == FromNat(m + n)
  {
    ModAddLeft(m, n);
    ModAddLeft(n, m % P);
  }
}

=== FILE: folder.dfy ===
/**
 * The generic rewrite of a typed program.
 *
 * A `Folder` value says which implementation of the folding hooks is in force: the default one,
 * or the variable read remover, which overrides the five select cases and statement folding. The
 * remover's queue of pending assertions is threaded through every fold as an explicit state.
 */
module Folders {
  import opened Wrappers
  import opened Field
  import opened Identifiers
  import opened Types
  import opened TypedAbsy
  import opened VariableReadRemoval

  datatype Folder = DefaultFolder | VariableReadRemover

  /** Statements waiting to be emitted before the statement being folded. */
  type Queue = seq<TypedStatement>

  /** The queue after a fold: the default folder leaves it; the remover appends exactly `n` assertions. */
  predicate Emits(f: Folder, q: Queue, q': Queue, n: nat)
  {
    if f.DefaultFolder? then q' == q
    else |q'| == |q| + n && q'[..|q|] == q && forall k :: |q| <= k < |q'| ==> q'[k].Assertion?
  }

  lemma EmitsTrans(f: Folder, q1: Queue, q2: Queue, q3: Queue, n: nat, m: nat)
    requires Emits(f, q1, q2, n) && Emits(f, q2, q3, m)
    ensures Emits(f, q1, q3, n + m)
  {
    if f.VariableReadRemover? {
      assert q3[..|q1|] == q3[..|q2|][..|q1|];
      forall k | |q1| <= k < |q3| ensures q3[k].Assertion? {
        if k < |q2| {
          assert q3[k] == q3[..|q2|][k];
        }
      }
    }
  }

  // ---------------------------------------------------------------- what the remover needs and does

  /** A read the remover rewrites does not panic: its kind fits the array, and a variable index needs an element. */
  predicate SelectReady(k: Kind, a: ArrayExpression, i: FieldElementExpression)
  {
    CanSelect(k, a) && (!i.Number? ==> a.size >= 1)
  }

  /** A read counts as variable when its index is not a constant. */
  function SelectReads(i: FieldElementExpression): nat
  {
    if i.Number? then 0 else 1
  }

  /** Every read the remover reaches in `e` is `SelectReady`. The array and index of a read are not visited. */
  predicate ReadyExpression(e: TypedExpression)
    decreases e, 0
  {
    match e
    case BooleanExp(b) => ReadyBool(b)
    case FieldElementExp(x) => ReadyField(x)
    case UintExp(u) => ReadyUint(u)
    case ArrayExp(a) => ReadyArray(a)
    case StructExp(s) => ReadyStruct(s)
  }

  predicate ReadyExpressions(es: seq<TypedExpression>)
    decreases es
  {
    es == [] || (ReadyExpression(es[0]) && ReadyExpressions(es[1..]))
  }

  predicate ReadyField(e: FieldElementExpression)
    decreases e, 0
  {
    match e
    case Number(_) => true
    case FieldIdentifier(_) => true
    case FieldBinary(_, l, r) => ReadyField(l) && ReadyField(r)
    case FieldIfElse(c, x, y) => ReadyBool(c) && ReadyField(x) && ReadyField(y)
    case FieldFunctionCall(_, args) => ReadyExpressions(args)
    case FieldMember(s, _) => ReadyStruct(s)
    case FieldSelect(a, i) => SelectReady(FieldKind, a, i)
  }

  predicate ReadyBool(e: BooleanExpression)
    decreases e, 0
  {
    match e
    case BoolIdentifier(_) => true
    case Value(_) => true
    case FieldCompare(_, l, r) => ReadyField(l) && ReadyField(r)
    case FieldEq(l, r) => ReadyField(l) && ReadyField(r)
    case BoolEq(l, r) => ReadyBool(l) && ReadyBool(r)
    case ArrayEq(l, r) => ReadyArray(l) && ReadyArray(r)
    case StructEq(l, r) => ReadyStruct(l) && ReadyStruct(r)
    case UintEq(l, r) => ReadyUint(l) && ReadyUint(r)
    case Or(l, r) => ReadyBool(l) && ReadyBool(r)
    case And(l, r) => ReadyBool(l) && ReadyBool(r)
    case Not(x) => ReadyBool(x)
    case BoolIfElse(c, x, y) => ReadyBool(c) && ReadyBool(x) && ReadyBool(y)
    case BoolMember(s, _) => ReadyStruct(s)
    case BoolFunctionCall(_, args) => ReadyExpressions(args)
    case BoolSelect(a, i) => SelectReady(BoolKind, a, i)
  }

  predicate ReadyUint(e: UExpression)
    decreases e, 0
  {
    match e.inner
    case UValue(_) => true
    case UIdentifier(_) => true
    case UBinary(_, l, r) => ReadyUint(l) && ReadyUint(r)
    case UShift(_, x, amount) => ReadyUint(x) && ReadyField(amount)
    case UNot(x) => ReadyUint(x)
    case UFunctionCall(_, args) => ReadyExpressions(args)
    case USelect(a, i) => SelectReady(UintKind, a, i)
    case UIfElse(c, x, y) => ReadyBool(c) && ReadyUint(x) && ReadyUint(y)
    case UMember(s, _) => ReadyStruct(s)
  }

  predicate ReadyArray(e: ArrayExpression)
    decreases e, 0
  {
    match e.inner
    case ArrayIdentifier(_) => true
    case ArrayValue(vs) => ReadyExpressions(vs)
    case ArrayFunctionCall(_, args) => ReadyExpressions(args)
    case ArrayIfElse(c, x, y) => ReadyBool(c) && ReadyArray(x) && ReadyArray(y)
    case ArrayMember(s, _) => ReadyStruct(s)
    case ArraySelect(a, i) => SelectReady(ArrayKind, a, i)
  }

  predicate ReadyStruct(e: StructExpression)
    decreases e, 0
  {
    match e.inner
    case StructIdentifier(_) => true
    case StructValue(vs) => ReadyExpressions(vs)
    case StructFunctionCall(_, args) => ReadyExpressions(args)
    case StructIfElse(c, x, y) => ReadyBool(c) && ReadyStruct(x) && ReadyStruct(y)
    case StructMemberAccess(s, _) => ReadyStruct(s)
    case StructSelect(a, i) => SelectReady(StructKind, a, i)
  }

  /** The number of variable reads the remover reaches in `e`. */
  function ReadsExpression(e: TypedExpression): nat
    decreases e, 0
  {
    match e
    case BooleanExp(b) => ReadsBool(b)
    case FieldElementExp(x) => ReadsField(x)
    case UintExp(u) => ReadsUint(u)
    case ArrayExp(a) => ReadsArray(a)
    case StructExp(s) => ReadsStruct(s)
  }

  function ReadsExpressions(es: seq<TypedExpression>): nat
    decreases es
  {
    if es == [] then 0 else ReadsExpression(es[0]) + ReadsExpressions(es[1..])
  }

  function ReadsField(e: FieldElementExpression): nat
    decreases e, 0
  {
    match e
    case Number(_) => 0
    case FieldIdentifier(_) => 0
    case FieldBinary(_, l, r) => ReadsField(l) + ReadsField(r)
    case FieldIfElse(c, x, y) => ReadsBool(c) + ReadsField(x) + ReadsField(y)
    case FieldFunctionCall(_, args) => ReadsExpressions(args)
    case FieldMember(s, _) => ReadsStruct(s)
    case FieldSelect(_, i) => SelectReads(i)
  }

  function ReadsBool(e: BooleanExpression): nat
    decreases e, 0
  {
    match e
    case BoolIdentifier(_) => 0
    case Value(_) => 0
    case FieldCompare(_, l, r) => ReadsField(l) + ReadsField(r)
    case FieldEq(l, r) => ReadsField(l) + ReadsField(r)
    case BoolEq(l, r) => ReadsBool(l) + ReadsBool(r)
    case ArrayEq(l, r) => ReadsArray(l) + ReadsArray(r)
    case StructEq(l, r) => ReadsStruct(l) + ReadsStruct(r)
    case UintEq(l, r) => ReadsUint(l) + ReadsUint(r)
    case Or(l, r) => ReadsBool(l) + ReadsBool(r)
    case And(l, r) => ReadsBool(l) + ReadsBool(r)
    case Not(x) => ReadsBool(x)
    case BoolIfElse(c, x, y) => ReadsBool(c) + ReadsBool(x) + ReadsBool(y)
    case BoolMember(s, _) => ReadsStruct(s)
    case BoolFunctionCall(_, args) => ReadsExpressions(args)
    case BoolSelect(_, i) => SelectReads(i)
  }

  function ReadsUint(e: UExpression): nat
    decreases e, 0
  {
    match e.inner
    case UValue(_) => 0
    case UIdentifier(_) => 0
    case UBinary(_, l, r) => ReadsUint(l) + ReadsUint(r)
    case UShift(_, x, amount) => ReadsUint(x) + ReadsField(amount)
    case UNot(x) => ReadsUint(x)
    case UFunctionCall(_, args) => ReadsExpressions(args)
    case USelect(_, i) => SelectReads(i)
    case UIfElse(c, x, y) => ReadsBool(c) + ReadsUint(x) + ReadsUint(y)
    case UMember(s, _) => ReadsStruct(s)
  }

  function ReadsArray(e: ArrayExpression): nat
    decreases e, 0
  {
    match e.inner
    case ArrayIdentifier(_) => 0
    case ArrayValue(vs) => ReadsExpressions(vs)
    case ArrayFunctionCall(_, args) => ReadsExpressions(args)
    case ArrayIfElse(c, x, y) => ReadsBool(c) + ReadsArray(x) + ReadsArray(y)
    case ArrayMember(s, _) => ReadsStruct(s)
    case ArraySelect(_, i) => SelectReads(i)
  }

  function ReadsStruct(e: StructExpression): nat
    decreases e, 0
  {
    match e.inner
    case StructIdentifier(_) => 0
    case StructValue(vs) => ReadsExpressions(vs)
    case StructFunctionCall(_, args) => ReadsExpressions(args)
    case StructIfElse(c, x, y) => ReadsBool(c) + ReadsStruct(x) + ReadsStruct(y)
    case StructMemberAccess(s, _) => ReadsStruct(s)
    case StructSelect(_, i) => SelectReads(i)
  }

  predicate ReadyAssignee(a: TypedAssignee)
  {
    match a
    case AssigneeIdentifier(_) => true
    case AssigneeSelect(b, i) => ReadyAssignee(b) && ReadyField(i)
    case AssigneeMember(b, _) => ReadyAssignee(b)
  }

  predicate ReadyAssignees(targets: seq<TypedAssignee>)
  {
    targets == [] || (ReadyAssignee(targets[0]) && ReadyAssignees(targets[1..]))
  }

  /** Every expression the remover reaches in `s`; loop bounds are not visited. */
  predicate ReadyStatement(s: TypedStatement)
    decreases s, 0
  {
    match s
    case Return(es) => ReadyExpressions(es)
    case Definition(a, e) => ReadyAssignee(a) && ReadyExpression(e)
    case Declaration(_) => true
    case Assertion(c) => ReadyBool(c)
    case For(_, _, _, body) => ReadyStatements(body)
    case MultipleDefinition(targets, call) => ReadyAssignees(targets) && ReadyExpressions(call.arguments)
  }

  predicate ReadyStatements(ss: seq<TypedStatement>)
    decreases ss
  {
    ss == [] || (ReadyStatement(ss[0]) && ReadyStatements(ss[1..]))
  }

  function ReadsAssignee(a: TypedAssignee): nat
  {
    match a
    case AssigneeIdentifier(_) => 0
    case AssigneeSelect(b, i) => ReadsAssignee(b) + ReadsField(i)
    case AssigneeMember(b, _) => ReadsAssignee(b)
  }

  function ReadsAssignees(targets: seq<TypedAssignee>): nat
  {
    if targets == [] then 0 else ReadsAssignee(targets[0]) + ReadsAssignees(targets[1..])
  }

  /** The variable reads the remover reaches in `s`, loop bodies included. */
  function ReadsStatement(s: TypedStatement): nat
    decreases s, 0
  {
    match s
    case Return(es) => ReadsExpressions(es)
    case Definition(a, e) => ReadsAssignee(a) + ReadsExpression(e)
    case Declaration(_) => 0
    case Assertion(c) => ReadsBool(c)
    case For(_, _, _, body) => ReadsStatements(body)
    case MultipleDefinition(targets, call) => ReadsAssignees(targets) + ReadsExpressions(call.arguments)
  }

  function ReadsStatements(ss: seq<TypedStatement>): nat
    decreases ss
  {
    if ss == [] then 0 else ReadsStatement(ss[0]) + ReadsStatements(ss[1..])
  }

  /** What the remover needs of a function symbol: only local functions are folded. */
  predicate ReadySymbol(s: TypedFunctionSymbol)
  {
    s.Here? ==> ReadyStatements(s.fun.statements)
  }

  predicate ReadyProgram(p: TypedProgram)
  {
    forall m, k :: m in p.modules && k in p.modules[m].functions ==> ReadySymbol(p.modules[m].functions[k])
  }

  /** The fold is the identity: always for the default folder, and for the remover when nothing is read by a variable index. */
  predicate Keeps(f: Folder, n: nat)
  {
    f.DefaultFolder? || n == 0
  }

  // ---------------------------------------------------------------- names, variables, parameters

  /** `fold_name`: neither folder renames. */
  function FoldName(f: Folder, n: Identifier): Identifier
  {
    n
  }

  /** `fold_variable`: the name is folded, the type kept. */
  function FoldVariable(f: Folder, v: Variable): (r: Variable)
    ensures r.ty == v.ty
    ensures r.id == v.id
  {
    Variable(FoldName(f, v.id), v.ty)
  }

  /** `fold_parameter`: the variable is folded, the `private` flag kept. */
  function FoldParameter(f: Folder, p: Parameter): (r: Parameter)
    ensures r.private == p.private && r.id.ty == p.id.ty
    ensures r == p
  {
    Parameter(FoldVariable(f, p.id), p.private)
  }

  // ---------------------------------------------------------------- expressions

  /** `fold_expression`: the kind is kept, and so is the type. */
  function FoldExpression(f: Folder, e: TypedExpression, q: Queue): (r: (TypedExpression, Queue))
    requires f.VariableReadRemover? ==> ReadyExpression(e)
    ensures KindOf(r.0) == KindOf(e) && GetType(r.0) == GetType(e)
    ensures Emits(f, q, r.1, ReadsExpression(e))
    ensures Keeps(f, ReadsExpression(e)) ==> r.0 == e
    decreases e, 1
  {
    match e
    case FieldElementExp(x) => var (x1, q1) := FoldField(f, x, q); (FieldElementExp(x1), q1)
    case BooleanExp(b) => var (b1, q1) := FoldBool(f, b, q); (BooleanExp(b1), q1)
    case UintExp(u) => var (u1, q1) := FoldUint(f, u, q); (UintExp(u1), q1)
    case ArrayExp(a) => var (a1, q1) := FoldArray(f, a, q); (ArrayExp(a1), q1)
    case StructExp(s) => var (s1, q1) := FoldStruct(f, s, q); (StructExp(s1), q1)
  }

  /** Folding a list of expressions from left to right. */
  function FoldExpressions(f: Folder, es: seq<TypedExpression>, q: Queue): (r: (seq<TypedExpression>, Queue))
    requires f.VariableReadRemover? ==> ReadyExpressions(es)
    ensures |r.0| == |es|
    ensures forall k :: 0 <= k < |es| ==> GetType(r.0[k]) == GetType(es[k])
    ensures Emits(f, q, r.1, ReadsExpressions(es))
    ensures Keeps(f, ReadsExpressions(es)) ==> r.0 == es
    decreases es
  {
    if es == [] then ([], q)
    else
      var (h, q1) := FoldExpression(f, es[0], q);
      var (t, q2) := FoldExpressions(f, es[1..], q1);
      EmitsTrans(f, q, q1, q2, ReadsExpression(es[0]), ReadsExpressions(es[1..]));
      assert forall k :: 1 <= k < |es| ==> es[k] == es[1..][k - 1];
      ([h] + t, q2)
  }

  /** `fold_field_expression`; the remover sends reads to `select` without folding the array or index. */
  function FoldField(f: Folder, e: FieldElementExpression, q: Queue): (r: (FieldElementExpression, Queue))
    requires f.VariableReadRemover? ==> ReadyField(e)
    ensures Emits(f, q, r.1, ReadsField(e))
    ensures Keeps(f, ReadsField(e)) ==> r.0 == e
    decreases e, 0
  {
    match e
    case Number(_) => (e, q)
    case FieldIdentifier(x) => (FieldIdentifier(FoldName(f, x)), q)
    case FieldBinary(op, l, rt) =>
      var (l1, q1) := FoldField(f, l, q);
      var (r1, q2) := FoldField(f, rt, q1);
      EmitsTrans(f, q, q1, q2, ReadsField(l), ReadsField(rt));
      (FieldBinary(op, l1, r1), q2)
    case FieldIfElse(c, x, y) =>
      var (c1, q1) := FoldBool(f, c, q);
      var (x1, q2) := FoldField(f, x, q1);
      var (y1, q3) := FoldField(f, y, q2);
      EmitsTrans(f, q, q1, q2, ReadsBool(c), ReadsField(x));
      EmitsTrans(f, q, q2, q3, ReadsBool(c) + ReadsField(x), ReadsField(y));
      (FieldIfElse(c1, x1, y1), q3)
    case FieldFunctionCall(key, args) =>
      var (args1, q1) := FoldExpressions(f, args, q);
      (FieldFunctionCall(key, args1), q1)
    case FieldMember(s, m) =>
      var (s1, q1) := FoldStruct(f, s, q);
      (FieldMember(s1, m), q1)
    case FieldSelect(a, i) =>
      if f.VariableReadRemover? then
        var (x, q1) := Select(FieldKind, a, i, q);
        (x.f, q1)
      else
        var (a1, q1) := FoldArray(f, a, q);
        var (i1, q2) := FoldField(f, i, q1);
        (FieldSelect(a1, i1), q2)
  }

  /** `fold_boolean_expression`, split by the kind of the operands. */
  function FoldBool(f: Folder, e: BooleanExpression, q: Queue): (r: (BooleanExpression, Queue))
    requires f.VariableReadRemover? ==> ReadyBool(e)
    ensures Emits(f, q, r.1, ReadsBool(e))
    ensures Keeps(f, ReadsBool(e)) ==> r.0 == e
    decreases e, 1
  {
    if e.FieldCompare? || e.FieldEq? then FoldComparison(f, e, q)
    else if e.UintEq? || e.ArrayEq? || e.StructEq? then FoldEquality(f, e, q)
    else if e.BoolEq? || e.Or? || e.And? then FoldConnective(f, e, q)
    else if e.Not? || e.BoolIfElse? then FoldNegationOrConditional(f, e, q)
    else FoldBoolLeaf(f, e, q)
  }

  /** The tests between field elements in `fold_boolean_expression`. */
  function FoldComparison(f: Folder, e: BooleanExpression, q: Queue): (r: (BooleanExpression, Queue))
    requires e.FieldCompare? || e.FieldEq?
    requires f.VariableReadRemover? ==> ReadyBool(e)
    ensures Emits(f, q, r.1, ReadsBool(e))
    ensures Keeps(f, ReadsBool(e)) ==> r.0 == e
    decreases e, 0
  {
    var (l1, q1) := FoldField(f, e.fl, q);
    var (r1, q2) := FoldField(f, e.fr, q1);
    EmitsTrans(f, q, q1, q2, ReadsField(e.fl), ReadsField(e.fr));
    (if e.FieldEq? then FieldEq(l1, r1) else FieldCompare(e.cmp, l1, r1), q2)
  }

  /** The equality tests between uints, arrays and structs in `fold_boolean_expression`. */
  function FoldEquality(f: Folder, e: BooleanExpression, q: Queue): (r: (BooleanExpression, Queue))
    requires e.UintEq? || e.ArrayEq? || e.StructEq?
    requires f.VariableReadRemover? ==> ReadyBool(e)
    ensures Emits(f, q, r.1, ReadsBool(e))
    ensures Keeps(f, ReadsBool(e)) ==> r.0 == e
    decreases e, 0
  {
    match e
    case ArrayEq(l, rt) =>
      var (l1, q1) := FoldArray(f, l, q);
      var (r1, q2) := FoldArray(f, rt, q1);
      EmitsTrans(f, q, q1, q2, ReadsArray(l), ReadsArray(rt));
      (ArrayEq(l1, r1), q2)
    case StructEq(l, rt) =>
      var (l1, q1) := FoldStruct(f, l, q);
      var (r1, q2) := FoldStruct(f, rt, q1);
      EmitsTrans(f, q, q1, q2, ReadsStruct(l), ReadsStruct(rt));
      (StructEq(l1, r1), q2)
    case UintEq(l, rt) =>
      var (l1, q1) := FoldUint(f, l, q);
      var (r1, q2) := FoldUint(f, rt, q1);
      EmitsTrans(f, q, q1, q2, ReadsUint(l), ReadsUint(rt));
      (UintEq(l1, r1), q2)
  }

  /** The binary connectives of `fold_boolean_expression`. */
  function FoldConnective(f: Folder, e: BooleanExpression, q: Queue): (r: (BooleanExpression, Queue))
    requires e.BoolEq? || e.Or? || e.And?
    requires f.VariableReadRemover? ==> ReadyBool(e)
    ensures Emits(f, q, r.1, ReadsBool(e))
    ensures Keeps(f, ReadsBool(e)) ==> r.0 == e
    decreases e, 0
  {
    var (l1, q1) := FoldBool(f, e.bl, q);
    var (r1, q2) := FoldBool(f, e.br, q1);
    EmitsTrans(f, q, q1, q2, ReadsBool(e.bl), ReadsBool(e.br));
    (if e.BoolEq? then BoolEq(l1, r1) else if e.Or? then Or(l1, r1) else And(l1, r1), q2)
  }

  /** Negation and the conditional in `fold_boolean_expression`. */
  function FoldNegationOrConditional(f: Folder, e: BooleanExpression, q: Queue): (r: (BooleanExpression, Queue))
    requires e.Not? || e.BoolIfElse?
    requires f.VariableReadRemover? ==> ReadyBool(e)
    ensures Emits(f, q, r.1, ReadsBool(e))
    ensures Keeps(f, ReadsBool(e)) ==> r.0 == e
    decreases e, 0
  {
    match e
    case Not(x) =>
      var (x1, q1) := FoldBool(f, x, q);
      (Not(x1), q1)
    case BoolIfElse(c, x, y) =>
      var (c1, q1) := FoldBool(f, c, q);
      var (x1, q2) := FoldBool(f, x, q1);
      var (y1, q3) := FoldBool(f, y, q2);
      EmitsTrans(f, q, q1, q2, ReadsBool(c), ReadsBool(x));
      EmitsTrans(f, q, q2, q3, ReadsBool(c) + ReadsBool(x), ReadsBool(y));
      (BoolIfElse(c1, x1, y1), q3)
  }

  /** The remaining cases of `fold_boolean_expression`; the remover sends reads to `select`. */
  function FoldBoolLeaf(f: Folder, e: BooleanExpression, q: Queue): (r: (BooleanExpression, Queue))
    requires e.BoolIdentifier? || e.Value? || e.BoolMember? || e.BoolFunctionCall? || e.BoolSelect?
    requires f.VariableReadRemover? ==> ReadyBool(e)
    ensures Emits(f, q, r.1, ReadsBool(e))
    ensures Keeps(f, ReadsBool(e)) ==> r.0 == e
    decreases e, 0
  {
    match e
    case BoolIdentifier(x) => (BoolIdentifier(FoldName(f, x)), q)
    case Value(_) => (e, q)
    case BoolMember(s, m) =>
      var (s1, q1) := FoldStruct(f, s, q);
      (BoolMember(s1, m), q1)
    case BoolFunctionCall(key, args) =>
      var (args1, q1) := FoldExpressions(f, args, q);
      (BoolFunctionCall(key, args1), q1)
    case BoolSelect(a, i) =>
      if f.VariableReadRemover? then
        var (x, q1) := Select(BoolKind, a, i, q);
        (x.b, q1)
      else
        var (a1, q1) := FoldArray(f, a, q);
        var (i1, q2) := FoldField(f, i, q1);
        (BoolSelect(a1, i1), q2)
  }

  /** `fold_uint_expression`: only the inner expression is folded, so the bitwidth is kept. */
  function FoldUint(f: Folder, e: UExpression, q: Queue): (r: (UExpression, Queue))
    requires f.VariableReadRemover? ==> ReadyUint(e)
    ensures r.0.bitwidth == e.bitwidth
    ensures Emits(f, q, r.1, ReadsUint(e))
    ensures Keeps(f, ReadsUint(e)) ==> r.0 == e
    decreases e, 2
  {
    var (inner, q1) := FoldUintInner(f, e.bitwidth, e.inner, q);
    (UExpression(e.bitwidth, inner), q1)
  }

  /** `fold_uint_expression_inner`; the remover keeps only the inner part of the rewritten read. */
  function FoldUintInner(f: Folder, bitwidth: UBitwidth, e: UExpressionInner, q: Queue): (r: (UExpressionInner, Queue))
    requires f.VariableReadRemover? ==> ReadyUint(UExpression(bitwidth, e))
    ensures Emits(f, q, r.1, ReadsUint(UExpression(bitwidth, e)))
    ensures Keeps(f, ReadsUint(UExpression(bitwidth, e))) ==> r.0 == e
    decreases e, 1
  {
    if e.UBinary? || e.UShift? || e.UNot? then FoldUintOperation(f, bitwidth, e, q)
    else FoldUintLeaf(f, bitwidth, e, q)
  }

  /** The operators of `fold_uint_expression_inner`. */
  function FoldUintOperation(f: Folder, bitwidth: UBitwidth, e: UExpressionInner, q: Queue): (r: (UExpressionInner, Queue))
    requires e.UBinary? || e.UShift? || e.UNot?
    requires f.VariableReadRemover? ==> ReadyUint(UExpression(bitwidth, e))
    ensures Emits(f, q, r.1, ReadsUint(UExpression(bitwidth, e)))
    ensures Keeps(f, ReadsUint(UExpression(bitwidth, e))) ==> r.0 == e
    decreases e, 0
  {
    match e
    case UBinary(op, l, rt) =>
      var (l1, q1) := FoldUint(f, l, q);
      var (r1, q2) := FoldUint(f, rt, q1);
      EmitsTrans(f, q, q1, q2, ReadsUint(l), ReadsUint(rt));
      (UBinary(op, l1, r1), q2)
    case UShift(op, x, amount) =>
      var (x1, q1) := FoldUint(f, x, q);
      var (amount1, q2) := FoldField(f, amount, q1);
      EmitsTrans(f, q, q1, q2, ReadsUint(x), ReadsField(amount));
      (UShift(op, x1, amount1), q2)
    case UNot(x) =>
      var (x1, q1) := FoldUint(f, x, q);
      (UNot(x1), q1)
  }

  /** The remaining cases of `fold_uint_expression_inner`. */
  function FoldUintLeaf(f: Folder, bitwidth: UBitwidth, e: UExpressionInner, q: Queue): (r: (UExpressionInner, Queue))
    requires !(e.UBinary? || e.UShift? || e.UNot?)
    requires f.VariableReadRemover? ==> ReadyUint(UExpression(bitwidth, e))
    ensures Emits(f, q, r.1, ReadsUint(UExpression(bitwidth, e)))
    ensures Keeps(f, ReadsUint(UExpression(bitwidth, e))) ==> r.0 == e
    decreases e, 0
  {
    match e
    case UValue(_) => (e, q)
    case UIdentifier(x) => (UIdentifier(FoldName(f, x)), q)
    case UFunctionCall(key, args) =>
      var (args1, q1) := FoldExpressions(f, args, q);
      (UFunctionCall(key, args1), q1)
    case USelect(a, i) =>
      if f.VariableReadRemover? then
        var (x, q1) := Select(UintKind, a, i, q);
        (x.u.inner, q1)
      else
        var (a1, q1) := FoldArray(f, a, q);
        var (i1, q2) := FoldField(f, i, q1);
        (USelect(a1, i1), q2)
    case UIfElse(c, x, y) =>
      var (c1, q1) := FoldBool(f, c, q);
      var (x1, q2) := FoldUint(f, x, q1);
      var (y1, q3) := FoldUint(f, y, q2);
      EmitsTrans(f, q, q1, q2, ReadsBool(c), ReadsUint(x));
      EmitsTrans(f, q, q2, q3, ReadsBool(c) + ReadsUint(x), ReadsUint(y));
      (UIfElse(c1, x1, y1), q3)
    case UMember(s, m) =>
      var (s1, q1) := FoldStruct(f, s, q);
      (UMember(s1, m), q1)
  }

  /** `fold_array_expression`: only the inner expression is folded, so element type and size are kept. */
  function FoldArray(f: Folder, e: ArrayExpression, q: Queue): (r: (ArrayExpression, Queue))
    requires f.VariableReadRemover? ==> ReadyArray(e)
    ensures r.0.ty == e.ty && r.0.size == e.size
    ensures Emits(f, q, r.1, ReadsArray(e))
    ensures Keeps(f, ReadsArray(e)) ==> r.0 == e
    decreases e, 1
  {
    var (inner, q1) := FoldArrayInner(f, e.ty, e.size, e.inner, q);
    (ArrayExpression(e.size, e.ty, inner), q1)
  }

  /** `fold_array_expression_inner` */
  function FoldArrayInner(f: Folder, ty: Type, size: nat, e: ArrayExpressionInner, q: Queue): (r: (ArrayExpressionInner, Queue))
    requires f.VariableReadRemover? ==> ReadyArray(ArrayExpression(size, ty, e))
    ensures Emits(f, q, r.1, ReadsArray(ArrayExpression(size, ty, e)))
    ensures Keeps(f, ReadsArray(ArrayExpression(size, ty, e))) ==> r.0 == e
    decreases e, 0
  {
    match e
    case ArrayIdentifier(x) => (ArrayIdentifier(FoldName(f, x)), q)
    case ArrayValue(vs) =>
      var (vs1, q1) := FoldExpressions(f, vs, q);
      (ArrayValue(vs1), q1)
    case ArrayFunctionCall(key, args) =>
      var (args1, q1) := FoldExpressions(f, args, q);
      (ArrayFunctionCall(key, args1), q1)
    case ArrayIfElse(c, x, y) =>
      var (c1, q1) := FoldBool(f, c, q);
      var (x1, q2) := FoldArray(f, x, q1);
      var (y1, q3) := FoldArray(f, y, q2);
      EmitsTrans(f, q, q1, q2, ReadsBool(c), ReadsArray(x));
      EmitsTrans(f, q, q2, q3, ReadsBool(c) + ReadsArray(x), ReadsArray(y));
      (ArrayIfElse(c1, x1, y1), q3)
    case ArrayMember(s, m) =>
      var (s1, q1) := FoldStruct(f, s, q);
      (ArrayMember(s1, m), q1)
    case ArraySelect(a, i) =>
      if f.VariableReadRemover? then
        var (x, q1) := Select(ArrayKind, a, i, q);
        (x.a.inner, q1)
      else
        var (a1, q1) := FoldArray(f, a, q);
        var (i1, q2) := FoldField(f, i, q1);
        (ArraySelect(a1, i1), q2)
  }

  /** `fold_struct_expression`: only the inner expression is folded, so the struct type is kept. */
  function FoldStruct(f: Folder, e: StructExpression, q: Queue): (r: (StructExpression, Queue))
    requires f.VariableReadRemover? ==> ReadyStruct(e)
    ensures r.0.ty == e.ty
    ensures Emits(f, q, r.1, ReadsStruct(e))
    ensures Keeps(f, ReadsStruct(e)) ==> r.0 == e
    decreases e, 1
  {
    var (inner, q1) := FoldStructInner(f, e.ty, e.inner, q);
    (StructExpression(e.ty, inner), q1)
  }

  /** `fold_struct_expression_inner` */
  function FoldStructInner(f: Folder, ty: StructType, e: StructExpressionInner, q: Queue): (r: (StructExpressionInner, Queue))
    requires f.VariableReadRemover? ==> ReadyStruct(StructExpression(ty, e))
    ensures Emits(f, q, r.1, ReadsStruct(StructExpression(ty, e)))
    ensures Keeps(f, ReadsStruct(StructExpression(ty, e))) ==> r.0 == e
    decreases e, 0
  {
    match e
    case StructIdentifier(x) => (StructIdentifier(FoldName(f, x)), q)
    case StructValue(vs) =>
      var (vs1, q1) := FoldExpressions(f, vs, q);
      (StructValue(vs1), q1)
    case StructFunctionCall(key, args) =>
      var (args1, q1) := FoldExpressions(f, args, q);
      (StructFunctionCall(key, args1), q1)
    case StructIfElse(c, x, y) =>
      var (c1, q1) := FoldBool(f, c, q);
      var (x1, q2) := FoldStruct(f, x, q1);
      var (y1, q3) := FoldStruct(f, y, q2);
      EmitsTrans(f, q, q1, q2, ReadsBool(c), ReadsStruct(x));
      EmitsTrans(f, q, q2, q3, ReadsBool(c) + ReadsStruct(x), ReadsStruct(y));
      (StructIfElse(c1, x1, y1), q3)
    case StructMemberAccess(s, m) =>
      var (s1, q1) := FoldStruct(f, s, q);
      (StructMemberAccess(s1, m), q1)
    case StructSelect(a, i) =>
      if f.VariableReadRemover? then
        var (x, q1) := Select(StructKind, a, i, q);
        (x.s.inner, q1)
      else
        var (a1, q1) := FoldArray(f, a, q);
        var (i1, q2) := FoldField(f, i, q1);
        (StructSelect(a1, i1), q2)
  }

  // ---------------------------------------------------------------- assignees and statements

  /** `fold_assignee`: the structure is kept and only indices are folded, so the assignee's type is unchanged. */
  function FoldAssignee(f: Folder, a: TypedAssignee, q: Queue): (r: (TypedAssignee, Queue))
    requires f.VariableReadRemover? ==> ReadyAssignee(a)
    ensures AssigneeType(r.0) == AssigneeType(a)
    ensures Emits(f, q, r.1, ReadsAssignee(a))
    ensures Keeps(f, ReadsAssignee(a)) ==> r.0 == a
  {
    match a
    case AssigneeIdentifier(v) => (AssigneeIdentifier(FoldVariable(f, v)), q)
    case AssigneeSelect(b, i) =>
      var (b1, q1) := FoldAssignee(f, b, q);
      var (i1, q2) := FoldField(f, i, q1);
      EmitsTrans(f, q, q1, q2, ReadsAssignee(b), ReadsField(i));
      (AssigneeSelect(b1, i1), q2)
    case AssigneeMember(b, m) =>
      var (b1, q1) := FoldAssignee(f, b, q);
      (AssigneeMember(b1, m), q1)
  }

  function FoldAssignees(f: Folder, targets: seq<TypedAssignee>, q: Queue): (r: (seq<TypedAssignee>, Queue))
    requires f.VariableReadRemover? ==> ReadyAssignees(targets)
    ensures |r.0| == |targets|
    ensures forall k :: 0 <= k < |targets| ==> AssigneeType(r.0[k]) == AssigneeType(targets[k])
    ensures Emits(f, q, r.1, ReadsAssignees(targets))
    ensures Keeps(f, ReadsAssignees(targets)) ==> r.0 == targets
  {
    if targets == [] then ([], q)
    else
      var (h, q1) := FoldAssignee(f, targets[0], q);
      var (t, q2) := FoldAssignees(f, targets[1..], q1);
      EmitsTrans(f, q, q1, q2, ReadsAssignee(targets[0]), ReadsAssignees(targets[1..]));
      assert forall k :: 1 <= k < |targets| ==> targets[k] == targets[1..][k - 1];
      ([h] + t, q2)
  }

  /** `fold_expression_list`: the arguments are folded, the key and the result types kept. */
  function FoldExpressionList(f: Folder, l: TypedExpressionList, q: Queue): (r: (TypedExpressionList, Queue))
    requires f.VariableReadRemover? ==> ReadyExpressions(l.arguments)
    ensures r.0.key == l.key && r.0.types == l.types && |r.0.arguments| == |l.arguments|
    ensures Emits(f, q, r.1, ReadsExpressions(l.arguments))
    ensures Keeps(f, ReadsExpressions(l.arguments)) ==> r.0 == l
  {
    var (args, q1) := FoldExpressions(f, l.arguments, q);
    (FunctionCallList(l.key, args, l.types), q1)
  }

  /** Both statements are built by the same constructor. */
  predicate SameStatementKind(s: TypedStatement, t: TypedStatement)
  {
    && s.Return? == t.Return?
    && s.Definition? == t.Definition?
    && s.Declaration? == t.Declaration?
    && s.Assertion? == t.Assertion?
    && s.For? == t.For?
    && s.MultipleDefinition? == t.MultipleDefinition?
  }

  /**
   * The free `fold_statement`: one statement built by the same constructor. The bounds of a loop are
   * not folded; its body is folded statement by statement with the folder's own `fold_statement`, so
   * the remover drains the pending queue into the body.
   */
  function FoldStatementDefault(f: Folder, s: TypedStatement, q: Queue): (r: (TypedStatement, Queue))
    requires f.VariableReadRemover? ==> ReadyStatement(s)
    ensures SameStatementKind(r.0, s)
    ensures s.For? ==> r.0.variable == s.variable && r.0.start == s.start && r.0.stop == s.stop
    ensures !s.For? ==> Emits(f, q, r.1, ReadsStatement(s))
    ensures s.For? ==> r.1 == (if f.VariableReadRemover? && s.body != [] then [] else q)
    ensures (f.DefaultFolder? || (ReadsStatement(s) == 0 && q == [])) ==> r.0 == s
    decreases s, 1
  {
    if s.Definition? || s.MultipleDefinition? then FoldDefinition(f, s, q) else FoldOtherStatement(f, s, q)
  }

  /** The definitions: the assignees are folded before the right-hand side. */
  function FoldDefinition(f: Folder, s: TypedStatement, q: Queue): (r: (TypedStatement, Queue))
    requires s.Definition? || s.MultipleDefinition?
    requires f.VariableReadRemover? ==> ReadyStatement(s)
    ensures SameStatementKind(r.0, s)
    ensures Emits(f, q, r.1, ReadsStatement(s))
    ensures (f.DefaultFolder? || (ReadsStatement(s) == 0 && q == [])) ==> r.0 == s
    decreases s, 0
  {
    match s
    case Definition(a, e) =>
      var (a1, q1) := FoldAssignee(f, a, q);
      var (e1, q2) := FoldExpression(f, e, q1);
      EmitsTrans(f, q, q1, q2, ReadsAssignee(a), ReadsExpression(e));
      (Definition(a1, e1), q2)
    case MultipleDefinition(targets, call) =>
      var (targets1, q1) := FoldAssignees(f, targets, q);
      var (call1, q2) := FoldExpressionList(f, call, q1);
      EmitsTrans(f, q, q1, q2, ReadsAssignees(targets), ReadsExpressions(call.arguments));
      (MultipleDefinition(targets1, call1), q2)
  }

  /** Returns, declarations, assertions and loops; a loop keeps its bounds as they are. */
  function FoldOtherStatement(f: Folder, s: TypedStatement, q: Queue): (r: (TypedStatement, Queue))
    requires !s.Definition? && !s.MultipleDefinition?
    requires f.VariableReadRemover? ==> ReadyStatement(s)
    ensures SameStatementKind(r.0, s)
    ensures s.For? ==> r.0.variable == s.variable && r.0.start == s.start && r.0.stop == s.stop
    ensures !s.For? ==> Emits(f, q, r.1, ReadsStatement(s))
    ensures s.For? ==> r.1 == (if f.VariableReadRemover? && s.body != [] then [] else q)
    ensures (f.DefaultFolder? || (ReadsStatement(s) == 0 && q == [])) ==> r.0 == s
    decreases s, 0
  {
    match s
    case Return(es) =>
      var (es1, q1) := FoldExpressions(f, es, q);
      (Return(es1), q1)
    case Declaration(v) => (Declaration(FoldVariable(f, v)), q)
    case Assertion(c) =>
      var (c1, q1) := FoldBool(f, c, q);
      (Assertion(c1), q1)
    case For(v, start, stop, body) =>
      var (body1, q1) := FoldStatements(f, body, q);
      (For(FoldVariable(f, v), start, stop, body1), q1)
  }

  /**
   * The folder's `fold_statement`. By default it yields exactly the folded statement. The remover
   * yields the pending queue, then the folded statement, and leaves the queue empty.
   */
  function FoldStatement(f: Folder, s: TypedStatement, q: Queue): (r: (seq<TypedStatement>, Queue))
    requires f.VariableReadRemover? ==> ReadyStatement(s)
    ensures f.DefaultFolder? ==> r == ([s], q)
    ensures f.VariableReadRemover? ==> r.1 == [] && |r.0| >= 1 && SameStatementKind(r.0[|r.0| - 1], s)
    ensures f.VariableReadRemover? && !s.For? ==>
      && |r.0| == |q| + ReadsStatement(s) + 1
      && r.0[..|q|] == q
      && forall k :: |q| <= k < |r.0| - 1 ==> r.0[k].Assertion?
    ensures f.VariableReadRemover? && ReadsStatement(s) == 0 && q == [] ==> r.0 == [s]
    decreases s, 2
  {
    var (s1, q1) := FoldStatementDefault(f, s, q);
    if f.DefaultFolder? then ([s1], q1) else (q1 + [s1], [])
  }

  /** Statements folded one after the other and their results concatenated (`flat_map`). */
  function FoldStatements(f: Folder, ss: seq<TypedStatement>, q: Queue): (r: (seq<TypedStatement>, Queue))
    requires f.VariableReadRemover? ==> ReadyStatements(ss)
    ensures f.DefaultFolder? ==> r == (ss, q)
    ensures f.VariableReadRemover? ==> r.1 == (if ss == [] then q else [])
    ensures f.VariableReadRemover? ==> |r.0| >= |ss|
    ensures f.VariableReadRemover? && ReadsStatements(ss) == 0 && q == [] ==> r.0 == ss
    decreases ss
  {
    if ss == [] then ([], q)
    else
      var (h, q1) := FoldStatement(f, ss[0], q);
      var (t, q2) := FoldStatements(f, ss[1..], q1);
      assert ss == [ss[0]] + ss[1..];
      (h + t, q2)
  }

  // ---------------------------------------------------------------- functions, modules, programs

  /** `fold_function`: parameters and signature are kept, the statements folded with an empty queue. */
  function FoldFunction(f: Folder, fun: TypedFunction): (r: TypedFunction)
    requires f.VariableReadRemover? ==> ReadyStatements(fun.statements)
    ensures r.arguments == fun.arguments && r.signature == fun.signature
    ensures |r.statements| >= |fun.statements|
    ensures Keeps(f, ReadsStatements(fun.statements)) ==> r == fun
  {
    var arguments := seq(|fun.arguments|, i requires 0 <= i < |fun.arguments| => FoldParameter(f, fun.arguments[i]));
    assert arguments == fun.arguments;
    var (statements, _) := FoldStatements(f, fun.statements, []);
    TypedFunction(arguments, statements, fun.signature)
  }

  /** How a symbol relates to its folded form: only local functions change, and they keep their interface. */
  predicate FoldedSymbol(s: TypedFunctionSymbol, t: TypedFunctionSymbol)
  {
    if s.Here? then t.Here? && t.fun.arguments == s.fun.arguments && t.fun.signature == s.fun.signature
    else t == s
  }

  /** `fold_function_symbol`: imported and embedded symbols are not folded. */
  function FoldFunctionSymbol(f: Folder, s: TypedFunctionSymbol): (r: TypedFunctionSymbol)
    requires f.VariableReadRemover? ==> ReadySymbol(s)
    ensures FoldedSymbol(s, r)
    ensures f.DefaultFolder? ==> r == s
  {
    match s
    case Here(fun) => Here(FoldFunction(f, fun))
    case _ => s
  }

  /** `fold_module`: every symbol folded under its own key. */
  function FoldModule(f: Folder, m: TypedModule): (r: TypedModule)
    requires f.VariableReadRemover? ==> forall k :: k in m.functions ==> ReadySymbol(m.functions[k])
    ensures r.functions.Keys == m.functions.Keys
    ensures forall k :: k in m.functions ==> FoldedSymbol(m.functions[k], r.functions[k])
    ensures f.DefaultFolder? ==> r == m
  {
    TypedModule(map k | k in m.functions :: FoldFunctionSymbol(f, m.functions[k]))
  }

  /**
   * `fold_program`: every module folded under its own id, `main` kept. The remover's queue is empty
   * between functions, so the order in which the maps are visited does not matter.
   */
  function FoldProgram(f: Folder, p: TypedProgram): (r: TypedProgram)
    requires f.VariableReadRemover? ==> ReadyProgram(p)
    ensures r.main == p.main && r.modules.Keys == p.modules.Keys
    ensures forall m :: m in p.modules ==> r.modules[m].functions.Keys == p.modules[m].functions.Keys
    ensures forall m, k :: m in p.modules && k in p.modules[m].functions ==>
      FoldedSymbol(p.modules[m].functions[k], r.modules[m].functions[k])
    ensures f.DefaultFolder? ==> r == p
  {
    TypedProgram(map m | m in p.modules :: FoldModule(f, p.modules[m]), p.main)
  }

  /** `VariableReadRemover::apply` */
  function RemoveVariableReads(p: TypedProgram): (r: TypedProgram)
    requires ReadyProgram(p)
    ensures r.main == p.main && r.modules.Keys == p.modules.Keys
  {
    FoldProgram(VariableReadRemover, p)
  }

  /** Every symbol of a folded program has the signature it had before, imports included. */
  lemma {:induction false} FoldProgramKeepsSignatures(f: Folder, p: TypedProgram, m: ModuleId, k: FunctionKey, fuel: nat)
    requires f.VariableReadRemover? ==> ReadyProgram(p)
    requires m in p.modules && k in p.modules[m].functions
    ensures m in FoldProgram(f, p).modules && k in FoldProgram(f, p).modules[m].functions
    ensures SymbolSignature(FoldProgram(f, p).modules[m].functions[k], FoldProgram(f, p).modules, fuel)
         == SymbolSignature(p.modules[m].functions[k], p.modules, fuel)
    decreases fuel
  {
    var r := FoldProgram(f, p);
    var s := p.modules[m].functions[k];
    var t := r.modules[m].functions[k];
    assert FoldedSymbol(s, t);
    if s.There? && fuel > 0 && s.moduleId in p.modules && s.key in p.modules[s.moduleId].functions {
      FoldProgramKeepsSignatures(f, p, s.moduleId, s.key, fuel - 1);
    }
  }

  /** The unit test of the remover: `b = a[i]` with `a` of size 2. */
  lemma RemoverExample()
    ensures
      var a := ArrayExpression(2, FieldElement, ArrayIdentifier(FromStr("a")));
      var i := FieldIdentifier(FromStr("i"));
      var b := AssigneeIdentifier(Variable(FromStr("b"), FieldElement));
      FoldStatement(VariableReadRemover, Definition(b, FieldElementExp(FieldSelect(a, i))), []) ==
      ([Assertion(Or(FieldEq(i, Number(0)), FieldEq(i, Number(1)))),
        Definition(b, FieldElementExp(FieldIfElse(FieldEq(i, Number(0)), FieldSelect(a, Number(0)), FieldSelect(a, Number(1)))))],
       [])
  {
    var a := ArrayExpression(2, FieldElement, ArrayIdentifier(FromStr("a")));
    var i := FieldIdentifier(FromStr("i"));
    var b := AssigneeIdentifier(Variable(FromStr("b"), FieldElement));
    assert FromNat(0) == 0 && FromNat(1) == 1;
    var chain := FieldIfElse(FieldEq(i, Number(0)), FieldSelect(a, Number(0)), FieldSelect(a, Number(1)));
    assert Chain(FieldKind, a, i, 1) == FieldElementExp(FieldSelect(a, Number(1)));
    assert Chain(FieldKind, a, i, 0) == FieldElementExp(chain);
    var guard := Assertion(Or(FieldEq(i, Number(0)), FieldEq(i, Number(1))));
    assert Guard(i, 2) == guard.condition;
    assert FoldField(VariableReadRemover, FieldSelect(a, i), []) == (chain, [guard]);
    assert FoldAssignee(VariableReadRemover, b, []) == (b, []);
    assert FoldStatementDefault(VariableReadRemover, Definition(b, FieldElementExp(FieldSelect(a, i))), [])
        == (Definition(b, FieldElementExp(chain)), [guard]);
    var st := Definition(b, FieldElementExp(FieldSelect(a, i)));
    assert ReadyStatement(st);
    var r := FoldStatement(VariableReadRemover, st, []);
    var d := FoldStatementDefault(VariableReadRemover, st, []);
    assert r == (d.1 + [d.0], []);
    assert d.1 + [d.0] == [guard, Definition(b, FieldElementExp(chain))];
  }
}

=== FILE: identifier.dfy ===
/**
 * Variable identifiers of the typed AST and the way they are printed.
 * `usize` counters are unbounded naturals here; function-key hashes are 64-bit.
 */
module Identifiers {

  /** A module identifier (a path); it prints as itself. */
  type ModuleId = string

  type U64 = n: nat | n < 0x1_0000_0000_0000_0000

  /** The hash of a function key, printed in hexadecimal inside `Call` identifiers. */
  type FunctionKeyHash = U64

  datatype CoreIdentifier =
    | Source(name: string)
    | Internal(tag: string, index: nat)
    | Call(key: FunctionKeyHash, index: nat)

  /** One frame of the inlining call stack: module, function-key hash, call count. */
  datatype StackFrame = StackFrame(moduleId: ModuleId, keyHash: FunctionKeyHash, count: nat)

  /** Equality is structural over all three fields (the derived `PartialEq`). */
  datatype Identifier = Identifier(id: CoreIdentifier, version: nat, stack: seq<StackFrame>)

  /** `Identifier::from(CoreIdentifier)`: version 0 and an empty stack. */
  function FromCore(id: CoreIdentifier): (r: Identifier)
    ensures r.id == id && r.version == 0 && r.stack == []
  {
    Identifier(id, 0, [])
  }

  /** `Identifier::from(&str)` */
  function FromStr(s: string): (r: Identifier)
    ensures r.id == Source(s) && r.version == 0 && r.stack == []
    ensures Display(r) == s
  {
    FromCore(Source(s))
  }

  // ---------------------------------------------------------------- digits

  /** `c` is a digit of `base` (10 or 16), hexadecimal digits above 9 in lower case. */
  predicate IsDigit(c: char, base: nat)
  {
    ('0' <= c <= '9' && (c as int) - ('0' as int) < base) || (base == 16 && 'a' <= c <= 'f')
  }

  /** The digit for `d`. */
  function DigitChar(d: nat): (c: char)
    requires d < 16
    ensures d < 10 ==> '0' <= c <= '9'
    ensures d >= 10 ==> 'a' <= c <= 'f'
  {
    if d < 10 then (('0' as int) + d) as char else (('a' as int) + d - 10) as char
  }

  function DigitValue(c: char): nat
    requires IsDigit(c, 16)
  {
    if '0' <= c <= '9' then (c as int) - ('0' as int) else (c as int) - ('a' as int) + 10
  }

  /** `n` written in `base` (10 or 16) with lower-case digits and no leading zero. */
  function NatToBase(n: nat, base: nat): (r: string)
    requires base == 10 || base == 16
    ensures |r| >= 1
    ensures forall i :: 0 <= i < |r| ==> IsDigit(r[i], base)
    ensures |r| > 1 ==> r[0] != '0'
    decreases n
  {
    var d := DigitChar(n % base);
    if n < base then [d] else NatToBase(n / base, base) + [d]
  }

  /** Decimal rendering of a `usize` (`{}`). */
  function Decimal(n: nat): string
  {
    NatToBase(n, 10)
  }

  /** Lower-case hexadecimal rendering (`{:x}`). */
  function Hex(n: nat): string
  {
    NatToBase(n, 16)
  }

  /** Reads back a numeral written with the digits of `base`. */
  function ParseBase(s: string, base: nat): nat
    requires base == 10 || base == 16
    requires forall i :: 0 <= i < |s| ==> IsDigit(s[i], base)
  {
    if s == [] then 0
    else
      assert IsDigit(s[|s| - 1], base);
      ParseBase(s[..|s| - 1], base) * base + DigitValue(s[|s| - 1])
  }

  /** Rendering then reading back gives the number again. */
  lemma {:induction false} ParseNatToBase(n: nat, base: nat)
    requires base == 10 || base == 16
    ensures ParseBase(NatToBase(n, base), base) == n
    decreases n
  {
    var r := NatToBase(n, base);
    var d := n % base;
    assert DigitValue(DigitChar(d)) == d;
    if n >= base {
      ParseNatToBase(n / base, base);
      var prefix := NatToBase(n / base, base);
      assert r == prefix + [DigitChar(d)];
      assert r[..|r| - 1] == prefix;
    }
  }

  /** Two numbers print the same only if they are equal. */
  lemma DecimalInjective(a: nat, b: nat)
    ensures Decimal(a) == Decimal(b) <==> a == b
  {
    if Decimal(a) == Decimal(b) {
      ParseNatToBase(a, 10);
      ParseNatToBase(b, 10);
    }
  }

  lemma HexInjective(a: nat, b: nat)
    ensures Hex(a) == Hex(b) <==> a == b
  {
    if Hex(a) == Hex(b) {
      ParseNatToBase(a, 16);
      ParseNatToBase(b, 16);
    }
  }

  lemma DecimalHasNoUnderscore(n: nat)
    ensures '_' !in Decimal(n)
  {
  }

  // ---------------------------------------------------------------- printing

  /** `Display for CoreIdentifier` */
  function DisplayCore(c: CoreIdentifier): string
  {
    match c
    case Source(s) => s
    case Internal(s, i) => "#INTERNAL#_" + s + "_" + Decimal(i)
    case Call(k, i) => Hex(k) + "_" + Decimal(i)
  }

  /** A stack frame prints as `module_hash_count`, the hash in decimal here. */
  function DisplayFrame(f: StackFrame): string
  {
    f.moduleId + "_" + Decimal(f.keyHash) + "_" + Decimal(f.count)
  }

  /** The frames joined by `_`. */
  function JoinFrames(stack: seq<StackFrame>): string
  {
    if stack == [] then ""
    else if |stack| == 1 then DisplayFrame(stack[0])
    else JoinFrames(stack[..|stack| - 1]) + "_" + DisplayFrame(stack[|stack| - 1])
  }

  /** `Display for Identifier` */
  function Display(x: Identifier): string
  {
    if |x.stack| == 0 && x.version == 0 then DisplayCore(x.id)
    else JoinFrames(x.stack) + "_" + DisplayCore(x.id) + "_" + Decimal(x.version)
  }

  /** The text after the last `_` (all of `s` when there is none). */
  function AfterLastUnderscore(s: string): (r: string)
    ensures |r| <= |s|
  {
    if s == [] then []
    else if s[|s| - 1] == '_' then []
    else AfterLastUnderscore(s[..|s| - 1]) + [s[|s| - 1]]
  }

  lemma {:induction false} AfterLastUnderscoreOfSuffix(prefix: string, d: string)
    requires '_' !in d
    ensures AfterLastUnderscore(prefix + "_" + d) == d
    decreases |d|
  {
    var s := prefix + "_" + d;
    if d == [] {
      assert s[|s| - 1] == '_';
    } else {
      var d' := d[..|d| - 1];
      assert s[..|s| - 1] == prefix + "_" + d';
      assert d[|d| - 1] in d;
      AfterLastUnderscoreOfSuffix(prefix, d');
      assert d' + [d[|d| - 1]] == d;
    }
  }

  /** The plain form: an unversioned identifier outside any inlined call prints as its core id. */
  lemma DisplayPlain(x: Identifier)
    requires x.stack == [] && x.version == 0
    ensures Display(x) == DisplayCore(x.id)
  {
  }

  /** With no stack but a version the printed name starts with the (empty) stack's separator. */
  lemma DisplayVersionedStartsWithUnderscore(x: Identifier)
    requires x.stack == [] && x.version != 0
    ensures Display(x) == "_" + DisplayCore(x.id) + "_" + Decimal(x.version)
    ensures Display(x)[0] == '_'
  {
  }

  /** Whenever the decorated form is printed, the version can be read back from the text after the last `_`. */
  lemma DisplayRecoversVersion(x: Identifier)
    requires x.stack != [] || x.version != 0
    ensures forall i :: 0 <= i < |AfterLastUnderscore(Display(x))| ==> IsDigit(AfterLastUnderscore(Display(x))[i], 10)
    ensures ParseBase(AfterLastUnderscore(Display(x)), 10) == x.version
  {
    DecimalHasNoUnderscore(x.version);
    AfterLastUnderscoreOfSuffix(JoinFrames(x.stack) + "_" + DisplayCore(x.id), Decimal(x.version));
    ParseNatToBase(x.version, 10);
  }

  /** Two `Internal` identifiers print alike exactly when they are equal. */
  lemma InternalDisplayInjective(s1: string, i1: nat, s2: string, i2: nat)
    ensures DisplayCore(Internal(s1, i1)) == DisplayCore(Internal(s2, i2)) <==> s1 == s2 && i1 == i2
  {
    if DisplayCore(Internal(s1, i1)) == DisplayCore(Internal(s2, i2)) {
      DecimalHasNoUnderscore(i1);
      DecimalHasNoUnderscore(i2);
      assert DisplayCore(Internal(s1, i1)) == ("#INTERNAL#_" + s1) + "_" + Decimal(i1);
      assert DisplayCore(Internal(s2, i2)) == ("#INTERNAL#_" + s2) + "_" + Decimal(i2);
      AfterLastUnderscoreOfSuffix("#INTERNAL#_" + s1, Decimal(i1));
      AfterLastUnderscoreOfSuffix("#INTERNAL#_" + s2, Decimal(i2));
      DecimalInjective(i1, i2);
      var a := "#INTERNAL#_" + s1 + "_";
      var b := "#INTERNAL#_" + s2 + "_";
      assert a + Decimal(i1) == b + Decimal(i2);
      assert |a| == |b|;
      assert a == (a + Decimal(i1))[..|a|];
      assert s1 == a[11..|a| - 1];
      assert s2 == b[11..|b| - 1];
    }
  }
}

=== FILE: lin_comb.dfy ===
/**
 * Linear and quadratic combinations of the flattened IR. A linear combination is a plain list of
 * (variable, coefficient) terms in which a variable may occur several times; its meaning is the
 * coefficient each variable ends up with once all of its terms are summed in the field. The
 * canonical form is a map from variable to that sum with the zero sums dropped; two combinations
 * are equal exactly when their canonical forms are.
 */
module LinearCombinations {
  import opened Wrappers
  import opened Field

  /** A wire of the flattened program. The wire numbered 0 always carries the value 1. */
  datatype FlatVariable = FlatVariable(id: nat)

  const One: FlatVariable := FlatVariable(0)

  type Term = (FlatVariable, Fe)

  datatype LinComb = LinComb(terms: seq<Term>)

  /** A product `left * right` of two linear combinations. */
  datatype QuadComb = QuadComb(left: LinComb, right: LinComb)

  /** The canonical form: one entry per variable whose coefficient is nonzero. */
  type CanonicalLinComb = map<FlatVariable, Fe>

  datatype CanonicalQuadComb = CanonicalQuadComb(left: CanonicalLinComb, right: CanonicalLinComb)

  // ---------------------------------------------------------------------------------------------
  // Reference meaning

  /** The coefficient of `v` in a term: the term's coefficient when it is on `v`, zero otherwise. */
  function CoeffOn(t: Term, v: FlatVariable): Fe
  {
    if t.0 == v then t.1 else 0
  }

  /** The total coefficient of `v` in a term list, summed left to right in the field. */
  function CoeffSum(terms: seq<Term>, v: FlatVariable): Fe
    decreases |terms|
  {
    if terms == [] then 0
    else FAdd(CoeffSum(terms[..|terms| - 1], v), CoeffOn(terms[|terms| - 1], v))
  }

  function Lookup(m: CanonicalLinComb, v: FlatVariable): Fe
  {
    if v in m then m[v] else 0
  }

  predicate ZeroFree(m: CanonicalLinComb)
  {
    forall v :: v in m ==> m[v] != 0
  }

  /** The value of a term list once each variable is given a value: the sum of coefficient times value. */
  function Eval(terms: seq<Term>, env: FlatVariable -> Fe): Fe
    decreases |terms|
  {
    if terms == [] then 0
    else
      var t := terms[|terms| - 1];
      FAdd(Eval(terms[..|terms| - 1], env), FMul(t.1, env(t.0)))
  }

  // ---------------------------------------------------------------------------------------------
  // Construction

  /** `LinComb::summand`: one term. */
  function Summand(mult: Fe, v: FlatVariable): (r: LinComb)
    ensures forall w :: CoeffSum(r.terms, w) == (if w == v then mult else 0)
  {
    var r := LinComb([(v, mult)]);
    assert r.terms[..0] == [];
    r
  }

  function Zero(): (r: LinComb)
    ensures forall v :: CoeffSum(r.terms, v) == 0
  {
    LinComb([])
  }

  /** `is_zero` looks at the term list only: a combination whose terms cancel out is not zero here. */
  predicate IsZero(l: LinComb)
  {
    |l.terms| == 0
  }

  /** `LinComb::one()`: the constant 1, as the wire `One` with coefficient 1. */
  function OneComb(): (r: LinComb)
    ensures forall w :: CoeffSum(r.terms, w) == (if w == One then 1 else 0)
  {
    Summand(1, One)
  }

  /** `From<FlatVariable>`: the variable with coefficient 1. */
  function FromVariable(v: FlatVariable): (r: LinComb)
    ensures forall w :: CoeffSum(r.terms, w) == (if w == v then 1 else 0)
  {
    var r := LinComb([(v, 1)]);
    assert r.terms[..0] == [];
    r
  }

  /** `From<T>`: a constant is the wire `One` scaled by it. */
  function FromConstant(x: Fe): (r: LinComb)
    ensures r.terms == [(One, x)]
  {
    Mul(OneComb(), x)
  }

  // ---------------------------------------------------------------------------------------------
  // Arithmetic on term lists

  /** `a + b` appends the terms of `b` to those of `a`. */
  function Add(a: LinComb, b: LinComb): (r: LinComb)
    ensures |r.terms| == |a.terms| + |b.terms|
    ensures r.terms == a.terms + b.terms
  {
    LinComb(a.terms + b.terms)
  }

  function NegateTerms(terms: seq<Term>): (r: seq<Term>)
    ensures |r| == |terms|
    ensures forall i :: 0 <= i < |terms| ==> r[i].0 == terms[i].0 && FAdd(r[i].1, terms[i].1) == 0
  {
    seq(|terms|, i requires 0 <= i < |terms| => (terms[i].0, FSub(0, terms[i].1)))
  }

  /** `a - b` appends the terms of `b` with their coefficients negated. */
  function Sub(a: LinComb, b: LinComb): (r: LinComb)
    ensures |r.terms| == |a.terms| + |b.terms| && r.terms[..|a.terms|] == a.terms
    ensures r.terms[|a.terms|..] == NegateTerms(b.terms)
  {
    LinComb(a.terms + NegateTerms(b.terms))
  }

  /** `l * k` scales every coefficient, keeping the variables and their order. */
  function Mul(l: LinComb, k: Fe): (r: LinComb)
    ensures |r.terms| == |l.terms|
    ensures forall i :: 0 <= i < |l.terms| ==> r.terms[i].0 == l.terms[i].0
    ensures forall i :: 0 <= i < |l.terms| ==> r.terms[i].1 == FMul(l.terms[i].1, k)
  {
    LinComb(seq(|l.terms|, i requires 0 <= i < |l.terms| => (l.terms[i].0, FMul(l.terms[i].1, k))))
  }

  lemma {:induction false} CoeffSumAppend(a: seq<Term>, b: seq<Term>, v: FlatVariable)
    ensures CoeffSum(a + b, v) == FAdd(CoeffSum(a, v), CoeffSum(b, v))
    decreases |b|
  {
    if b == [] {
      assert a + b == a;
    } else {
      var b' := b[..|b| - 1];
      assert (a + b)[..|a + b| - 1] == a + b';
      CoeffSumAppend(a, b', v);
      FAddAssoc(CoeffSum(a, v), CoeffSum(b', v), CoeffOn(b[|b| - 1], v));
    }
  }

  /** Adding combinations adds every variable's coefficient. */
  lemma AddCoefficients(a: LinComb, b: LinComb, v: FlatVariable)
    ensures CoeffSum(Add(a, b).terms, v) == FAdd(CoeffSum(a.terms, v), CoeffSum(b.terms, v))
  {
    CoeffSumAppend(a.terms, b.terms, v);
  }

  lemma {:induction false} NegateCoefficients(terms: seq<Term>, v: FlatVariable)
    ensures CoeffSum(NegateTerms(terms), v) == FNeg(CoeffSum(terms, v))
    decreases |terms|
  {
    if terms != [] {
      var n := |terms| - 1;
      assert NegateTerms(terms)[..n] == NegateTerms(terms[..n]);
      NegateCoefficients(terms[..n], v);
      FNegAdd(CoeffSum(terms[..n], v), CoeffOn(terms[n], v));
    }
  }

  /** Subtracting combinations subtracts every variable's coefficient. */
  lemma SubCoefficients(a: LinComb, b: LinComb, v: FlatVariable)
    ensures CoeffSum(Sub(a, b).terms, v) == FSub(CoeffSum(a.terms, v), CoeffSum(b.terms, v))
  {
    CoeffSumAppend(a.terms, NegateTerms(b.terms), v);
    NegateCoefficients(b.terms, v);
  }

  /** Scaling a combination scales every variable's coefficient. */
  lemma {:induction false} MulCoefficients(l: LinComb, k: Fe, v: FlatVariable)
    ensures CoeffSum(Mul(l, k).terms, v) == FMul(CoeffSum(l.terms, v), k)
    decreases |l.terms|
  {
    if l.terms != [] {
      var n := |l.terms| - 1;
      var l' := LinComb(l.terms[..n]);
      assert Mul(l, k).terms[..n] == Mul(l', k).terms;
      MulCoefficients(l', k, v);
      FMulDistrib(CoeffSum(l'.terms, v), CoeffOn(l.terms[n], v), k);
    }
  }

  // ---------------------------------------------------------------------------------------------
  // Canonical form

  /** One step of the fold in `into_canonical`: zero coefficients are skipped, and an entry whose
      sum becomes zero is removed. */
  function Step(acc: CanonicalLinComb, t: Term): (r: CanonicalLinComb)
    requires ZeroFree(acc)
    ensures ZeroFree(r)
    ensures forall v :: Lookup(r, v) == FAdd(Lookup(acc, v), CoeffOn(t, v))
  {
    var (val, coeff) := t;
    if coeff == 0 then acc
    else if val in acc then
      if FAdd(acc[val], coeff) != 0 then acc[val := FAdd(acc[val], coeff)] else acc - {val}
    else acc[val := coeff]
  }

  function CanonTerms(terms: seq<Term>): (r: CanonicalLinComb)
    ensures ZeroFree(r)
    decreases |terms|
  {
    if terms == [] then map[] else Step(CanonTerms(terms[..|terms| - 1]), terms[|terms| - 1])
  }

  /** `into_canonical`: never holds a zero coefficient. */
  function IntoCanonical(l: LinComb): (r: CanonicalLinComb)
    ensures forall v :: v in r ==> r[v] != 0
  {
    CanonTerms(l.terms)
  }

  lemma {:induction false} CanonTermsMeaning(terms: seq<Term>, v: FlatVariable)
    ensures Lookup(CanonTerms(terms), v) == CoeffSum(terms, v)
    decreases |terms|
  {
    if terms != [] {
      CanonTermsMeaning(terms[..|terms| - 1], v);
    }
  }

  /** The canonical form maps each variable to its total coefficient, and holds exactly the
      variables whose total is nonzero. */
  lemma CanonicalMeaning(l: LinComb, v: FlatVariable)
    ensures v in IntoCanonical(l) <==> CoeffSum(l.terms, v) != 0
    ensures v in IntoCanonical(l) ==> IntoCanonical(l)[v] == CoeffSum(l.terms, v)
  {
    CanonTermsMeaning(l.terms, v);
  }

  /** `CanonicalMeaning` for every variable at once. */
  lemma CanonicalMeaningAll(l: LinComb)
    ensures forall v :: v in IntoCanonical(l) <==> CoeffSum(l.terms, v) != 0
    ensures forall v :: v in IntoCanonical(l) ==> IntoCanonical(l)[v] == CoeffSum(l.terms, v)
  {
    forall v {
      CanonicalMeaning(l, v);
    }
  }

  /** `PartialEq for LinComb`: equal canonical forms. */
  predicate LinEq(a: LinComb, b: LinComb)
  {
    IntoCanonical(a) == IntoCanonical(b)
  }

  ghost predicate SameCoefficients(a: LinComb, b: LinComb)
  {
    forall v :: CoeffSum(a.terms, v) == CoeffSum(b.terms, v)
  }

  /** Two combinations are equal exactly when every variable has the same total coefficient in both. */
  lemma LinEqMeaning(a: LinComb, b: LinComb)
    ensures LinEq(a, b) <==> SameCoefficients(a, b)
  {
    var ca, cb := IntoCanonical(a), IntoCanonical(b);
    if LinEq(a, b) {
      forall v ensures CoeffSum(a.terms, v) == CoeffSum(b.terms, v) {
        CanonTermsMeaning(a.terms, v);
        CanonTermsMeaning(b.terms, v);
      }
    }
    if SameCoefficients(a, b) {
      forall v ensures Lookup(ca, v) == Lookup(cb, v) {
        CanonTermsMeaning(a.terms, v);
        CanonTermsMeaning(b.terms, v);
      }
      forall v ensures v in ca <==> v in cb {
        assert Lookup(ca, v) == Lookup(cb, v);
      }
      forall v | v in ca ensures ca[v] == cb[v] {
        assert Lookup(ca, v) == Lookup(cb, v);
      }
      assert ca == cb;
    }
  }

  /** Appending the zero combination on either side gives an equal combination. */
  lemma AddZero(b: LinComb)
    ensures LinEq(Add(Zero(), b), b) && LinEq(Add(b, Zero()), b)
  {
    forall v ensures CoeffSum(Add(b, Zero()).terms, v) == CoeffSum(b.terms, v) {
      AddCoefficients(b, Zero(), v);
    }
    LinEqMeaning(Add(b, Zero()), b);
    assert Add(Zero(), b) == b;
  }

  /** Addition is commutative up to equality, though the term lists differ. */
  lemma AddCommutes(a: LinComb, b: LinComb)
    ensures LinEq(Add(a, b), Add(b, a))
  {
    forall v ensures CoeffSum(Add(a, b).terms, v) == CoeffSum(Add(b, a).terms, v) {
      AddCoefficients(a, b, v);
      AddCoefficients(b, a, v);
    }
    LinEqMeaning(Add(a, b), Add(b, a));
  }

  /** A combination minus itself is equal to zero, yet `is_zero` does not see it: the test is syntactic. */
  lemma SelfDifferenceIsZero(a: LinComb)
    ensures LinEq(Sub(a, a), Zero())
    ensures IsZero(Sub(a, a)) <==> IsZero(a)
  {
    forall v ensures CoeffSum(Sub(a, a).terms, v) == CoeffSum(Zero().terms, v) {
      SubCoefficients(a, a, v);
    }
    LinEqMeaning(Sub(a, a), Zero());
  }

  /** A syntactically empty combination is equal to zero. */
  lemma IsZeroMeansZero(l: LinComb)
    ensures IsZero(l) ==> LinEq(l, Zero())
  {
    if IsZero(l) {
      assert l == Zero();
    }
  }

  // ---------------------------------------------------------------------------------------------
  // Reduction to a sorted term list

  predicate IsMaxKey(m: CanonicalLinComb, k: FlatVariable)
  {
    k in m && forall j :: j in m ==> j.id <= k.id
  }

  lemma {:induction false} MaxKeyExists(m: CanonicalLinComb)
    requires m != map[]
    ensures exists k :: IsMaxKey(m, k)
    decreases |m.Keys|
  {
    var x :| x in m;
    var rest := m - {x};
    if rest == map[] {
      assert forall j :: j in m ==> j == x || j in rest;
      assert IsMaxKey(m, x);
    } else {
      assert |rest.Keys| < |m.Keys| by {
        assert rest.Keys == m.Keys - {x};
      }
      MaxKeyExists(rest);
      var k :| IsMaxKey(rest, k);
      if k.id >= x.id {
        assert IsMaxKey(m, k);
      } else {
        assert IsMaxKey(m, x);
      }
    }
  }

  predicate StrictlySorted(terms: seq<Term>)
  {
    forall i, j :: 0 <= i < j < |terms| ==> terms[i].0.id < terms[j].0.id
  }

  /** The largest variable of a nonempty map, the last one a `BTreeMap` yields. */
  function MaxKey(m: CanonicalLinComb): (k: FlatVariable)
    requires m != map[]
    ensures IsMaxKey(m, k)
  {
    MaxKeyExists(m);
    var k :| IsMaxKey(m, k);
    k
  }

  /** The entries of a map in increasing variable order, as a `BTreeMap` iterates them. */
  function Entries(m: CanonicalLinComb): (r: seq<Term>)
    ensures StrictlySorted(r)
    ensures forall i :: 0 <= i < |r| ==> r[i].0 in m && r[i].1 == m[r[i].0]
    decreases |m.Keys|
  {
    if m == map[] then []
    else
      var k := MaxKey(m);
      var rest := m - {k};
      assert rest.Keys == m.Keys - {k};
      Entries(rest) + [(k, m[k])]
  }

  lemma {:induction false} CanonOfEntries(m: CanonicalLinComb)
    requires ZeroFree(m)
    ensures CanonTerms(Entries(m)) == m
    decreases |m.Keys|
  {
    if m != map[] {
      var k := MaxKey(m);
      var rest := m - {k};
      assert rest.Keys == m.Keys - {k};
      var e := Entries(m);
      assert e[..|e| - 1] == Entries(rest);
      CanonOfEntries(rest);
      assert rest[k := m[k]] == m;
    }
  }

  /** `reduce`: the canonical form written back as a term list, sorted by variable. */
  function Reduce(l: LinComb): (r: LinComb)
    ensures StrictlySorted(r.terms)
    ensures forall i :: 0 <= i < |r.terms| ==> r.terms[i].1 != 0
  {
    LinComb(Entries(IntoCanonical(l)))
  }

  /** Reducing keeps the canonical form, so the reduced combination is equal to the original and
      reducing twice changes nothing more. */
  lemma ReduceKeepsCanonical(l: LinComb)
    ensures IntoCanonical(Reduce(l)) == IntoCanonical(l)
    ensures LinEq(Reduce(l), l)
    ensures Reduce(Reduce(l)) == Reduce(l)
  {
    CanonOfEntries(IntoCanonical(l));
  }

  // ---------------------------------------------------------------------------------------------
  // Summands

  predicate AllOn(terms: seq<Term>, v: FlatVariable)
  {
    forall i :: 0 <= i < |terms| ==> terms[i].0 == v
  }

  /** The coefficients of a term list summed left to right, as `try_summand` folds them. */
  function SumCoefficients(terms: seq<Term>): Fe
    decreases |terms|
  {
    if terms == [] then 0 else FAdd(SumCoefficients(terms[..|terms| - 1]), terms[|terms| - 1].1)
  }

  lemma {:induction false} SumCoefficientsOn(terms: seq<Term>, v: FlatVariable)
    requires AllOn(terms, v)
    ensures SumCoefficients(terms) == CoeffSum(terms, v)
    ensures forall w :: w != v ==> CoeffSum(terms, w) == 0
    decreases |terms|
  {
    if terms != [] {
      SumCoefficientsOn(terms[..|terms| - 1], v);
    }
  }

  /** `try_summand`: a nonempty list whose terms are all on its first variable collapses to that
      variable and its total coefficient; any other list gives nothing. */
  function TrySummand(l: LinComb): (r: Option<(FlatVariable, Fe)>)
    ensures r.None? <==> l.terms == [] || exists i :: 0 <= i < |l.terms| && l.terms[i].0 != l.terms[0].0
    ensures r.Some? ==> r.value.0 == l.terms[0].0 && r.value.1 == CoeffSum(l.terms, r.value.0)
  {
    if |l.terms| == 0 then None
    else
      var first := l.terms[0].0;
      if AllOn(l.terms, first) then
        SumCoefficientsOn(l.terms, first);
        Some((first, SumCoefficients(l.terms)))
      else None
  }

  /** When `try_summand` succeeds, the combination is equal to that single summand. */
  lemma TrySummandIsSummand(l: LinComb)
    requires TrySummand(l).Some?
    ensures LinEq(l, Summand(TrySummand(l).value.1, TrySummand(l).value.0))
  {
    var (v, c) := TrySummand(l).value;
    SumCoefficientsOn(l.terms, v);
    LinEqMeaning(l, Summand(c, v));
  }

  // ---------------------------------------------------------------------------------------------
  // Quadratic combinations

  /** `From<U: Into<LinComb>> for QuadComb`: `1 * x`. */
  function QuadFrom(x: LinComb): (r: QuadComb)
    ensures r.left == OneComb() && r.right == x
  {
    QuadComb(OneComb(), x)
  }

  /** `PartialEq for QuadComb`: both factors equal, in order. */
  predicate QuadEq(a: QuadComb, b: QuadComb)
  {
    LinEq(a.left, b.left) && LinEq(a.right, b.right)
  }

  /** Each factor in canonical form: a variable is kept exactly when its coefficients in that factor
      do not cancel, and it maps to their sum. */
  function QuadIntoCanonical(q: QuadComb): (r: CanonicalQuadComb)
    ensures forall v :: v in r.left <==> CoeffSum(q.left.terms, v) != 0
    ensures forall v :: v in r.left ==> r.left[v] == CoeffSum(q.left.terms, v)
    ensures forall v :: v in r.right <==> CoeffSum(q.right.terms, v) != 0
    ensures forall v :: v in r.right ==> r.right[v] == CoeffSum(q.right.terms, v)
  {
    CanonicalMeaningAll(q.left);
    CanonicalMeaningAll(q.right);
    CanonicalQuadComb(IntoCanonical(q.left), IntoCanonical(q.right))
  }

  /** `PartialEq for QuadComb` means both factors have the same coefficient sums. */
  lemma QuadEqMeaning(a: QuadComb, b: QuadComb)
    ensures QuadEq(a, b) <==> SameCoefficients(a.left, b.left) && SameCoefficients(a.right, b.right)
  {
    LinEqMeaning(a.left, b.left);
    LinEqMeaning(a.right, b.right);
  }

  /** `QuadComb::from(x)` has the value of `x` under every assignment in which `One` carries 1. */
  lemma QuadFromValue(x: LinComb, env: FlatVariable -> Fe)
    requires env(One) == 1
    ensures FMul(Eval(QuadFrom(x).left.terms, env), Eval(QuadFrom(x).right.terms, env)) == Eval(x.terms, env)
  {
  }

  function QuadReduce(q: QuadComb): (r: QuadComb)
    ensures QuadEq(r, q)
  {
    ReduceKeepsCanonical(q.left);
    ReduceKeepsCanonical(q.right);
    QuadComb(Reduce(q.left), Reduce(q.right))
  }

  /** `try_linear`: a factor that is a summand on `One` scales the other factor; otherwise a
      syntactically empty factor gives zero; otherwise the product is not linear. */
  function TryLinear(q: QuadComb): (r: Option<LinComb>)
    ensures r.None? <==>
      && !(TrySummand(q.left).Some? && TrySummand(q.left).value.0 == One)
      && !(TrySummand(q.right).Some? && TrySummand(q.right).value.0 == One)
      && !IsZero(q.left) && !IsZero(q.right)
  {
    var sl, sr := TrySummand(q.left), TrySummand(q.right);
    if sl.Some? && sl.value.0 == One then Some(Mul(q.right, sl.value.1))
    else if sr.Some? && sr.value.0 == One then Some(Mul(q.left, sr.value.1))
    else if IsZero(q.left) || IsZero(q.right) then Some(Zero())
    else None
  }

  // ---------------------------------------------------------------------------------------------
  // Evaluation

  lemma {:induction false} EvalMul(terms: seq<Term>, k: Fe, env: FlatVariable -> Fe)
    ensures Eval(Mul(LinComb(terms), k).terms, env) == FMul(Eval(terms, env), k)
    decreases |terms|
  {
    if terms != [] {
      var n := |terms| - 1;
      var t := terms[n];
      assert Mul(LinComb(terms), k).terms[..n] == Mul(LinComb(terms[..n]), k).terms;
      EvalMul(terms[..n], k, env);
      FMulDistrib(Eval(terms[..n], env), FMul(t.1, env(t.0)), k);
      FMulAssoc(t.1, env(t.0), k);
      FMulComm(env(t.0), k);
      FMulAssoc(t.1, k, env(t.0));
    }
  }

  lemma {:induction false} EvalAllOn(terms: seq<Term>, v: FlatVariable, env: FlatVariable -> Fe)
    requires AllOn(terms, v)
    ensures Eval(terms, env) == FMul(SumCoefficients(terms), env(v))
    decreases |terms|
  {
    if terms != [] {
      var n := |terms| - 1;
      EvalAllOn(terms[..n], v, env);
      FMulDistrib(SumCoefficients(terms[..n]), terms[n].1, env(v));
    }
  }

  /** Whenever `try_linear` finds a linear form, that form has the value of the product under every
      assignment in which the wire `One` carries 1. */
  lemma TryLinearSound(q: QuadComb, env: FlatVariable -> Fe)
    requires env(One) == 1
    requires TryLinear(q).Some?
    ensures Eval(TryLinear(q).value.terms, env) == FMul(Eval(q.left.terms, env), Eval(q.right.terms, env))
  {
    var sl, sr := TrySummand(q.left), TrySummand(q.right);
    if sl.Some? && sl.value.0 == One {
      EvalAllOn(q.left.terms, One, env);
      EvalMul(q.right.terms, sl.value.1, env);
      FMulComm(Eval(q.right.terms, env), sl.value.1);
    } else if sr.Some? && sr.value.0 == One {
      EvalAllOn(q.right.terms, One, env);
      EvalMul(q.left.terms, sr.value.1, env);
    }
  }

  // ---------------------------------------------------------------------------------------------
  // The module's unit tests, as statements about the model

  /** `add_zero`, `add` and `sub`: appending and negating on the variable 42. */
  lemma ArithmeticExamples()
    ensures var b := FromVariable(FlatVariable(42)); LinEq(Add(Zero(), b), b)
    ensures Add(FromVariable(FlatVariable(42)), FromVariable(FlatVariable(42))).terms
      == [(FlatVariable(42), 1), (FlatVariable(42), 1)]
    ensures Sub(FromVariable(FlatVariable(42)), FromVariable(FlatVariable(42))).terms
      == [(FlatVariable(42), 1), (FlatVariable(42), FNeg(1))]
  {
    AddZero(FromVariable(FlatVariable(42)));
    var a := FromVariable(FlatVariable(42));
    assert Sub(a, a).terms == a.terms + NegateTerms(a.terms);
  }

  /** `from_linear` on the source's `3 * x42 + 4 * x33`: with the constant wire at one, the product
      `1 * x` takes the value `3 * x42 + 4 * x33`. */
  lemma QuadFromExamples(env: FlatVariable -> Fe)
    requires env(One) == 1
    ensures var a := Add(Summand(FromNat(3), FlatVariable(42)), Summand(FromNat(4), FlatVariable(33)));
      FMul(Eval(QuadFrom(a).left.terms, env), Eval(QuadFrom(a).right.terms, env))
        == FAdd(FMul(FromNat(3), env(FlatVariable(42))), FMul(FromNat(4), env(FlatVariable(33))))
  {
    var a := Add(Summand(FromNat(3), FlatVariable(42)), Summand(FromNat(4), FlatVariable(33)));
    QuadFromValue(a, env);
    assert a.terms[..1] == [a.terms[0]] && a.terms[..1][..0] == a.terms[..0];
    FAddZero(FMul(FromNat(3), env(FlatVariable(42))));
  }

  /** `try_summand`: repeated terms on 42 sum to 6; a stray 41 or an empty list gives nothing. */
  lemma TrySummandExamples()
    ensures TrySummand(LinComb([(FlatVariable(42), FromNat(1)), (FlatVariable(42), FromNat(2)),
      (FlatVariable(42), FromNat(3))])) == Some((FlatVariable(42), FromNat(6)))
    ensures TrySummand(LinComb([(FlatVariable(41), FromNat(1)), (FlatVariable(42), FromNat(2)),
      (FlatVariable(42), FromNat(3))])) == None
    ensures TrySummand(LinComb([])) == None
  {
    var ts := [(FlatVariable(42), FromNat(1)), (FlatVariable(42), FromNat(2)), (FlatVariable(42), FromNat(3))];
    assert ts[..2][..1] == ts[..1];
    assert ts[..1][..0] == ts[..0];
    assert SumCoefficients(ts[..1]) == FromNat(1);
    FromNatAdd(1, 2);
    assert SumCoefficients(ts[..2]) == FromNat(3);
    FromNatAdd(3, 3);
    assert SumCoefficients(ts) == FromNat(6);
    var bad := [(FlatVariable(41), FromNat(1)), (FlatVariable(42), FromNat(2)), (FlatVariable(42), FromNat(3))];
    assert bad[1].0 != bad[0].0;
  }
}

=== FILE: semantics.dfy ===
/**
 * Rules of the semantic checker: the per-module symbol table, function lookup by a partially known
 * signature, lexical scopes of variables, the single-`main` rule, struct declarations, and the
 * checks for identifiers, array slices and inline struct literals.
 */
module Semantics {
  import opened Wrappers
  import opened Field
  import opened Identifiers
  import opened Types
  import opened TypedAbsy

  // ---------------------------------------------------------------------------------------------
  // Symbol unifier

  /** What a name stands for in a module: a type, or a group of functions told apart by signature. */
  datatype SymbolType = TypeSymbol | Functions(signatures: set<Signature>)

  datatype SymbolUnifier = SymbolUnifier(symbols: map<string, SymbolType>)

  /** No name is an empty group of functions. */
  predicate Unified(u: SymbolUnifier)
  {
    forall id :: id in u.symbols && u.symbols[id].Functions? ==> u.symbols[id].signatures != {}
  }

  /** `insert_type`: a type may only take a name nothing else uses. */
  function InsertType(u: SymbolUnifier, id: string): (r: (bool, SymbolUnifier))
    ensures r.0 <==> id !in u.symbols
    ensures r.0 ==> r.1.symbols == u.symbols[id := TypeSymbol]
    ensures !r.0 ==> r.1 == u
  {
    if id in u.symbols then (false, u) else (true, SymbolUnifier(u.symbols[id := TypeSymbol]))
  }

  /** `insert_function`: a function may take a fresh name, or join a group of functions of that
      name whose signatures all differ from its own. */
  function InsertFunction(u: SymbolUnifier, id: string, signature: Signature): (r: (bool, SymbolUnifier))
    ensures r.0 <==> id !in u.symbols || (u.symbols[id].Functions? && signature !in u.symbols[id].signatures)
    ensures r.0 ==> r.1.symbols.Keys == u.symbols.Keys + {id}
    ensures r.0 ==> r.1.symbols[id].Functions? && signature in r.1.symbols[id].signatures
    ensures r.0 ==> forall other :: other in u.symbols && other != id ==> r.1.symbols[other] == u.symbols[other]
    ensures !r.0 ==> r.1 == u
  {
    if id !in u.symbols then (true, SymbolUnifier(u.symbols[id := Functions({signature})]))
    else
      match u.symbols[id]
      case TypeSymbol => (false, u)
      case Functions(signatures) =>
        if signature in signatures then (false, u)
        else (true, SymbolUnifier(u.symbols[id := Functions(signatures + {signature})]))
  }

  /** Both insertions keep every name either a type or a nonempty function group. */
  lemma InsertionsKeepUnified(u: SymbolUnifier, id: string, signature: Signature)
    requires Unified(u)
    ensures Unified(InsertType(u, id).1) && Unified(InsertFunction(u, id, signature).1)
  {
  }

  /** Once a name is a type, it can be neither a type again nor a function. */
  lemma TypeNameIsTaken(u: SymbolUnifier, id: string, signature: Signature)
    requires InsertType(u, id).0
    ensures !InsertType(InsertType(u, id).1, id).0
    ensures !InsertFunction(InsertType(u, id).1, id, signature).0
  {
  }

  /** Once a name holds functions, it cannot become a type, and a signature it already has cannot be
      added again; a different signature can. */
  lemma FunctionNameOverloads(u: SymbolUnifier, id: string, s: Signature, t: Signature)
    requires InsertFunction(u, id, s).0
    ensures var u' := InsertFunction(u, id, s).1;
      && !InsertType(u', id).0
      && !InsertFunction(u', id, s).0
      && (InsertFunction(u', id, t).0 <==> t != s && (id !in u.symbols || t !in u.symbols[id].signatures))
  {
  }

  /** The `unifier` unit test: a type `foo`, then functions `bar` with two different signatures. */
  lemma UnifierExample()
    ensures var u0 := SymbolUnifier(map[]);
      var empty := Signature([], []);
      var oneField := Signature([FieldElement], []);
      var (ok1, u1) := InsertType(u0, "foo");
      var (ok2, u2) := InsertType(u1, "foo");
      var (ok3, u3) := InsertFunction(u2, "foo", empty);
      var (ok4, u4) := InsertFunction(u3, "bar", empty);
      var (ok5, u5) := InsertFunction(u4, "bar", empty);
      var (ok6, u6) := InsertFunction(u5, "bar", oneField);
      var (ok7, _) := InsertType(u6, "bar");
      ok1 && !ok2 && !ok3 && ok4 && !ok5 && ok6 && !ok7
  {
    var empty := Signature([], []);
    var oneField := Signature([FieldElement], []);
    assert empty != oneField by {
      assert |empty.inputs| != |oneField.inputs|;
    }
  }

  // ---------------------------------------------------------------------------------------------
  // Function queries

  /** A call site looking for a function: argument types are known, return types may not be. */
  datatype FunctionQuery = FunctionQuery(id: string, inputs: seq<Type>, outputs: seq<Option<Type>>)

  /** `match_func`: same name and inputs, as many outputs, and every known output agrees. */
  predicate MatchFunc(q: FunctionQuery, key: FunctionKey)
  {
    && q.id == key.id
    && q.inputs == key.signature.inputs
    && |q.outputs| == |key.signature.outputs|
    && forall i :: 0 <= i < |q.outputs| ==> q.outputs[i].Some? ==> q.outputs[i].value == key.signature.outputs[i]
  }

  /** The query a call site makes when all of its return types are known. */
  function QueryOf(key: FunctionKey): (q: FunctionQuery)
    ensures |q.outputs| == |key.signature.outputs|
    ensures forall i :: 0 <= i < |q.outputs| ==> q.outputs[i] == Some(key.signature.outputs[i])
  {
    FunctionQuery(key.id, key.signature.inputs,
      seq(|key.signature.outputs|, i requires 0 <= i < |key.signature.outputs| => Some(key.signature.outputs[i])))
  }

  /** A fully known query matches exactly the key it was made from. */
  lemma FullQueryMatchesOnlyItsKey(key: FunctionKey, other: FunctionKey)
    ensures MatchFunc(QueryOf(key), other) <==> other == key
  {
    var q := QueryOf(key);
    if MatchFunc(q, other) {
      assert other.signature.outputs == key.signature.outputs by {
        forall i | 0 <= i < |key.signature.outputs|
          ensures other.signature.outputs[i] == key.signature.outputs[i]
        {
          assert q.outputs[i].Some?;
        }
      }
    }
  }

  /** A query with no known return type matches any key with its name, inputs and output count. */
  lemma UnknownOutputsMatchAnything(q: FunctionQuery, key: FunctionKey)
    requires forall i :: 0 <= i < |q.outputs| ==> q.outputs[i].None?
    ensures MatchFunc(q, key) <==>
      q.id == key.id && q.inputs == key.signature.inputs && |q.outputs| == |key.signature.outputs|
  {
  }

  /** `match_funcs` / `find_function`: some matching key, if there is one. Which one is taken from a
      hash set is left open. */
  ghost function MatchFuncs(q: FunctionQuery, funcs: set<FunctionKey>): (r: Option<FunctionKey>)
    ensures r.Some? ==> r.value in funcs && MatchFunc(q, r.value)
    ensures r.None? <==> forall k :: k in funcs ==> !MatchFunc(q, k)
  {
    if exists k :: k in funcs && MatchFunc(q, k) then
      var k :| k in funcs && MatchFunc(q, k);
      Some(k)
    else None
  }

  // ---------------------------------------------------------------------------------------------
  // Scopes

  /** A declared variable together with the scope depth it was declared at. */
  datatype ScopedVariable = ScopedVariable(id: Variable, level: nat)

  /**
   * The checker's local state. Scoped variables compare by identifier only, so the set of them
   * is a map from identifier to the one variable declared under it.
   */
  datatype Checker = Checker(scope: map<Identifier, ScopedVariable>, functions: set<FunctionKey>, level: nat)

  /** Every entry is filed under its own identifier and no deeper than the current scope. */
  predicate WellScoped(c: Checker)
  {
    forall x :: x in c.scope ==> c.scope[x].id.id == x && c.scope[x].level <= c.level
  }

  function NewChecker(): (r: Checker)
    ensures WellScoped(r) && r.level == 0 && r.scope == map[]
  {
    Checker(map[], {}, 0)
  }

  /** `insert_into_scope`: fails, changing nothing, when a variable of that name is visible,
      whatever its type. */
  function InsertIntoScope(c: Checker, v: Variable): (r: (bool, Checker))
    ensures r.0 <==> v.id !in c.scope
    ensures r.0 ==> r.1 == c.(scope := c.scope[v.id := ScopedVariable(v, c.level)])
    ensures !r.0 ==> r.1 == c
    ensures WellScoped(c) ==> WellScoped(r.1)
  {
    if v.id in c.scope then (false, c) else (true, c.(scope := c.scope[v.id := ScopedVariable(v, c.level)]))
  }

  /** `get_scope`: the variable visible under a source name. */
  function GetScope(c: Checker, name: string): (r: Option<ScopedVariable>)
    ensures r.Some? <==> FromStr(name) in c.scope
    ensures r.Some? ==> r.value == c.scope[FromStr(name)]
  {
    if FromStr(name) in c.scope then Some(c.scope[FromStr(name)]) else None
  }

  /** A variable just declared under a source name is what that name now finds. */
  lemma DeclaredIsVisible(c: Checker, name: string, ty: Type)
    requires InsertIntoScope(c, Variable(FromStr(name), ty)).0
    ensures GetScope(InsertIntoScope(c, Variable(FromStr(name), ty)).1, name)
      == Some(ScopedVariable(Variable(FromStr(name), ty), c.level))
  {
  }

  function EnterScope(c: Checker): (r: Checker)
    ensures r.level == c.level + 1 && r.scope == c.scope && r.functions == c.functions
    ensures WellScoped(c) ==> WellScoped(r)
  {
    c.(level := c.level + 1)
  }

  /** `exit_scope`: drops the variables of the innermost scope and goes one level up. The level is an
      unsigned counter, so leaving the outermost scope is not allowed. */
  function ExitScope(c: Checker): (r: Checker)
    requires c.level >= 1
    ensures r.level == c.level - 1 && r.functions == c.functions
    ensures forall x :: x in r.scope <==> x in c.scope && c.scope[x].level < c.level
    ensures forall x :: x in r.scope ==> r.scope[x] == c.scope[x]
    ensures WellScoped(c) ==> WellScoped(r)
  {
    c.(scope := map x | x in c.scope && c.scope[x].level < c.level :: c.scope[x], level := c.level - 1)
  }

  /** Declaring a list of variables one after the other, ignoring the ones rejected as duplicates. */
  function DeclareAll(c: Checker, vs: seq<Variable>): (r: Checker)
    ensures r.level == c.level && r.functions == c.functions
    ensures forall x :: x in c.scope ==> x in r.scope && r.scope[x] == c.scope[x]
    ensures forall x :: x in r.scope && x !in c.scope ==> r.scope[x].level == c.level
    decreases |vs|
  {
    if vs == [] then c else DeclareAll(InsertIntoScope(c, vs[0]).1, vs[1..])
  }

  /** Entering a scope, declaring anything in it and leaving it restores the checker exactly. */
  lemma BlockRestoresScope(c: Checker, vs: seq<Variable>)
    requires WellScoped(c)
    ensures ExitScope(DeclareAll(EnterScope(c), vs)) == c
  {
    var inner := DeclareAll(EnterScope(c), vs);
    var out := ExitScope(inner);
    forall x ensures x in out.scope <==> x in c.scope {
      if x in c.scope {
        assert inner.scope[x] == c.scope[x];
      }
    }
    assert out.scope == c.scope;
  }

  // ---------------------------------------------------------------------------------------------
  // Declarations and identifiers

  datatype CheckError =
    | DuplicateDeclaration(variable: Identifier)
    | UndefinedIdentifier(name: string)

  /** The declaration statement: accepted, and recorded in scope, only when the name is free. */
  function CheckDeclaration(c: Checker, v: Variable): (r: Result<(TypedStatement, Checker), CheckError>)
    ensures r.Ok? <==> v.id !in c.scope
    ensures r.Ok? ==> r.value.0 == Declaration(v) && v.id in r.value.1.scope
    ensures r.Err? ==> r.error == DuplicateDeclaration(v.id)
  {
    var (ok, c') := InsertIntoScope(c, v);
    if ok then Ok((Declaration(v), c')) else Err(DuplicateDeclaration(v.id))
  }

  /** Redeclaring a name in scope is refused whether or not the type is the same. */
  lemma RedeclarationRejected(c: Checker, v: Variable, w: Variable)
    requires v.id == w.id
    requires CheckDeclaration(c, v).Ok?
    ensures CheckDeclaration(CheckDeclaration(c, v).value.1, w) == Err(DuplicateDeclaration(w.id))
  {
  }

  /** An identifier expression: defined only when the name is in scope, and then typed as the
      variable was declared. */
  function CheckIdentifier(c: Checker, name: string): (r: Result<TypedExpression, CheckError>)
    ensures r.Ok? <==> GetScope(c, name).Some?
    ensures r.Ok? ==> GetType(r.value) == GetScope(c, name).value.id.ty
    ensures r.Err? ==> r.error == UndefinedIdentifier(name)
  {
    match GetScope(c, name)
    case None => Err(UndefinedIdentifier(name))
    case Some(v) =>
      var id := FromStr(name);
      match v.id.ty
      case Boolean => Ok(BooleanExp(BoolIdentifier(id)))
      case Uint(bitwidth) => Ok(UintExp(UExpression(bitwidth, UIdentifier(id))))
      case FieldElement => Ok(FieldElementExp(FieldIdentifier(id)))
      case Array(arrayType) => Ok(ArrayExp(ArrayExpression(arrayType.size, arrayType.ty, ArrayIdentifier(id))))
      case Struct(structType) => Ok(StructExp(StructExpression(structType, StructIdentifier(id))))
  }

  // ---------------------------------------------------------------------------------------------
  // The single `main`

  datatype MainError = NoMain | MultipleMains(count: nat)

  ghost predicate UniqueMain(m: TypedModule)
  {
    exists k :: k in m.functions && IsMainKey(k) && forall k' :: k' in m.functions && IsMainKey(k') ==> k' == k
  }

  lemma CardinalityOne<T>(s: set<T>)
    ensures |s| == 1 <==> exists x :: s == {x}
  {
    if |s| == 1 {
      var x :| x in s;
      assert |s - {x}| == 0;
      assert s == {x};
    }
  }

  /** The functions of a module called `main`. */
  function Mains(m: TypedModule): (r: set<FunctionKey>)
    ensures forall k :: k in r <==> k in m.functions && IsMainKey(k)
  {
    set k | k in m.functions && IsMainKey(k)
  }

  lemma OneMainIsUnique(m: TypedModule)
    requires |Mains(m)| == 1
    ensures UniqueMain(m)
  {
    var mains := Mains(m);
    CardinalityOne(mains);
    var x :| mains == {x};
    assert x in mains;
    forall k' | k' in m.functions && IsMainKey(k') ensures k' == x {
      assert k' in mains;
    }
    assert x in m.functions && IsMainKey(x);
  }

  lemma UniqueMainCountsOne(m: TypedModule)
    requires UniqueMain(m)
    ensures |Mains(m)| == 1
  {
    var x :| x in m.functions && IsMainKey(x) && forall k' :: k' in m.functions && IsMainKey(k') ==> k' == x;
    assert Mains(m) == {x};
  }

  lemma NoMains(m: TypedModule)
    ensures |Mains(m)| == 0 <==> forall k :: k in m.functions ==> !IsMainKey(k)
  {
    if |Mains(m)| != 0 {
      var x :| x in Mains(m);
    }
  }

  lemma ManyMains(m: TypedModule)
    requires |Mains(m)| >= 2
    ensures exists k1, k2 :: k1 in m.functions && k2 in m.functions && k1 != k2 && IsMainKey(k1) && IsMainKey(k2)
  {
    var mains := Mains(m);
    var k1 :| k1 in mains;
    assert |mains - {k1}| >= 1;
    var k2 :| k2 in mains - {k1};
  }

  /** `check_single_main`: counts the functions called `main`; one is accepted, and none or `n` of
      them give distinct errors. */
  function CheckSingleMain(m: TypedModule): (r: Result<(), MainError>)
    ensures r.Ok? <==> |Mains(m)| == 1
    ensures r == Err(NoMain) <==> |Mains(m)| == 0
    ensures r.Err? && r.error.MultipleMains? ==> r.error.count == |Mains(m)| >= 2
  {
    var n := |Mains(m)|;
    if n == 1 then Ok(())
    else if n == 0 then Err(NoMain)
    else Err(MultipleMains(n))
  }

  /** The check accepts exactly a module with one `main`. */
  lemma SingleMainAccepted(m: TypedModule)
    ensures CheckSingleMain(m).Ok? <==> UniqueMain(m)
  {
    if |Mains(m)| == 1 {
      OneMainIsUnique(m);
    }
    if UniqueMain(m) {
      UniqueMainCountsOne(m);
    }
  }

  /** It reports a missing `main` exactly when no function has that name. */
  lemma NoMainReported(m: TypedModule)
    ensures CheckSingleMain(m) == Err(NoMain) <==> forall k :: k in m.functions ==> !IsMainKey(k)
  {
    NoMains(m);
  }

  /** Any other rejection has found two different functions called `main`. */
  lemma MultipleMainsReported(m: TypedModule)
    ensures CheckSingleMain(m).Err? && CheckSingleMain(m).error.MultipleMains? ==>
      exists k1, k2 :: k1 in m.functions && k2 in m.functions && k1 != k2 && IsMainKey(k1) && IsMainKey(k2)
  {
    if |Mains(m)| >= 2 {
      ManyMains(m);
    }
  }

  // ---------------------------------------------------------------------------------------------
  // Struct declarations

  /** A member of a struct definition, with the outcome of resolving its declared type. */
  datatype FieldDeclaration = FieldDeclaration(id: MemberId, ty: Result<Type, string>)

  datatype StructDeclError = MemberTypeError(message: string) | DuplicateKey(id: MemberId)

  predicate AllTyped(fields: seq<FieldDeclaration>)
  {
    forall i :: 0 <= i < |fields| ==> fields[i].ty.Ok?
  }

  predicate DistinctFieldIds(fields: seq<FieldDeclaration>)
  {
    forall i, j :: 0 <= i < j < |fields| ==> fields[i].id != fields[j].id
  }

  datatype DeclState = DeclState(errors: seq<StructDeclError>, members: seq<StructMember>, seen: set<MemberId>)

  /** The loop over the members: a resolution error is recorded; a resolved member is kept unless its
      name was already kept, which is a duplicate-key error. */
  function DeclFold(fields: seq<FieldDeclaration>): (r: DeclState)
    ensures forall id :: id in r.seen <==> exists i :: 0 <= i < |fields| && fields[i].ty.Ok? && fields[i].id == id
    ensures r.errors == [] <==> AllTyped(fields) && DistinctFieldIds(fields)
    ensures r.errors == [] ==> |r.members| == |fields|
    ensures r.errors == [] ==>
      forall i :: 0 <= i < |fields| ==> r.members[i] == StructMember(fields[i].id, fields[i].ty.value)
    decreases |fields|
  {
    if fields == [] then DeclState([], [], {})
    else
      var prefix := fields[..|fields| - 1];
      var f := fields[|fields| - 1];
      var s := DeclFold(prefix);
      assert forall i :: 0 <= i < |prefix| ==> prefix[i] == fields[i];
      match f.ty
      case Err(message) => DeclState(s.errors + [MemberTypeError(message)], s.members, s.seen)
      case Ok(t) =>
        if f.id in s.seen then DeclState(s.errors + [DuplicateKey(f.id)], s.members, s.seen)
        else DeclState(s.errors, s.members + [StructMember(f.id, t)], s.seen + {f.id})
  }

  /** An error of a struct declaration that some member accounts for: a member whose type did not
      resolve, or a resolved member reusing the name of an earlier resolved one. */
  predicate ExplainedDeclError(fields: seq<FieldDeclaration>, e: StructDeclError)
  {
    match e
    case MemberTypeError(message) => exists j :: 0 <= j < |fields| && fields[j].ty == Err(message)
    case DuplicateKey(id) =>
      exists i, j :: 0 <= i < j < |fields| && fields[i].ty.Ok? && fields[j].ty.Ok? && fields[i].id == id && fields[j].id == id
  }

  /** The loop only ever appends errors. */
  lemma DeclFoldErrorsGrow(fields: seq<FieldDeclaration>)
    requires fields != []
    ensures forall e :: e in DeclFold(fields[..|fields| - 1]).errors ==> e in DeclFold(fields).errors
  {
  }

  /** Every member whose type did not resolve is reported with its resolution error. */
  lemma {:induction false} DeclFoldReportsTypeErrors(fields: seq<FieldDeclaration>)
    ensures forall j :: 0 <= j < |fields| && fields[j].ty.Err? ==> MemberTypeError(fields[j].ty.error) in DeclFold(fields).errors
    decreases |fields|
  {
    if fields != [] {
      var n := |fields| - 1;
      var prefix := fields[..n];
      DeclFoldReportsTypeErrors(prefix);
      DeclFoldErrorsGrow(fields);
      forall j | 0 <= j < n && fields[j].ty.Err? ensures MemberTypeError(fields[j].ty.error) in DeclFold(fields).errors {
        assert prefix[j] == fields[j];
      }
    }
  }

  /** Every resolved member whose name an earlier resolved member took is reported as a duplicate key. */
  lemma {:induction false} DeclFoldReportsDuplicates(fields: seq<FieldDeclaration>)
    ensures forall i, j :: 0 <= i < j < |fields| && fields[i].ty.Ok? && fields[j].ty.Ok? && fields[i].id == fields[j].id
                      ==> DuplicateKey(fields[j].id) in DeclFold(fields).errors
    decreases |fields|
  {
    if fields != [] {
      var n := |fields| - 1;
      var prefix := fields[..n];
      DeclFoldReportsDuplicates(prefix);
      DeclFoldErrorsGrow(fields);
      forall i, j | 0 <= i < j < |fields| && fields[i].ty.Ok? && fields[j].ty.Ok? && fields[i].id == fields[j].id
        ensures DuplicateKey(fields[j].id) in DeclFold(fields).errors
      {
        assert prefix[i] == fields[i];
        if j < n {
          assert prefix[j] == fields[j];
        } else {
          assert fields[i].id in DeclFold(prefix).seen;
        }
      }
    }
  }

  /** Every error the loop reports is accounted for by some member. */
  lemma {:induction false} DeclFoldErrorsExplained(fields: seq<FieldDeclaration>)
    ensures forall e :: e in DeclFold(fields).errors ==> ExplainedDeclError(fields, e)
    decreases |fields|
  {
    if fields != [] {
      var n := |fields| - 1;
      var prefix := fields[..n];
      var s := DeclFold(prefix);
      DeclFoldErrorsExplained(prefix);
      forall e | e in DeclFold(fields).errors ensures ExplainedDeclError(fields, e) {
        if e in s.errors {
          assert ExplainedDeclError(prefix, e);
          match e
          case MemberTypeError(message) =>
            var j :| 0 <= j < n && prefix[j].ty == Err(message);
            assert fields[j] == prefix[j];
          case DuplicateKey(id) =>
            var i, j :| 0 <= i < j < n && prefix[i].ty.Ok? && prefix[j].ty.Ok? && prefix[i].id == id && prefix[j].id == id;
            assert fields[i] == prefix[i] && fields[j] == prefix[j];
        } else if fields[n].ty.Ok? {
          var i :| 0 <= i < n && prefix[i].ty.Ok? && prefix[i].id == fields[n].id;
          assert fields[i] == prefix[i];
        }
      }
    }
  }

  /** `check_struct_type_declaration`: every member resolved and no name twice gives the struct type
      with the members in declaration order; otherwise the errors, each accounted for by a member: a
      `MemberTypeError` for every member whose type did not resolve and a `DuplicateKey` for every
      resolved member whose name an earlier resolved member took. */
  function CheckStructDeclaration(fields: seq<FieldDeclaration>): (r: Result<Type, seq<StructDeclError>>)
    ensures r.Ok? <==> AllTyped(fields) && DistinctFieldIds(fields)
    ensures r.Ok? ==> r.value.Struct? && |r.value.structType.members| == |fields|
    ensures r.Ok? ==> forall i :: 0 <= i < |fields| ==>
      r.value.structType.members[i] == StructMember(fields[i].id, fields[i].ty.value)
    ensures r.Err? ==> r.error != []
    ensures forall j :: 0 <= j < |fields| && fields[j].ty.Err? ==> r.Err? && MemberTypeError(fields[j].ty.error) in r.error
    ensures forall i, j :: 0 <= i < j < |fields| && fields[i].ty.Ok? && fields[j].ty.Ok? && fields[i].id == fields[j].id
                      ==> r.Err? && DuplicateKey(fields[j].id) in r.error
    ensures r.Err? ==> forall e :: e in r.error ==> ExplainedDeclError(fields, e)
  {
    var s := DeclFold(fields);
    DeclFoldReportsTypeErrors(fields);
    DeclFoldReportsDuplicates(fields);
    DeclFoldErrorsExplained(fields);
    if s.errors != [] then Err(s.errors) else Ok(Struct(StructType(s.members)))
  }

  /** The `duplicate_member_def` test: `foo` declared as a field and then as a boolean is reported
      once, as a duplicate key; the name alone decides, whatever the types. */
  lemma DuplicateMemberReported()
    ensures var foo := FieldDeclaration("foo", Ok(FieldElement));
      var fooBool := FieldDeclaration("foo", Ok(Boolean));
      CheckStructDeclaration([foo, fooBool]) == Err([DuplicateKey("foo")])
  {
    var foo := FieldDeclaration("foo", Ok(FieldElement));
    var fooBool := FieldDeclaration("foo", Ok(Boolean));
    assert [foo][..0] == [];
    assert DeclFold([]) == DeclState([], [], {});
    assert DeclFold([foo]) == DeclState([], [StructMember("foo", FieldElement)], {"foo"});
    assert [foo, fooBool][..1] == [foo];
    assert DeclFold([foo, fooBool]).errors == [DuplicateKey("foo")];
  }

  /** Every member of an accepted declaration is found by name, as the one declared. */
  lemma DeclaredMembersAreFound(fields: seq<FieldDeclaration>, i: nat)
    requires CheckStructDeclaration(fields).Ok? && i < |fields|
    ensures FindMember(CheckStructDeclaration(fields).value.structType, fields[i].id)
      == Some(StructMember(fields[i].id, fields[i].ty.value))
  {
    var st := CheckStructDeclaration(fields).value.structType;
    var r := FindMember(st, fields[i].id);
    assert st.members[i].id == fields[i].id;
    var j :| 0 <= j < |st.members| && st.members[j] == r.value && forall k :: 0 <= k < j ==> st.members[k].id != fields[i].id;
    assert j == i;
  }

  /** The `preserve_order` test: the same members in another order declare a different struct. */
  lemma DeclarationOrderMatters()
    ensures var foo := FieldDeclaration("foo", Ok(FieldElement));
      var bar := FieldDeclaration("bar", Ok(Boolean));
      CheckStructDeclaration([foo, bar]).Ok? && CheckStructDeclaration([bar, foo]).Ok?
      && CheckStructDeclaration([foo, bar]) != CheckStructDeclaration([bar, foo])
  {
    var foo := FieldDeclaration("foo", Ok(FieldElement));
    var bar := FieldDeclaration("bar", Ok(Boolean));
    assert foo.id != bar.id by {
      assert foo.id[0] != bar.id[0];
    }
    var a, b := CheckStructDeclaration([foo, bar]), CheckStructDeclaration([bar, foo]);
    assert a.value.structType.members[0] != b.value.structType.members[0];
  }

  // ---------------------------------------------------------------------------------------------
  // Array slices

  datatype SliceError =
    | NotAnArray
    | LowerBoundNotConstant
    | UpperBoundNotConstant
    | LowerOutOfBounds(from: nat, size: nat)
    | UpperOutOfBounds(to: nat, size: nat)
    | LowerAboveUpper(from: nat, to: nat)

  /** A bound must be a field constant; it is read back as the number it holds. */
  function ConstantBound(e: TypedExpression): (r: Option<nat>)
    ensures r.Some? <==> e.FieldElementExp? && e.f.Number?
    ensures r.Some? ==> r.value < P
  {
    if e.FieldElementExp? && e.f.Number? then Some(e.f.n as nat) else None
  }

  /** A missing lower bound is the constant 0. */
  function LowerBound(from: Option<TypedExpression>): (r: Option<nat>)
    ensures from.None? ==> r == Some(0)
  {
    match from
    case None => Some(FromNat(0) as nat)
    case Some(e) => ConstantBound(e)
  }

  /** A missing upper bound is the array size written as a field constant. */
  function UpperBound(to: Option<TypedExpression>, size: nat): (r: Option<nat>)
    ensures to.None? && size < P ==> r == Some(size)
  {
    match to
    case None => Some(FromNat(size) as nat)
    case Some(e) => ConstantBound(e)
  }

  function SliceElements(a: ArrayExpression, from: nat, to: nat): (r: seq<TypedExpression>)
    requires from <= to
    ensures |r| == to - from
    ensures forall k :: 0 <= k < to - from ==> r[k] == SelectElement(a, Number(FromNat(from + k)))
  {
    seq(to - from, k requires 0 <= k < to - from => SelectElement(a, Number(FromNat(from + k))))
  }

  /** The range form of `a[from..to]`: the array and then both bounds are checked, then the bounds
      are compared with the size and with each other, in that order. A valid slice is the inline
      array of the selected elements. */
  function CheckSlice(arr: TypedExpression, from: Option<TypedExpression>, to: Option<TypedExpression>)
    : (r: Result<TypedExpression, SliceError>)
    ensures !arr.ArrayExp? ==> r == Err(NotAnArray)
    ensures arr.ArrayExp? && LowerBound(from).None? ==> r == Err(LowerBoundNotConstant)
    ensures arr.ArrayExp? && LowerBound(from).Some? && UpperBound(to, arr.a.size).None? ==> r == Err(UpperBoundNotConstant)
    ensures arr.ArrayExp? && LowerBound(from).Some? && UpperBound(to, arr.a.size).Some? ==>
      var (f, t, s) := (LowerBound(from).value, UpperBound(to, arr.a.size).value, arr.a.size);
      && (f > s ==> r == Err(LowerOutOfBounds(f, s)))
      && (f <= s && t > s ==> r == Err(UpperOutOfBounds(t, s)))
      && (f <= s && t <= s && f > t ==> r == Err(LowerAboveUpper(f, t)))
      && (f <= t <= s ==> r.Ok? && GetType(r.value) == Array(ArrayType(arr.a.ty, t - f)))
    ensures r.Ok? ==> r.value.ArrayExp? && r.value.a.inner.ArrayValue?
    ensures r.Ok? ==> |r.value.a.inner.values| == r.value.a.size
    ensures r.Ok? ==> forall k :: 0 <= k < |r.value.a.inner.values| ==>
      r.value.a.inner.values[k] == SelectElement(arr.a, Number(FromNat(LowerBound(from).value + k)))
  {
    if !arr.ArrayExp? then Err(NotAnArray)
    else
      var a := arr.a;
      match LowerBound(from)
      case None => Err(LowerBoundNotConstant)
      case Some(f) =>
        match UpperBound(to, a.size)
        case None => Err(UpperBoundNotConstant)
        case Some(t) =>
          if f > a.size then Err(LowerOutOfBounds(f, a.size))
          else if t > a.size then Err(UpperOutOfBounds(t, a.size))
          else if f > t then Err(LowerAboveUpper(f, t))
          else Ok(ArrayExp(ArrayExpression(t - f, a.ty, ArrayValue(SliceElements(a, f, t)))))
  }

  /** Every element of a slice has the array's element type, and the full slice `a[..]` of an array
      of representable size has the array's own type. */
  lemma SliceElementsAreTyped(arr: TypedExpression, from: Option<TypedExpression>, to: Option<TypedExpression>)
    requires CheckSlice(arr, from, to).Ok?
    ensures var vals := CheckSlice(arr, from, to).value.a.inner.values;
      forall k :: 0 <= k < |vals| ==> GetType(vals[k]) == arr.a.ty
  {
    var vals := CheckSlice(arr, from, to).value.a.inner.values;
    forall k | 0 <= k < |vals| ensures GetType(vals[k]) == arr.a.ty {
      SelectElementHasElementType(arr.a, Number(FromNat(LowerBound(from).value + k)));
    }
  }

  lemma FullSliceKeepsType(arr: TypedExpression)
    requires arr.ArrayExp? && arr.a.size < P
    ensures CheckSlice(arr, None, None).Ok?
    ensures GetType(CheckSlice(arr, None, None).value) == GetType(arr)
  {
  }

  // ---------------------------------------------------------------------------------------------
  // Inline struct literals

  datatype InlineStructError =
    | MemberCountMismatch
    | MissingMember(id: MemberId)
    | WrongMemberType(id: MemberId, expected: Type, found: Type)

  type InlineMember = (MemberId, TypedExpression)

  /** The literal's values by member name; a name given twice keeps its last value. */
  function ValueMap(members: seq<InlineMember>): (r: map<MemberId, TypedExpression>)
    ensures forall id :: id in r <==> exists j :: 0 <= j < |members| && members[j].0 == id
    decreases |members|
  {
    if members == [] then map[]
    else
      var prefix := members[..|members| - 1];
      assert forall j :: 0 <= j < |prefix| ==> prefix[j] == members[j];
      ValueMap(prefix)[members[|members| - 1].0 := members[|members| - 1].1]
  }

  predicate DistinctMemberIds(ms: seq<StructMember>)
  {
    forall i, j :: 0 <= i < j < |ms| ==> ms[i].id != ms[j].id
  }

  /** Every declared member has a value of its declared type. */
  predicate AllPresent(declared: seq<StructMember>, values: map<MemberId, TypedExpression>)
  {
    forall i :: 0 <= i < |declared| ==> declared[i].id in values && GetType(values[declared[i].id]) == declared[i].ty
  }

  /** Each declared member, in declaration order, takes its value out of the map, which must hold a
      value of the declared type. */
  function PickMembers(declared: seq<StructMember>, values: map<MemberId, TypedExpression>)
    : (r: Result<seq<TypedExpression>, InlineStructError>)
    ensures r.Ok? <==> DistinctMemberIds(declared) && AllPresent(declared, values)
    ensures r.Ok? ==> |r.value| == |declared|
    ensures r.Ok? ==> forall i :: 0 <= i < |declared| ==> r.value[i] == values[declared[i].id]
    decreases |declared|
  {
    if declared == [] then Ok([])
    else
      var m := declared[0];
      if m.id !in values then Err(MissingMember(m.id))
      else
        var v := values[m.id];
        if GetType(v) != m.ty then Err(WrongMemberType(m.id, m.ty, GetType(v)))
        else
          var rest := PickMembers(declared[1..], values - {m.id});
          assert forall i :: 1 <= i < |declared| ==> declared[i] == declared[1..][i - 1];
          if rest.Err? then
            assert !(DistinctMemberIds(declared) && AllPresent(declared, values)) by {
              if DistinctMemberIds(declared) {
                assert forall i :: 1 <= i < |declared| ==> declared[i].id != m.id;
              }
            }
            Err(rest.error)
          else
            assert DistinctMemberIds(declared) by {
              forall i | 1 <= i < |declared| ensures declared[i].id != m.id {
                assert declared[1..][i - 1].id in values - {m.id};
              }
            }
            Ok([v] + rest.value)
  }

  /** Some member before position `k` is named `id`. */
  predicate Taken(declared: seq<StructMember>, k: nat, id: MemberId)
    requires k <= |declared|
  {
    exists i :: 0 <= i < k && declared[i].id == id
  }

  /** The declared member at `k` finds a value of its type in the map, not already taken by an earlier
      member of the same name. */
  predicate Fits(declared: seq<StructMember>, values: map<MemberId, TypedExpression>, k: nat)
    requires k < |declared|
  {
    var id := declared[k].id;
    id in values && !Taken(declared, k, id) && GetType(values[id]) == declared[k].ty
  }

  /** Position `k` is the first declared member that does not fit. */
  predicate FirstMisfit(declared: seq<StructMember>, values: map<MemberId, TypedExpression>, k: nat)
    requires k < |declared|
  {
    (forall i :: 0 <= i < k ==> Fits(declared, values, i)) && !Fits(declared, values, k)
  }

  /** The error a misfit member gets: not found when its name has no value left, otherwise the declared
      type against the type found. */
  function MisfitError(declared: seq<StructMember>, values: map<MemberId, TypedExpression>, k: nat): InlineStructError
    requires k < |declared|
  {
    var id := declared[k].id;
    if id !in values || Taken(declared, k, id) then MissingMember(id)
    else WrongMemberType(id, declared[k].ty, GetType(values[id]))
  }

  /** Dropping the first declared member and its value shifts every later position by one. */
  lemma MisfitShift(declared: seq<StructMember>, values: map<MemberId, TypedExpression>, k: nat)
    requires 1 <= k < |declared|
    ensures Fits(declared, values, k) <==> Fits(declared[1..], values - {declared[0].id}, k - 1)
    ensures MisfitError(declared, values, k) == MisfitError(declared[1..], values - {declared[0].id}, k - 1)
  {
    var id := declared[k].id;
    assert declared[1..][k - 1] == declared[k];
    assert Taken(declared, k, id) <==> id == declared[0].id || Taken(declared[1..], k - 1, id) by {
      if Taken(declared, k, id) && id != declared[0].id {
        var i :| 0 <= i < k && declared[i].id == id;
        assert declared[1..][i - 1] == declared[i];
      }
      if Taken(declared[1..], k - 1, id) {
        var i :| 0 <= i < k - 1 && declared[1..][i].id == id;
        assert declared[i + 1] == declared[1..][i];
      }
    }
  }

  /** Picking fails exactly when some declared member does not fit, and then with the error of the
      first one: `MissingMember` when its name has no value left, `WrongMemberType` with the declared
      and the found type otherwise. */
  lemma {:induction false} PickMembersFirstMisfit(declared: seq<StructMember>, values: map<MemberId, TypedExpression>)
    ensures PickMembers(declared, values).Err? <==> exists k :: 0 <= k < |declared| && !Fits(declared, values, k)
    ensures forall k :: 0 <= k < |declared| && FirstMisfit(declared, values, k) ==>
              PickMembers(declared, values) == Err(MisfitError(declared, values, k))
    decreases |declared|
  {
    if declared != [] {
      var m := declared[0];
      var tail, rest := declared[1..], values - {m.id};
      assert !Taken(declared, 0, m.id);
      if Fits(declared, values, 0) {
        PickMembersFirstMisfit(tail, rest);
        forall k | 1 <= k < |declared| {
          MisfitShift(declared, values, k);
        }
        if PickMembers(declared, values).Err? {
          var k' :| 0 <= k' < |tail| && !Fits(tail, rest, k');
          assert !Fits(declared, values, k' + 1);
        }
        forall k | 0 <= k < |declared| && FirstMisfit(declared, values, k)
          ensures PickMembers(declared, values) == Err(MisfitError(declared, values, k))
        {
          assert k != 0;
          assert FirstMisfit(tail, rest, k - 1) by {
            forall i | 0 <= i < k - 1 ensures Fits(tail, rest, i) {
              assert Fits(declared, values, i + 1);
            }
          }
        }
      } else {
        forall k | 0 <= k < |declared| && FirstMisfit(declared, values, k)
          ensures PickMembers(declared, values) == Err(MisfitError(declared, values, k))
        {
          assert k == 0;
        }
      }
    }
  }

  /** A misfit member means there is a first one. */
  lemma {:induction false} FirstMisfitExists(declared: seq<StructMember>, values: map<MemberId, TypedExpression>, k: nat)
    requires k < |declared| && !Fits(declared, values, k)
    ensures exists j :: 0 <= j <= k && FirstMisfit(declared, values, j)
    decreases k
  {
    if !FirstMisfit(declared, values, k) {
      var i :| 0 <= i < k && !Fits(declared, values, i);
      FirstMisfitExists(declared, values, i);
    }
  }

  /** An inline struct `S { m: v, ... }` against the declared type of `S`: as many values as members,
      then every declared member in order takes its value, which must have the declared type. */
  function CheckInlineStruct(st: StructType, members: seq<InlineMember>): (r: Result<TypedExpression, InlineStructError>)
    ensures r == Err(MemberCountMismatch) <==> |st.members| != |members|
    ensures r.Ok? <==> |st.members| == |members| && PickMembers(st.members, ValueMap(members)).Ok?
    ensures r.Err? && |st.members| == |members| ==>
      exists k :: 0 <= k < |st.members| && FirstMisfit(st.members, ValueMap(members), k)
                  && r.error == MisfitError(st.members, ValueMap(members), k)
    ensures r.Ok? ==> GetType(r.value) == Struct(st) && r.value.s.inner.StructValue?
    ensures r.Ok? ==> var vals := r.value.s.inner.values;
      |vals| == |st.members| &&
      forall i :: 0 <= i < |vals| ==>
        GetType(vals[i]) == st.members[i].ty && exists j :: 0 <= j < |members| && members[j] == (st.members[i].id, vals[i])
  {
    if |st.members| != |members| then Err(MemberCountMismatch)
    else
      match PickMembers(st.members, ValueMap(members))
      case Err(e) =>
        PickMembersFirstMisfit(st.members, ValueMap(members));
        var k :| 0 <= k < |st.members| && !Fits(st.members, ValueMap(members), k);
        FirstMisfitExists(st.members, ValueMap(members), k);
        Err(e)
      case Ok(vals) =>
        assert forall i :: 0 <= i < |vals| ==> exists j :: 0 <= j < |members| && members[j] == (st.members[i].id, vals[i]) by {
          forall i | 0 <= i < |vals|
            ensures exists j :: 0 <= j < |members| && members[j] == (st.members[i].id, vals[i])
          {
            ValueMapSource(members, st.members[i].id);
          }
        }
        Ok(StructExp(StructExpression(st, StructValue(vals))))
  }

  /** The `invalid` inline-struct tests against `struct Foo { foo: field, bar: bool }`: a literal naming
      `baz` instead of `bar` misses `bar`, and one giving `bar` a field element has the wrong type for
      it. Any field constant stands for the tests' `42`, since the modulus is abstract. */
  lemma InlineStructErrorExamples()
    ensures var st := StructType([StructMember("foo", FieldElement), StructMember("bar", Boolean)]);
      var n := FieldElementExp(Number(0));
      CheckInlineStruct(st, [("baz", BooleanExp(Value(true))), ("foo", n)]) == Err(MissingMember("bar"))
      && CheckInlineStruct(st, [("bar", n), ("foo", n)]) == Err(WrongMemberType("bar", Boolean, FieldElement))
  {
    var st := StructType([StructMember("foo", FieldElement), StructMember("bar", Boolean)]);
    var n := FieldElementExp(Number(0));
    var a := [("baz", BooleanExp(Value(true))), ("foo", n)];
    var b := [("bar", n), ("foo", n)];
    assert a[..1] == [a[0]] && [a[0]][..0] == [];
    assert b[..1] == [b[0]] && [b[0]][..0] == [];
    assert "bar" != "foo" && "baz" != "bar" by {
      assert "bar"[0] != "foo"[0] && "baz"[2] != "bar"[2];
    }
    assert ValueMap(a) == map["baz" := a[0].1, "foo" := n];
    assert ValueMap(b) == map["bar" := n, "foo" := n];
    assert st.members[1..] == [StructMember("bar", Boolean)];
    assert PickMembers(st.members, ValueMap(a)) == Err(MissingMember("bar"));
    assert PickMembers(st.members, ValueMap(b)) == Err(WrongMemberType("bar", Boolean, FieldElement));
  }

  /** A value in the map comes from some member of the literal. */
  lemma {:induction false} ValueMapSource(members: seq<InlineMember>, id: MemberId)
    requires id in ValueMap(members)
    ensures exists j :: 0 <= j < |members| && members[j] == (id, ValueMap(members)[id])
    decreases |members|
  {
    var n := |members| - 1;
    var prefix := members[..n];
    if members[n].0 != id {
      assert id in ValueMap(prefix);
      ValueMapSource(prefix, id);
      var j :| 0 <= j < |prefix| && prefix[j] == (id, ValueMap(prefix)[id]);
      assert members[j] == prefix[j];
    } else {
      assert members[n] == (id, ValueMap(members)[id]);
    }
  }

  predicate DistinctInlineIds(members: seq<InlineMember>)
  {
    forall i, j :: 0 <= i < j < |members| ==> members[i].0 != members[j].0
  }

  /** With distinct names, a member's value in the map is the one the literal gives it. */
  lemma ValueMapOfDistinct(members: seq<InlineMember>, j: nat)
    requires DistinctInlineIds(members) && j < |members|
    ensures members[j].0 in ValueMap(members) && ValueMap(members)[members[j].0] == members[j].1
  {
    var id := members[j].0;
    ValueMapSource(members, id);
    var j' :| 0 <= j' < |members| && members[j'] == (id, ValueMap(members)[id]);
    assert j' == j;
  }

  /** Writing the members of an inline struct in another order gives the same result. */
  lemma InlineStructOrderIrrelevant(st: StructType, a: seq<InlineMember>, b: seq<InlineMember>)
    requires DistinctInlineIds(a) && DistinctInlineIds(b) && multiset(a) == multiset(b)
    ensures CheckInlineStruct(st, a) == CheckInlineStruct(st, b)
  {
    assert |a| == |b| by {
      assert |multiset(a)| == |multiset(b)|;
    }
    var ma, mb := ValueMap(a), ValueMap(b);
    forall id | id in ma ensures id in mb && mb[id] == ma[id] {
      ValueMapSource(a, id);
      var i :| 0 <= i < |a| && a[i] == (id, ma[id]);
      assert a[i] in multiset(b);
      var j :| 0 <= j < |b| && b[j] == a[i];
      ValueMapOfDistinct(b, j);
    }
    forall id | id in mb ensures id in ma {
      ValueMapSource(b, id);
      var j :| 0 <= j < |b| && b[j] == (id, mb[id]);
      assert b[j] in multiset(a);
    }
    assert ma == mb;
  }
}

=== FILE: typed_absy.dfy ===
/**
 * The typed abstract syntax tree produced by semantic checking.
 *
 * Expressions of basic types are plain sums; array, struct and uint expressions carry their type
 * annotation (element type and size, member list, bitwidth) beside an inner expression.
 * Binary operators that every pass treats alike are grouped under one constructor with an operator tag.
 */
module TypedAbsy {
  import opened Wrappers
  import opened Field
  import opened Identifiers
  import opened Types
  import Abi

  datatype FieldOp = FieldAdd | FieldSub | FieldMult | FieldDiv | FieldPow
  datatype CmpOp = Lt | Le | Ge | Gt
  datatype UOp = UAdd | USub | UMult | UDiv | URem | UXor | UAnd | UOr
  datatype ShiftOp = LeftShift | RightShift

  datatype TypedExpression =
    | BooleanExp(b: BooleanExpression)
    | FieldElementExp(f: FieldElementExpression)
    | UintExp(u: UExpression)
    | ArrayExp(a: ArrayExpression)
    | StructExp(s: StructExpression)

  datatype FieldElementExpression =
    | Number(n: Fe)
    | FieldIdentifier(id: Identifier)
    | FieldBinary(op: FieldOp, left: FieldElementExpression, right: FieldElementExpression)
    | FieldIfElse(condition: BooleanExpression, consequence: FieldElementExpression, alternative: FieldElementExpression)
    | FieldFunctionCall(key: FunctionKey, arguments: seq<TypedExpression>)
    | FieldMember(struc: StructExpression, member: MemberId)
    | FieldSelect(arr: ArrayExpression, index: FieldElementExpression)

  datatype BooleanExpression =
    | BoolIdentifier(id: Identifier)
    | Value(value: bool)
    | FieldCompare(cmp: CmpOp, fl: FieldElementExpression, fr: FieldElementExpression)
    | FieldEq(fl: FieldElementExpression, fr: FieldElementExpression)
    | BoolEq(bl: BooleanExpression, br: BooleanExpression)
    | ArrayEq(al: ArrayExpression, ar: ArrayExpression)
    | StructEq(sl: StructExpression, sr: StructExpression)
    | UintEq(ul: UExpression, ur: UExpression)
    | Or(bl: BooleanExpression, br: BooleanExpression)
    | And(bl: BooleanExpression, br: BooleanExpression)
    | Not(operand: BooleanExpression)
    | BoolIfElse(condition: BooleanExpression, consequence: BooleanExpression, alternative: BooleanExpression)
    | BoolMember(struc: StructExpression, member: MemberId)
    | BoolFunctionCall(key: FunctionKey, arguments: seq<TypedExpression>)
    | BoolSelect(arr: ArrayExpression, index: FieldElementExpression)

  datatype UExpression = UExpression(bitwidth: UBitwidth, inner: UExpressionInner)

  datatype UExpressionInner =
    | UValue(value: nat)
    | UIdentifier(id: Identifier)
    | UBinary(op: UOp, left: UExpression, right: UExpression)
    | UShift(shift: ShiftOp, operand: UExpression, amount: FieldElementExpression)
    | UNot(operand: UExpression)
    | UFunctionCall(key: FunctionKey, arguments: seq<TypedExpression>)
    | USelect(arr: ArrayExpression, index: FieldElementExpression)
    | UIfElse(condition: BooleanExpression, consequence: UExpression, alternative: UExpression)
    | UMember(struc: StructExpression, member: MemberId)

  /** An array expression with its element type `ty` and its `size`. */
  datatype ArrayExpression = ArrayExpression(size: nat, ty: Type, inner: ArrayExpressionInner)

  datatype ArrayExpressionInner =
    | ArrayIdentifier(id: Identifier)
    | ArrayValue(values: seq<TypedExpression>)
    | ArrayFunctionCall(key: FunctionKey, arguments: seq<TypedExpression>)
    | ArrayIfElse(condition: BooleanExpression, consequence: ArrayExpression, alternative: ArrayExpression)
    | ArrayMember(struc: StructExpression, member: MemberId)
    | ArraySelect(arr: ArrayExpression, index: FieldElementExpression)

  datatype StructExpression = StructExpression(ty: StructType, inner: StructExpressionInner)

  datatype StructExpressionInner =
    | StructIdentifier(id: Identifier)
    | StructValue(values: seq<TypedExpression>)
    | StructFunctionCall(key: FunctionKey, arguments: seq<TypedExpression>)
    | StructIfElse(condition: BooleanExpression, consequence: StructExpression, alternative: StructExpression)
    | StructMemberAccess(struc: StructExpression, member: MemberId)
    | StructSelect(arr: ArrayExpression, index: FieldElementExpression)

  datatype TypedExpressionList = FunctionCallList(key: FunctionKey, arguments: seq<TypedExpression>, types: seq<Type>)

  datatype TypedAssignee =
    | AssigneeIdentifier(variable: Variable)
    | AssigneeSelect(base: TypedAssignee, index: FieldElementExpression)
    | AssigneeMember(base: TypedAssignee, member: MemberId)

  datatype TypedStatement =
    | Return(expressions: seq<TypedExpression>)
    | Definition(assignee: TypedAssignee, expression: TypedExpression)
    | Declaration(variable: Variable)
    | Assertion(condition: BooleanExpression)
    | For(variable: Variable, start: FieldElementExpression, stop: FieldElementExpression, body: seq<TypedStatement>)
    | MultipleDefinition(assignees: seq<TypedAssignee>, call: TypedExpressionList)

  datatype TypedFunction = TypedFunction(arguments: seq<Parameter>, statements: seq<TypedStatement>, signature: Signature)

  /** A built-in (embedded) function, known here only by its name and signature. */
  datatype FlatEmbed = FlatEmbed(name: string, signature: Signature)

  datatype TypedFunctionSymbol =
    | Here(fun: TypedFunction)
    | There(key: FunctionKey, moduleId: ModuleId)
    | Flat(embed: FlatEmbed)

  datatype TypedModule = TypedModule(functions: map<FunctionKey, TypedFunctionSymbol>)

  datatype TypedProgram = TypedProgram(modules: map<ModuleId, TypedModule>, main: ModuleId)

  // ---------------------------------------------------------------- types of expressions

  /** `Typed::get_type` for every kind of expression. */
  function GetType(e: TypedExpression): (r: Type)
  {
    match e
    case BooleanExp(_) => Boolean
    case FieldElementExp(_) => FieldElement
    case UintExp(u) => Uint(u.bitwidth)
    case ArrayExp(a) => Array(ArrayType(a.ty, a.size))
    case StructExp(s) => Struct(s.ty)
  }

  /** The type of an expression determines which kind of expression it is, and its annotation. */
  lemma GetTypeDeterminesKind(e: TypedExpression)
    ensures GetType(e) == FieldElement <==> e.FieldElementExp?
    ensures GetType(e) == Boolean <==> e.BooleanExp?
    ensures GetType(e).Uint? <==> e.UintExp?
    ensures GetType(e).Uint? ==> GetType(e).bitwidth == e.u.bitwidth
    ensures GetType(e).Array? <==> e.ArrayExp?
    ensures GetType(e).Array? ==> GetType(e).arrayType == ArrayType(e.a.ty, e.a.size)
    ensures GetType(e).Struct? <==> e.StructExp?
    ensures GetType(e).Struct? ==> GetType(e).structType == e.s.ty
  {
  }

  /**
   * `TypedAssignee::get_type`. `None` stands for the source's panics: a select on something that
   * is not an array, a member access on something that is not a struct, or a missing member.
   */
  function AssigneeType(a: TypedAssignee): (r: Option<Type>)
    ensures a.AssigneeIdentifier? ==> r == Some(a.variable.ty)
    ensures a.AssigneeSelect? ==>
      (r.Some? <==> AssigneeType(a.base).Some? && AssigneeType(a.base).value.Array?)
    ensures a.AssigneeSelect? && r.Some? ==> r.value == AssigneeType(a.base).value.arrayType.ty
    ensures a.AssigneeMember? ==>
      (r.Some? <==> AssigneeType(a.base).Some? && AssigneeType(a.base).value.Struct?
                    && FindMember(AssigneeType(a.base).value.structType, a.member).Some?)
    ensures a.AssigneeMember? && r.Some? ==>
      r.value == FindMember(AssigneeType(a.base).value.structType, a.member).value.ty
  {
    match a
    case AssigneeIdentifier(v) => Some(v.ty)
    case AssigneeSelect(base, _) =>
      (match AssigneeType(base)
       case Some(Array(at)) => Some(at.ty)
       case _ => None)
    case AssigneeMember(base, m) =>
      (match AssigneeType(base)
       case Some(Struct(st)) =>
         (match FindMember(st, m)
          case Some(member) => Some(member.ty)
          case None => None)
       case _ => None)
  }

  // ---------------------------------------------------------------- downcasts

  datatype DowncastError = DowncastError

  function TryIntoField(e: TypedExpression): (r: Result<FieldElementExpression, DowncastError>)
    ensures r.Ok? <==> e.FieldElementExp?
    ensures r.Ok? ==> r.value == e.f && FieldElementExp(r.value) == e
  {
    match e
    case FieldElementExp(f) => Ok(f)
    case _ => Err(DowncastError)
  }

  function TryIntoBoolean(e: TypedExpression): (r: Result<BooleanExpression, DowncastError>)
    ensures r.Ok? <==> e.BooleanExp?
    ensures r.Ok? ==> r.value == e.b && BooleanExp(r.value) == e
  {
    match e
    case BooleanExp(b) => Ok(b)
    case _ => Err(DowncastError)
  }

  function TryIntoUint(e: TypedExpression): (r: Result<UExpression, DowncastError>)
    ensures r.Ok? <==> e.UintExp?
    ensures r.Ok? ==> r.value == e.u && UintExp(r.value) == e
  {
    match e
    case UintExp(u) => Ok(u)
    case _ => Err(DowncastError)
  }

  function TryIntoArray(e: TypedExpression): (r: Result<ArrayExpression, DowncastError>)
    ensures r.Ok? <==> e.ArrayExp?
    ensures r.Ok? ==> r.value == e.a && ArrayExp(r.value) == e
  {
    match e
    case ArrayExp(a) => Ok(a)
    case _ => Err(DowncastError)
  }

  function TryIntoStruct(e: TypedExpression): (r: Result<StructExpression, DowncastError>)
    ensures r.Ok? <==> e.StructExp?
    ensures r.Ok? ==> r.value == e.s && StructExp(r.value) == e
  {
    match e
    case StructExp(s) => Ok(s)
    case _ => Err(DowncastError)
  }

  /** Upcasting then downcasting gives the expression back; the other downcasts refuse it. */
  lemma DowncastRoundTrip(f: FieldElementExpression, b: BooleanExpression, u: UExpression,
                          a: ArrayExpression, s: StructExpression)
    ensures TryIntoField(FieldElementExp(f)) == Ok(f) && TryIntoBoolean(FieldElementExp(f)).Err?
    ensures TryIntoBoolean(BooleanExp(b)) == Ok(b) && TryIntoField(BooleanExp(b)).Err?
    ensures TryIntoUint(UintExp(u)) == Ok(u) && TryIntoArray(UintExp(u)).Err?
    ensures TryIntoArray(ArrayExp(a)) == Ok(a) && TryIntoStruct(ArrayExp(a)).Err?
    ensures TryIntoStruct(StructExp(s)) == Ok(s) && TryIntoUint(StructExp(s)).Err?
  {
  }

  /** A downcast succeeds exactly on expressions whose type is of the target kind. */
  lemma DowncastAgreesWithType(e: TypedExpression)
    ensures TryIntoField(e).Ok? <==> GetType(e) == FieldElement
    ensures TryIntoBoolean(e).Ok? <==> GetType(e) == Boolean
    ensures TryIntoUint(e).Ok? <==> GetType(e).Uint?
    ensures TryIntoArray(e).Ok? <==> GetType(e).Array?
    ensures TryIntoStruct(e).Ok? <==> GetType(e).Struct?
  {
    GetTypeDeterminesKind(e);
  }

  // ---------------------------------------------------------------- IfElse

  /** The field conditional; its type is the subject of `IfElseKeepsConsequenceType`. */
  function FieldIfElseOf(c: BooleanExpression, cons: FieldElementExpression, alt: FieldElementExpression): (r: FieldElementExpression)
  {
    FieldIfElse(c, cons, alt)
  }

  /** The boolean conditional; its type is the subject of `IfElseKeepsConsequenceType`. */
  function BoolIfElseOf(c: BooleanExpression, cons: BooleanExpression, alt: BooleanExpression): (r: BooleanExpression)
  {
    BoolIfElse(c, cons, alt)
  }

  /** The result's bitwidth is the consequence's; the alternative's is not consulted. */
  function UIfElseOf(c: BooleanExpression, cons: UExpression, alt: UExpression): (r: UExpression)
    ensures r.bitwidth == cons.bitwidth
    ensures r.inner == UIfElse(c, cons, alt)
  {
    UExpression(cons.bitwidth, UIfElse(c, cons, alt))
  }

  /** Element type and size come from the consequence. */
  function ArrayIfElseOf(c: BooleanExpression, cons: ArrayExpression, alt: ArrayExpression): (r: ArrayExpression)
    ensures r.ty == cons.ty && r.size == cons.size
    ensures r.inner == ArrayIfElse(c, cons, alt)
  {
    ArrayExpression(cons.size, cons.ty, ArrayIfElse(c, cons, alt))
  }

  /** The struct type comes from the consequence. */
  function StructIfElseOf(c: BooleanExpression, cons: StructExpression, alt: StructExpression): (r: StructExpression)
    ensures r.ty == cons.ty
    ensures r.inner == StructIfElse(c, cons, alt)
  {
    StructExpression(cons.ty, StructIfElse(c, cons, alt))
  }

  /** A conditional built from a consequence has the consequence's type, whatever the alternative. */
  lemma IfElseKeepsConsequenceType(c: BooleanExpression, cons: TypedExpression, alt: TypedExpression)
    requires cons.FieldElementExp? == alt.FieldElementExp? && cons.BooleanExp? == alt.BooleanExp?
    requires cons.UintExp? == alt.UintExp? && cons.ArrayExp? == alt.ArrayExp? && cons.StructExp? == alt.StructExp?
    ensures cons.FieldElementExp? ==> GetType(FieldElementExp(FieldIfElseOf(c, cons.f, alt.f))) == GetType(cons)
    ensures cons.BooleanExp? ==> GetType(BooleanExp(BoolIfElseOf(c, cons.b, alt.b))) == GetType(cons)
    ensures cons.UintExp? ==> GetType(UintExp(UIfElseOf(c, cons.u, alt.u))) == GetType(cons)
    ensures cons.ArrayExp? ==> GetType(ArrayExp(ArrayIfElseOf(c, cons.a, alt.a))) == GetType(cons)
    ensures cons.StructExp? ==> GetType(StructExp(StructIfElseOf(c, cons.s, alt.s))) == GetType(cons)
  {
  }

  // ---------------------------------------------------------------- Select

  /** Selecting a field element; its type is the subject of `SelectElementHasElementType`. */
  function FieldSelectOf(a: ArrayExpression, i: FieldElementExpression): (r: FieldElementExpression)
  {
    FieldSelect(a, i)
  }

  /** Selecting a boolean; its type is the subject of `SelectElementHasElementType`. */
  function BoolSelectOf(a: ArrayExpression, i: FieldElementExpression): (r: BooleanExpression)
  {
    BoolSelect(a, i)
  }

  /** Selecting from an array of uints: the bitwidth is the element type's. */
  function USelectOf(a: ArrayExpression, i: FieldElementExpression): (r: UExpression)
    requires a.ty.Uint?
    ensures Uint(r.bitwidth) == a.ty
    ensures r.inner == USelect(a, i)
  {
    UExpression(a.ty.bitwidth, USelect(a, i))
  }

  /** Selecting from an array of arrays: element type and size are the inner array type's. */
  function ArraySelectOf(a: ArrayExpression, i: FieldElementExpression): (r: ArrayExpression)
    requires a.ty.Array?
    ensures Array(ArrayType(r.ty, r.size)) == a.ty
    ensures r.inner == ArraySelect(a, i)
  {
    ArrayExpression(a.ty.arrayType.size, a.ty.arrayType.ty, ArraySelect(a, i))
  }

  /** Selecting from an array of structs: the members are the element type's. */
  function StructSelectOf(a: ArrayExpression, i: FieldElementExpression): (r: StructExpression)
    requires a.ty.Struct?
    ensures Struct(r.ty) == a.ty
    ensures r.inner == StructSelect(a, i)
  {
    StructExpression(a.ty.structType, StructSelect(a, i))
  }

  /** The element at index `i` of `a`, built by the select constructor that fits `a`'s element type. */
  function SelectElement(a: ArrayExpression, i: FieldElementExpression): (r: TypedExpression)
  {
    match a.ty
    case FieldElement => FieldElementExp(FieldSelectOf(a, i))
    case Boolean => BooleanExp(BoolSelectOf(a, i))
    case Uint(_) => UintExp(USelectOf(a, i))
    case Array(_) => ArrayExp(ArraySelectOf(a, i))
    case Struct(_) => StructExp(StructSelectOf(a, i))
  }

  /** A selected element always has the array's element type. */
  lemma SelectElementHasElementType(a: ArrayExpression, i: FieldElementExpression)
    ensures GetType(SelectElement(a, i)) == a.ty
  {
  }

  // ---------------------------------------------------------------- Member

  /** A field member access; its type is the subject of `MemberElementHasDeclaredType`. */
  function FieldMemberOf(s: StructExpression, m: MemberId): (r: FieldElementExpression)
  {
    FieldMember(s, m)
  }

  /** A boolean member access; its type is the subject of `MemberElementHasDeclaredType`. */
  function BoolMemberOf(s: StructExpression, m: MemberId): (r: BooleanExpression)
  {
    BoolMember(s, m)
  }

  /** A uint member: the bitwidth is the one declared for the (first) member named `m`. */
  function UMemberOf(s: StructExpression, m: MemberId): (r: UExpression)
    requires FindMember(s.ty, m).Some? && FindMember(s.ty, m).value.ty.Uint?
    ensures Uint(r.bitwidth) == FindMember(s.ty, m).value.ty
    ensures r.inner == UMember(s, m)
  {
    UExpression(FindMember(s.ty, m).value.ty.bitwidth, UMember(s, m))
  }

  /** An array member: element type and size as declared for `m`. */
  function ArrayMemberOf(s: StructExpression, m: MemberId): (r: ArrayExpression)
    requires FindMember(s.ty, m).Some? && FindMember(s.ty, m).value.ty.Array?
    ensures Array(ArrayType(r.ty, r.size)) == FindMember(s.ty, m).value.ty
    ensures r.inner == ArrayMember(s, m)
  {
    var at := FindMember(s.ty, m).value.ty.arrayType;
    ArrayExpression(at.size, at.ty, ArrayMember(s, m))
  }

  /** A struct member: its members as declared for `m`. */
  function StructMemberOf(s: StructExpression, m: MemberId): (r: StructExpression)
    requires FindMember(s.ty, m).Some? && FindMember(s.ty, m).value.ty.Struct?
    ensures Struct(r.ty) == FindMember(s.ty, m).value.ty
    ensures r.inner == StructMemberAccess(s, m)
  {
    StructExpression(FindMember(s.ty, m).value.ty.structType, StructMemberAccess(s, m))
  }

  /** Member `m` of `s`, built by the member constructor that fits the member's declared type. */
  function MemberElement(s: StructExpression, m: MemberId): (r: TypedExpression)
    requires FindMember(s.ty, m).Some?
  {
    match FindMember(s.ty, m).value.ty
    case FieldElement => FieldElementExp(FieldMemberOf(s, m))
    case Boolean => BooleanExp(BoolMemberOf(s, m))
    case Uint(_) => UintExp(UMemberOf(s, m))
    case Array(_) => ArrayExp(ArrayMemberOf(s, m))
    case Struct(_) => StructExp(StructMemberOf(s, m))
  }

  /** A member access has the type declared for that member in the struct type. */
  lemma MemberElementHasDeclaredType(s: StructExpression, m: MemberId)
    requires FindMember(s.ty, m).Some?
    ensures GetType(MemberElement(s, m)) == FindMember(s.ty, m).value.ty
  {
  }

  // ---------------------------------------------------------------- ABI

  /** The interface read off a `main` function: one input per argument, in order. */
  function AbiOfMain(main: TypedFunction): (r: Abi.Abi)
    ensures |r.inputs| == |main.arguments|
    ensures forall i :: 0 <= i < |main.arguments| ==>
      && r.inputs[i].name == Display(main.arguments[i].id.id)
      && r.inputs[i].ty == main.arguments[i].id.ty
      && r.inputs[i].public == !main.arguments[i].private
    ensures r.outputs == main.signature.outputs
  {
    Abi.Abi(
      seq(|main.arguments|, i requires 0 <= i < |main.arguments| =>
        var p := main.arguments[i];
        Abi.AbiInput(Display(p.id.id), !p.private, p.id.ty)),
      main.signature.outputs)
  }

  /** When the arguments' types are the signature's inputs, the interface's signature is `main`'s. */
  lemma AbiSignatureIsMainSignature(main: TypedFunction)
    requires |main.arguments| == |main.signature.inputs|
    requires forall i :: 0 <= i < |main.arguments| ==> main.arguments[i].id.ty == main.signature.inputs[i]
    ensures Abi.SignatureOf(AbiOfMain(main)) == main.signature
  {
    var s := Abi.SignatureOf(AbiOfMain(main));
    assert s.inputs == main.signature.inputs;
  }

  /** The entry point is the function called `main`. */
  predicate IsMainKey(k: FunctionKey)
  {
    k.id == "main"
  }

  /** The main module holds a function named `main`, and every such function is defined there. */
  ghost predicate HasLocalMain(p: TypedProgram)
  {
    && p.main in p.modules
    && (exists k :: k in p.modules[p.main].functions && IsMainKey(k))
    && (forall k :: k in p.modules[p.main].functions && IsMainKey(k) ==> p.modules[p.main].functions[k].Here?)
  }

  /**
   * `TypedProgram::abi`: the interface of a function named `main` in the main module. Which one is
   * taken when there are several depends on hash-map order, so any of them may be chosen here.
   */
  ghost function ProgramAbi(p: TypedProgram): (r: Abi.Abi)
    requires HasLocalMain(p)
    ensures exists k :: k in p.modules[p.main].functions && IsMainKey(k) && r == AbiOfMain(p.modules[p.main].functions[k].fun)
  {
    var k :| k in p.modules[p.main].functions && IsMainKey(k);
    AbiOfMain(p.modules[p.main].functions[k].fun)
  }

  // ---------------------------------------------------------------- signatures of symbols

  /**
   * `TypedFunctionSymbol::signature`, following imports through `modules`. `fuel` bounds the number
   * of imports followed; `None` means a missing module or key (a panic in the source) or fuel ran out.
   */
  function SymbolSignature(s: TypedFunctionSymbol, modules: map<ModuleId, TypedModule>, fuel: nat): (r: Option<Signature>)
    ensures s.Here? ==> r == Some(s.fun.signature)
    ensures s.Flat? ==> r == Some(s.embed.signature)
    decreases fuel
  {
    match s
    case Here(f) => Some(f.signature)
    case Flat(e) => Some(e.signature)
    case There(key, m) =>
      if fuel == 0 || m !in modules || key !in modules[m].functions then None
      else SymbolSignature(modules[m].functions[key], modules, fuel - 1)
  }

  /** An imported symbol has the signature of the symbol it points to. */
  lemma ThereResolvesToTarget(key: FunctionKey, m: ModuleId, modules: map<ModuleId, TypedModule>, fuel: nat)
    requires m in modules && key in modules[m].functions
    ensures SymbolSignature(There(key, m), modules, fuel + 1) == SymbolSignature(modules[m].functions[key], modules, fuel)
  {
  }

  /** Once a signature is found, more fuel finds the same one. */
  lemma {:induction false} SymbolSignatureFuelMonotone(s: TypedFunctionSymbol, modules: map<ModuleId, TypedModule>, fuel: nat, more: nat)
    requires fuel <= more
    requires SymbolSignature(s, modules, fuel).Some?
    ensures SymbolSignature(s, modules, more) == SymbolSignature(s, modules, fuel)
    decreases fuel
  {
    match s
    case Here(_) =>
    case Flat(_) =>
    case There(key, m) =>
      SymbolSignatureFuelMonotone(modules[m].functions[key], modules, fuel - 1, more - 1);
  }
}

=== FILE: types.dfy ===
/**
 * The resolved types of the typed AST, function signatures and keys, variables and parameters.
 * Only the shapes the core relies on are given: a struct type is its ordered member list.
 */
module Types {
  import opened Wrappers
  import opened Identifiers

  datatype UBitwidth = B8 | B16 | B32

  type MemberId = string

  datatype Type =
    | FieldElement
    | Boolean
    | Uint(bitwidth: UBitwidth)
    | Array(arrayType: ArrayType)
    | Struct(structType: StructType)

  datatype ArrayType = ArrayType(ty: Type, size: nat)

  datatype StructMember = StructMember(id: MemberId, ty: Type)

  datatype StructType = StructType(members: seq<StructMember>)

  datatype Signature = Signature(inputs: seq<Type>, outputs: seq<Type>)

  /** A function is identified by its name together with its signature (overloading). */
  datatype FunctionKey = FunctionKey(id: string, signature: Signature)

  datatype Variable = Variable(id: Identifier, ty: Type)

  datatype Parameter = Parameter(id: Variable, private: bool)

  /** `members.iter().find(|m| m.id == id)`: the first member named `id`. */
  function FindMember(st: StructType, id: MemberId): (r: Option<StructMember>)
    ensures r.Some? <==> exists j :: 0 <= j < |st.members| && st.members[j].id == id
    ensures r.Some? ==> r.value.id == id && r.value in st.members
    ensures r.Some? ==>
      exists j :: 0 <= j < |st.members| && st.members[j] == r.value && forall k :: 0 <= k < j ==> st.members[k].id != id
    decreases |st.members|
  {
    if st.members == [] then None
    else if st.members[0].id == id then Some(st.members[0])
    else
      var r := FindMember(StructType(st.members[1..]), id);
      assert forall j :: 1 <= j < |st.members| ==> st.members[j] == st.members[1..][j - 1];
      r
  }
}

=== FILE: variable_read_remover.dfy ===
/**
 * The rewriting rule of the variable read remover: a read `a[i]` whose index is not a constant becomes
 * a chain `if i == 0 then a[0] else if i == 1 then a[1] ... else a[n-1]`, and an assertion that `i` is
 * one of `0 .. n-1` is queued to be emitted before the statement that contained the read.
 *
 * The source's `select` is generic in the kind of element read; here the kind is a parameter and the
 * element a `TypedExpression` of that kind.
 */
module VariableReadRemoval {
  import opened Wrappers
  import opened Field
  import opened Identifiers
  import opened Types
  import opened TypedAbsy

  datatype Kind = FieldKind | BoolKind | UintKind | ArrayKind | StructKind

  function KindOf(e: TypedExpression): Kind
  {
    match e
    case FieldElementExp(_) => FieldKind
    case BooleanExp(_) => BoolKind
    case UintExp(_) => UintKind
    case ArrayExp(_) => ArrayKind
    case StructExp(_) => StructKind
  }

  /** The kind of expression that has type `ty`. */
  function KindOfType(ty: Type): Kind
  {
    match ty
    case FieldElement => FieldKind
    case Boolean => BoolKind
    case Uint(_) => UintKind
    case Array(_) => ArrayKind
    case Struct(_) => StructKind
  }

  /**
   * `U::select(a, _)` does not panic: uint, array and struct selects read their annotation off the
   * element type, which must be of that kind; field and boolean selects accept any array.
   */
  predicate CanSelect(k: Kind, a: ArrayExpression)
  {
    match k
    case UintKind => a.ty.Uint?
    case ArrayKind => a.ty.Array?
    case StructKind => a.ty.Struct?
    case _ => true
  }

  /** `U::select(a, i)` for the kind `k`. */
  function SelectAs(k: Kind, a: ArrayExpression, i: FieldElementExpression): (r: TypedExpression)
    requires CanSelect(k, a)
    ensures KindOf(r) == k
    ensures k == KindOfType(a.ty) ==> r == SelectElement(a, i) && GetType(r) == a.ty
  {
    SelectElementHasElementType(a, i);
    match k
    case FieldKind => FieldElementExp(FieldSelectOf(a, i))
    case BoolKind => BooleanExp(BoolSelectOf(a, i))
    case UintKind => UintExp(USelectOf(a, i))
    case ArrayKind => ArrayExp(ArraySelectOf(a, i))
    case StructKind => StructExp(StructSelectOf(a, i))
  }

  /** `U::if_else(c, x, y)` for two expressions of the same kind. */
  function IfElseAs(c: BooleanExpression, x: TypedExpression, y: TypedExpression): (r: TypedExpression)
    requires KindOf(x) == KindOf(y)
    ensures KindOf(r) == KindOf(x)
    ensures GetType(r) == GetType(x)
  {
    match x
    case FieldElementExp(fx) => FieldElementExp(FieldIfElseOf(c, fx, y.f))
    case BooleanExp(bx) => BooleanExp(BoolIfElseOf(c, bx, y.b))
    case UintExp(ux) => UintExp(UIfElseOf(c, ux, y.u))
    case ArrayExp(ax) => ArrayExp(ArrayIfElseOf(c, ax, y.a))
    case StructExp(sx) => StructExp(StructIfElseOf(c, sx, y.s))
  }

  /** The test `i == k`, the constant written as a field element. */
  function IndexIs(i: FieldElementExpression, k: nat): BooleanExpression
  {
    FieldEq(i, Number(FromNat(k)))
  }

  /** The left-nested disjunction `((i == 0 || i == 1) || ...) || i == n-1`. */
  function Guard(i: FieldElementExpression, n: nat): (r: BooleanExpression)
    requires n >= 1
    ensures n == 1 ==> r == IndexIs(i, 0)
    ensures n > 1 ==> r.Or? && r.br == IndexIs(i, n - 1)
  {
    if n == 1 then IndexIs(i, 0) else Or(Guard(i, n - 1), IndexIs(i, n - 1))
  }

  /** The right-nested chain of reads from index `from` on; the last element carries no test. */
  function Chain(k: Kind, a: ArrayExpression, i: FieldElementExpression, from: nat): (r: TypedExpression)
    requires CanSelect(k, a) && from < a.size
    ensures KindOf(r) == k
    decreases a.size - from
  {
    var here := SelectAs(k, a, Number(FromNat(from)));
    if from == a.size - 1 then here
    else IfElseAs(IndexIs(i, from), here, Chain(k, a, i, from + 1))
  }

  /**
   * `VariableReadRemover::select`: a constant index leaves the read as it is and queues nothing;
   * any other index queues one guard assertion and yields the chain. The source unwraps an empty
   * fold when the array is empty, so a non-constant read needs at least one element.
   */
  function Select(k: Kind, a: ArrayExpression, i: FieldElementExpression, q: seq<TypedStatement>): (r: (TypedExpression, seq<TypedStatement>))
    requires CanSelect(k, a)
    requires !i.Number? ==> a.size >= 1
    ensures KindOf(r.0) == k
    ensures i.Number? ==> r.0 == SelectAs(k, a, i) && r.1 == q
    ensures !i.Number? ==> r.1 == q + [Assertion(Guard(i, a.size))]
    ensures !i.Number? ==> r.0 == Chain(k, a, i, 0)
  {
    if i.Number? then (SelectAs(k, a, i), q)
    else (Chain(k, a, i, 0), q + [Assertion(Guard(i, a.size))])
  }

  // ---------------------------------------------------------------- meaning of the rewrite

  /**
   * The value of a field expression when the variables have the values in `env`; `None` for
   * constructs this evaluator does not cover (division, powers, calls, reads, members).
   */
  function EvalField(e: FieldElementExpression, env: map<Identifier, Fe>): Option<Fe>
  {
    match e
    case Number(n) => Some(n)
    case FieldIdentifier(x) => if x in env then Some(env[x]) else None
    case FieldBinary(op, l, r) =>
      (match (EvalField(l, env), EvalField(r, env))
       case (Some(x), Some(y)) =>
         (match op
          case FieldAdd => Some(FAdd(x, y))
          case FieldSub => Some(FSub(x, y))
          case FieldMult => Some(FMul(x, y))
          case _ => None)
       case _ => None)
    case FieldIfElse(c, x, y) =>
      (match EvalBool(c, env)
       case Some(true) => EvalField(x, env)
       case Some(false) => EvalField(y, env)
       case None => None)
    case _ => None
  }

  /** The truth of a boolean expression over field variables, in the same fragment. */
  function EvalBool(b: BooleanExpression, env: map<Identifier, Fe>): Option<bool>
  {
    match b
    case Value(v) => Some(v)
    case FieldEq(l, r) =>
      (match (EvalField(l, env), EvalField(r, env))
       case (Some(x), Some(y)) => Some(x == y)
       case _ => None)
    case Or(x, y) =>
      (match (EvalBool(x, env), EvalBool(y, env))
       case (Some(u), Some(w)) => Some(u || w)
       case _ => None)
    case And(x, y) =>
      (match (EvalBool(x, env), EvalBool(y, env))
       case (Some(u), Some(w)) => Some(u && w)
       case _ => None)
    case Not(x) =>
      (match EvalBool(x, env)
       case Some(u) => Some(!u)
       case None => None)
    case BoolIfElse(c, x, y) =>
      (match EvalBool(c, env)
       case Some(true) => EvalBool(x, env)
       case Some(false) => EvalBool(y, env)
       case None => None)
    case _ => None
  }

  /** Resolving the outer conditionals of an expression whose conditions can be evaluated under `env`. */
  function Resolve(e: TypedExpression, env: map<Identifier, Fe>): TypedExpression
  {
    match e
    case FieldElementExp(f) => FieldElementExp(ResolveField(f, env))
    case BooleanExp(b) => BooleanExp(ResolveBool(b, env))
    case UintExp(u) => UintExp(ResolveUint(u, env))
    case ArrayExp(a) => ArrayExp(ResolveArray(a, env))
    case StructExp(s) => StructExp(ResolveStruct(s, env))
  }

  function ResolveField(e: FieldElementExpression, env: map<Identifier, Fe>): FieldElementExpression
  {
    if e.FieldIfElse? && EvalBool(e.condition, env).Some? then
      ResolveField(if EvalBool(e.condition, env).value then e.consequence else e.alternative, env)
    else e
  }

  function ResolveBool(e: BooleanExpression, env: map<Identifier, Fe>): BooleanExpression
  {
    if e.BoolIfElse? && EvalBool(e.condition, env).Some? then
      ResolveBool(if EvalBool(e.condition, env).value then e.consequence else e.alternative, env)
    else e
  }

  function ResolveUint(e: UExpression, env: map<Identifier, Fe>): UExpression
  {
    if e.inner.UIfElse? && EvalBool(e.inner.condition, env).Some? then
      ResolveUint(if EvalBool(e.inner.condition, env).value then e.inner.consequence else e.inner.alternative, env)
    else e
  }

  function ResolveArray(e: ArrayExpression, env: map<Identifier, Fe>): ArrayExpression
  {
    if e.inner.ArrayIfElse? && EvalBool(e.inner.condition, env).Some? then
      ResolveArray(if EvalBool(e.inner.condition, env).value then e.inner.consequence else e.inner.alternative, env)
    else e
  }

  function ResolveStruct(e: StructExpression, env: map<Identifier, Fe>): StructExpression
  {
    if e.inner.StructIfElse? && EvalBool(e.inner.condition, env).Some? then
      ResolveStruct(if EvalBool(e.inner.condition, env).value then e.inner.consequence else e.inner.alternative, env)
    else e
  }

  /** A conditional built by `IfElseAs` resolves through whichever branch its condition picks. */
  lemma ResolveIfElse(c: BooleanExpression, x: TypedExpression, y: TypedExpression, env: map<Identifier, Fe>)
    requires KindOf(x) == KindOf(y)
    requires EvalBool(c, env).Some?
    ensures Resolve(IfElseAs(c, x, y), env) == Resolve(if EvalBool(c, env).value then x else y, env)
  {
  }

  /** A read is not a conditional, so resolving leaves it alone. */
  lemma ResolveSelect(k: Kind, a: ArrayExpression, i: FieldElementExpression, env: map<Identifier, Fe>)
    requires CanSelect(k, a)
    ensures Resolve(SelectAs(k, a, i), env) == SelectAs(k, a, i)
  {
  }

  /** The constants `0 .. n-1` stay distinct as field elements when `n <= P`. */
  lemma IndexIsMeaning(i: FieldElementExpression, k: nat, env: map<Identifier, Fe>, v: Fe)
    requires k < P
    requires EvalField(i, env) == Some(v)
    ensures EvalBool(IndexIs(i, k), env) == Some(v == k)
  {
  }

  /**
   * The queued guard holds exactly when the index is in range. Beyond `P` elements the constants
   * wrap around, but then every field value is already below `n - 1`, so the guard still holds.
   */
  lemma {:induction false} GuardMeaning(i: FieldElementExpression, n: nat, env: map<Identifier, Fe>, v: Fe)
    requires 1 <= n
    requires EvalField(i, env) == Some(v)
    ensures EvalBool(Guard(i, n), env) == Some(v < n)
    decreases n
  {
    if n <= P {
      IndexIsMeaning(i, n - 1, env, v);
      if n > 1 {
        GuardMeaning(i, n - 1, env, v);
      }
    } else {
      GuardMeaning(i, n - 1, env, v);
      assert EvalBool(IndexIs(i, n - 1), env).Some?;
      assert v < n - 1;
    }
  }

  /** From position `from` on, an index `v >= from` in range resolves the chain to the read of element `v`. */
  lemma {:induction false} ChainResolvesFrom(k: Kind, a: ArrayExpression, i: FieldElementExpression, from: nat,
                                             env: map<Identifier, Fe>, v: Fe)
    requires CanSelect(k, a) && a.size <= P
    requires from <= v < a.size
    requires EvalField(i, env) == Some(v)
    ensures Resolve(Chain(k, a, i, from), env) == SelectAs(k, a, Number(v))
    decreases a.size - from
  {
    var here := SelectAs(k, a, Number(FromNat(from)));
    ResolveSelect(k, a, Number(FromNat(from)), env);
    if from < a.size - 1 {
      IndexIsMeaning(i, from, env, v);
      ResolveIfElse(IndexIs(i, from), here, Chain(k, a, i, from + 1), env);
      if v != from {
        ChainResolvesFrom(k, a, i, from + 1, env, v);
      }
    }
  }

  /**
   * The meaning of the rewrite: when the index evaluates to `v` and the guard holds, the chain
   * selects element `v`, which is what the original read denoted; when the guard fails, the
   * queued assertion is false.
   */
  lemma SelectPreservesMeaning(k: Kind, a: ArrayExpression, i: FieldElementExpression, q: seq<TypedStatement>,
                               env: map<Identifier, Fe>, v: Fe)
    requires CanSelect(k, a) && !i.Number? && 1 <= a.size <= P
    requires EvalField(i, env) == Some(v)
    ensures EvalBool(Select(k, a, i, q).1[|q|].condition, env) == Some(v < a.size)
    ensures v < a.size ==> Resolve(Select(k, a, i, q).0, env) == SelectAs(k, a, Number(v))
  {
    GuardMeaning(i, a.size, env, v);
    if v < a.size {
      ChainResolvesFrom(k, a, i, 0, env, v);
    }
  }
}

=== FILE: wrappers.dfy ===
/** Option and Result, the two failure-carrying shapes the compiler uses. */
module Wrappers {

  datatype Option<+T> = None | Some(value: T)

  /** `Ok` carries the value, `Err` the error kind (error messages and positions are not modelled). */
  datatype Result<+R, +E> = Ok(value: R) | Err(error: E)
}
